=== FILE: README.md ===
# YuE-extend Stage 1: the token-sequence controller in Dafny

YuE-extend generates songs in two stages. Stage 1 turns genre tags and
`[tag]`-structured lyrics into one long sequence of language-model token ids.
The sequence alternates text prompts with blocks of audio-codec ids, and each
block is framed by a start-of-audio (soa) and an end-of-audio (eoa) id. This
project models the part of Stage 1 that builds and manages that sequence:

- the lyrics splitter and the prompt texts (`get_prompt_texts`);
- the prompt builders, including the reference-audio block
  (`get_first_segment_prompt`, `get_segment_prompt`, `get_audio_prompt_ids`);
- interleaving the vocal and instrumental tracks, and the inverse in `save`;
- the context-window policy (`max_context = cache_size - max_new_tokens - 1`);
- the segment state machine of the ExLlamaV2 back end, including resume,
  continuation (`--extend_mp3`), the two guidance lanes, the sampling loop
  and the checkpoints;
- the segment loop of the Hugging Face back end;
- the argument checks of `main`;
- the pure helpers of `common.py` and `interface.py`: filename
  sanitisation, cache-mode selection, the token-range blocker, model
  classification, quantization detection, genre dedupe and sort, the upload
  name substitution and the download-file check.

The neural model, the audio codec, the tokenizer and the sampler are
parameters:
- the tokenizer is a function `string -> seq<int>` inside `Prompts.Vocab`,
  together with the soa, eoa and separator ids;
- the codec maps an audio path to its codec ids (`Pipeline.Env.codes`);
- the sampler maps the cache content, the segment's guidance scale and the
  draw number to an index into
  the allowed-id list `[32002] + list(range(45334, 56722))`, so every sampled
  id is allowed by construction;
- the HF model's `generate` is a function from the input window and the
  guidance scale to its continuation (`PipelineHf.Continuation`).

The key/value cache is represented by the token content of its rows. A
forward that would pass `max_seq_len` is the error `CacheOverflow`. The
checkpoint directory `segments/` is a map from segment index to checkpoint
record.

Modules follow the source:
- `Text`, `PySeq`, `Wrappers`: string and Python-slice helpers;
- `Lyrics`: `split_lyrics` and `get_prompt_texts`;
- `Prompts`: the prompt builders;
- `Tracks`: interleaving and trimming;
- `Decode`: `save`;
- `Window`: the window policy and the cache forward;
- `Guidance`: `SampleSettings`, the batch size and the lane masks;
- `Lanes`: batches of identical rows;
- `Sampling`: the sampling loop of one segment;
- `Pipeline`: `Stage1Pipeline_EXL2.generate`;
- `PipelineHf`: `Stage1Pipeline_HF.generate`;
- `Cli`: the checks at the top of `main`;
- `Common` and `Interface`: `common.py` and `interface.py`;
- `Genres`: `load_and_process_genres`.

## Model

| member | source | states |
|---|---|---|
| Common.SanitizeFilename | common.py:230-231 | Every output character is either an input character outside `<>:"/\|?*` or comes from the replacement. With a one-character replacement the length is kept and each reserved character, and only those, is replaced. |
| Common.SanitizeRemovesReserved | common.py:230-231 | If the replacement holds no reserved character, the output holds none. |
| Common.SanitizeIdempotent | common.py:230-231 | With the default `"_"`, sanitising twice is sanitising once. |
| Common.GetCacheClass | common.py:243-251 | "Q4", "Q6" and "Q8" select their quantized caches, each exactly for that string. Every other mode selects the FP16 cache. |
| Common.BlockTokenRange | common.py:254-260 | The processor fails (an out-of-range index) exactly when a non-empty range reaches outside the vocabulary. Otherwise it sets exactly the columns of `[start, end)`, Python-indexed, to minus infinity in every row, and keeps every other score and the shape. |
| Common.EmptyRangeBlocksNothing | common.py:255-256 | A range with `end <= start`, such as `(32016, 32016)`, leaves the scores unchanged. |
| Common.BlockIdempotent | common.py:258-260 | Applying the processor twice equals applying it once. |
| Common.BlockRowsUniform | common.py:258-260 | Equal rows stay equal, so both guidance rows are treated alike. |
| Common.StageOneProcessorsAllowFrom32002 | src/yue/infer_stage1.py:393-398 | The two HF processors together block exactly the ids below 32002. |
| Interface.GetModels | interface.py:55-81 | A missing directory gives three empty lists. Otherwise each sub-directory's joined path is appended, in listing order, to the stage-1 list when its lower-cased name contains "s1", to the stage-2 list when it contains "s2", and to the both-stage list when it contains neither. Every listed path comes from such a directory. |
| Interface.ListedHas | interface.py:72-81 | Every sub-directory that serves a stage has its joined path in that stage's list. |
| Interface.ListedFrom | interface.py:72-81 | Every path in a stage's list is the joined path of a sub-directory that serves that stage. |
| Interface.ChoicesCoverModels | interface.py:100-102 | Every model directory appears among the stage-1 or the stage-2 choices. A both-stage model appears among both. |
| Interface.StageChoices | interface.py:101-102 | A stage's choices are its own models, in order, followed by the both-stage models. |
| Interface.QuantizationType | interface.py:84-96 | The result is one of int4, nf4, int8 and bf16. The lower-cased basename is tested for "-int4", then "-nf4", then "-int8", and bf16 is the fallback. |
| Interface.SafeUploadName | interface.py:302 | The length is kept. Each character is kept when it is an ASCII letter, a digit or `.`, and replaced by `_` otherwise, so every output character is safe or `_`. |
| Interface.SafeUploadNameIdempotent | interface.py:302 | The substitution is idempotent. |
| Interface.CheckCandidate | interface.py:167-174 | A path is offered exactly when it is not a directory, exists, and ends in `.mp3` in any letter case. |
| Interface.GetSelectedFile | interface.py:162-187 | The corrected selection never raises. A file is offered exactly when the single path, or the first path of a non-empty list, passes the checks. An offered file is an existing `.mp3` that is not a directory. |
| Interface.GetSelectedFileAsWritten | interface.py:176-185 | As written, only a single path can be offered. A list whose first path passes every check raises, because `basename` receives the list. |
| Interface.SelectedFileListBranchRaises | interface.py:183-185 | For the list `["song.mp3"]` the written code raises and the corrected code offers `song.mp3`. |
| Genres.CategoryItems | interface.py:122-125 | Every collected item is stripped (its membership is stated by Genres.CategoryItemsHas and Genres.CategoryItemsFrom). |
| Genres.CategoryItemsHas | interface.py:122-125 | The stripped form of every item of a requested category present in the data is collected. |
| Genres.CategoryItemsFrom | interface.py:122-125 | Every collected item is the stripped form of an item of a requested category present in the data; a missing category contributes nothing. |
| Genres.Dedupe | interface.py:128-132 | Every kept item is a non-empty input item. No two kept items share a lower-cased key. |
| Genres.DedupeComplete | interface.py:128-132 | Every non-empty input item has a kept item with the same lower-cased key. |
| Genres.DedupeFirstSpelling | interface.py:128-132 | Every kept item is the first spelling of its key in the input. |
| Genres.InsertSorted | interface.py:135 | Inserting an item with a new key into a key-sorted list gives a key-sorted list holding the old items and the new one. |
| Genres.SortByKeySorted | interface.py:135 | Sorting items with distinct keys gives a list sorted by lower-cased key that is a permutation of the input. |
| Genres.ProcessGenres | interface.py:112-137 | The output is sorted by lower-cased key and has distinct keys. It is a permutation of the deduplicated items, which are non-empty and stripped. |
| Genres.ProcessGenresFirstSpelling | interface.py:128-135 | Every output item is the first spelling of its key among the collected items. |
| Genres.ProcessGenresComplete | interface.py:122-135 | Every non-empty collected item has an output item with its key. |
| Lyrics.MatchFront | src/yue/infer_stage1.py:108-109 | A match at the front consumes `"[" + tag + "]" + body`, where the tag is a non-empty run of word characters and the body holds no `[`. The match ends at the next `[` or at the end of the text. |
| Lyrics.FindSegments | src/yue/infer_stage1.py:108-109 | Every found segment has a word-character tag and a body without `[`. |
| Lyrics.FindRender | src/yue/infer_stage1.py:107-109 | Finding the segments of rendered segments gives them back: the splitter inverts the `[tag]body` layout. |
| Lyrics.FindSkipsLeadingText | src/yue/infer_stage1.py:108-109 | Text before the first `[` is ignored. |
| Lyrics.SegmentText | src/yue/infer_stage1.py:110-112 | A segment text is `"[" + tag + "]\n"`, then the stripped body, then `"\n\n"`, and nothing else. For a found segment, its only `[` is the first character. |
| Lyrics.SplitLyrics | src/yue/infer_stage1.py:107-113 | There is one text per found segment, in order, each in the segment-text layout. |
| Lyrics.SplitRendered | src/yue/infer_stage1.py:107-113 | Splitting rendered segments gives exactly their segment texts. |
| Lyrics.PromptTexts | src/yue/infer_stage1.py:115-121 | The prompt texts are the header followed by the segment texts, so segment `i`'s text is `prompt_texts[i + 1]`. |
| Lyrics.Header | src/yue/infer_stage1.py:116-118 | The header starts with the instruction line and the genre line. Without lyrics it is exactly those lines. It contains every segment text. |
| Lyrics.HeaderHoldsSegments | src/yue/infer_stage1.py:115-121 | The header prompt text is the instruction line and the genre line followed by the segment texts joined with `"\n"`, the same texts that follow it in the prompt list. So it contains each of them. |
| Text.JoinAt | src/yue/infer_stage1.py:116 | In `sep.join(parts)` part `k` sits after every earlier part and its separator, and is followed by a separator unless it is the last part, which ends the string. |
| Prompts.SectionText | src/yue/infer_stage1.py:191-193 | Removing the segment markers introduces no character. |
| Prompts.SectionOfSegment | src/yue/infer_stage1.py:191-193 | A segment text whose tag is not a marker word comes through the marker removal unchanged. |
| Prompts.ReferenceBlock | src/yue/infer_stage1.py:166-176 | The reference block starts with the start-of-reference tokens and ends with the end-of-reference tokens. It is as long as its parts: those tokens, soa, the separator ids, the codec ids and eoa. |
| Prompts.ReferenceBlockLayout | src/yue/infer_stage1.py:166-176 | After the start-of-reference tokens come soa, then the separator and codec ids, then eoa. |
| Prompts.ReferenceBlockCounts | src/yue/infer_stage1.py:166-176 | With markers and codec free of soa and eoa, the block holds exactly one soa and one eoa. |
| Prompts.ReferenceCodec | src/yue/infer_stage1.py:133-165 | There is a reference codec exactly when a dual-track or a single audio prompt is requested. |
| Prompts.ReferenceCodecSlice | src/yue/infer_stage1.py:143-165 | A single reference is one contiguous slice of its codes. A dual-track reference with both times on the 50 Hz frame grid is the interleave of one common slice of both tracks. |
| Prompts.FirstSegmentPrompt | src/yue/infer_stage1.py:179-211 | The first prompt starts with the tokenized header and ends with soa followed by the separator ids. |
| Prompts.SegmentPrompt | src/yue/infer_stage1.py:213-223 | A continuation prompt starts with the end-of-segment tokens and ends with soa followed by the separator ids. |
| Prompts.PromptsShareTail | src/yue/infer_stage1.py:194-223 | Both prompts end with the same tail: the segment-start tokens, the section tokens, soa and the separator ids. The first prompt has the header tokens and the optional reference block before the tail. A continuation prompt has the end-of-segment tokens before it. |
| Prompts.TailCounts | src/yue/infer_stage1.py:205-211 | The shared tail holds exactly one soa and no eoa. |
| Prompts.SegmentPromptCounts | src/yue/infer_stage1.py:213-223 | A continuation prompt holds exactly one soa and no eoa. |
| Prompts.FirstPromptCounts | src/yue/infer_stage1.py:194-211 | The first prompt holds one soa and no eoa, plus one more of each when it has a reference block. |
| Tracks.Shared | src/yue/infer_stage1.py:146 | The shared length is the shorter track's length. |
| Tracks.Interleave | src/yue/infer_stage1.py:149-151 | The interleave is twice the shared length long. Longer tracks are truncated, never rejected. |
| Tracks.InterleaveAt | src/yue/infer_stage1.py:290-295 | Position `2k` holds vocal `k` and position `2k+1` holds instrumental `k`. |
| Tracks.SplitInterleave | src/yue/infer_stage1.py:248-254 | Taking the even and the odd positions of an interleave gives back both tracks, cut to the shared length. |
| Tracks.InterleaveSplit | src/yue/infer_stage1.py:248-254 | Interleaving the even and odd positions of an even-length sequence gives the sequence back. |
| Tracks.InterleaveCut | src/yue/infer_stage1.py:152-154 | A slice at even bounds of an interleave is the interleave of the same slice of both tracks. |
| Tracks.TruncInt | src/yue/infer_stage1.py:152-154 | Python's `int()` truncates toward zero: a non-negative value lies in `[n, n+1)` of its result and a negative one in `(n-1, n]`. |
| Tracks.FrameGridEven | src/yue/infer_stage1.py:152-154 | A time on the 50 Hz frame grid gives an even interleave bound, twice its frame count. |
| Tracks.DualPromptCodec | src/yue/infer_stage1.py:146-154 | The dual-track reference codec is never longer than the interleave. |
| Tracks.DualPromptAt | src/yue/infer_stage1.py:149-154 | Token `k` of the dual-track reference is the vocal token at an even position of the interleave and the instrumental token at an odd one, whatever the bounds. |
| Tracks.OddStartSwapsTracks | src/yue/infer_stage1.py:152-154 | With `prompt_start_time = 1.25` the slice starts at the odd position 125, off the frame grid. The reference starts with an instrumental token, and the next token is a vocal one from the following frame. |
| Tracks.SliceKeepsPairs | src/yue/infer_stage1.py:152-154 | A Python slice at even bounds, clamped as Python clamps, keeps vocal/instrumental pairs together. |
| Tracks.DualPromptKeepsPairs | src/yue/infer_stage1.py:146-154 | With both times on the 50 Hz frame grid, the dual-track reference codec is the interleave of a common slice of both tracks. |
| Tracks.SinglePromptCodec | src/yue/infer_stage1.py:162-165 | The single-track reference codec is a contiguous slice of the codes. |
| Tracks.ExtendEnd | src/yue/infer_stage1.py:298-299 | An end time of 0 means 999 seconds. Any other end time is kept. |
| Tracks.ExtendTokens | src/yue/infer_stage1.py:289-313 | Without a positive time the interleave is returned whole. Otherwise it is cut exactly as the dual-track reference is, to `[int(start*100), int(end*100))`, with 999 seconds standing in for an end of 0. |
| Tracks.ExtendKeepsPairs | src/yue/infer_stage1.py:289-302 | Untrimmed continuation tokens, and tokens trimmed at times on the 50 Hz frame grid, are the interleave of a common slice of both tracks. |
| Decode.PositionsSound | src/yue/infer_stage1.py:234-235 | The found positions are exactly the occurrences, in increasing order, as many as the count. |
| Decode.DecodeSpan | src/yue/infer_stage1.py:245-256 | After a leading 32016 is dropped and the span is cut to even length, both tracks have half its length. |
| Decode.DecodeSpans | src/yue/infer_stage1.py:244-256 | Every span is decoded exactly when none is empty. An empty span is an error naming its index. |
| Decode.Save | src/yue/infer_stage1.py:233-258 | Unequal soa and eoa counts are the error that reports both counts. No span left after skipping the reference is the concatenation error. Decoded tracks have equal length. |
| Decode.DecodeRenderedSpan | src/yue/infer_stage1.py:245-256 | Decoding `[32016] + interleave(v, i)` gives `(v, i)` back. |
| Decode.RenderedSpans | src/yue/infer_stage1.py:234-245 | In a sequence of rendered pieces, the k-th soa and the k-th eoa frame exactly the k-th piece's codec block. |
| Decode.SaveOfSpans | src/yue/infer_stage1.py:233-258 | When every soa/eoa pair frames a piece, `save` returns the concatenated vocal and instrumental tracks of the pieces after the skipped reference. |
| Decode.SaveRoundTrip | src/yue/infer_stage1.py:233-258 | Round trip: `save` of rendered pieces returns exactly their vocal and instrumental tracks, skipping the first piece when a reference prompt was used. |
| Window.Windowed | src/yue/infer_stage1.py:378-384 | The windowed input is a trailing part of the input. A sequence within the window is unchanged. A longer one keeps exactly its last `max_context` tokens. A zero or negative window follows Python's `[-0:]` and `[k:]` readings. |
| Window.MaxContext | src/yue/infer_stage1.py:689 | A full window plus a whole segment, `max_new_tokens` samples and the forced eoa, exactly fills the cache. With room for the budget plus two tokens the window holds at least one token and is smaller than the cache. |
| Window.WindowedFits | src/yue/infer_stage1.py:689-697 | With a positive window the result is never longer than the window. |
| Window.WindowedIdempotent | src/yue/infer_stage1.py:476-480 | With a non-negative window, windowing twice is windowing once. |
| Window.NegativeWindowDropsAgain | src/yue/infer_stage1.py:553-557 | With a negative window, each windowing drops more tokens from the front. |
| Window.Forward | src/yue/infer_stage1.py:483 | A forward appends the ids to the cache exactly when they fit its capacity. |
| Window.RebuildCache | src/yue/infer_stage1.py:471-483 | The rebuilt cache is a trailing part of the sequence, and all of it when the sequence fits the window. |
| Window.RebuildCacheLeavesRoom | src/yue/infer_stage1.py:471-483 | With room for the budget plus two tokens, the rebuild never overflows and leaves room for a whole segment. A long sequence leaves exactly its last `max_context` tokens. |
| Guidance.Settings | src/yue/infer_stage1.py:26-40 | The fixed sampling parameters. Both guidance scales are present exactly when guidance is on. |
| Guidance.BatchSize | src/yue/infer_stage1.py:506-513 | The batch size is 2 exactly when `guidance_scale_seg0` is set, and 1 otherwise. |
| Guidance.ScaleOfSettings | src/yue/infer_stage1.py:729-733 | The scale is 1.5 for segment 0 and 1.2 after it, and there is none without guidance. |
| Guidance.Scale | src/yue/infer_stage1.py:729-733 | Segment 0 uses `guidance_scale_seg0` and every other segment `guidance_scale`. A segment is unguided exactly when its scale is `None`. |
| Guidance.MaskRow | src/yue/infer_stage1.py:671-676 | Lane 0 may attend to every position. Lane 1 may attend exactly to the positions from the mask length on. The row has the sliced width, clamped to `max_seq_len`. |
| Guidance.Offset | src/yue/infer_stage1.py:675 | Lane 0 has offset 0. Lane 1's offset moves the position at the mask length to position 0. |
| Guidance.LaneOneSeesOnlyTheTail | src/yue/infer_stage1.py:706-713 | Lane 0 sees every position with offset 0. Lane 1 sees only the positions from the last prompt token on, and its offset moves that token to position 0. |
| Lanes.FirstRow | src/yue/infer_stage1.py:780 | `seq[:1, :]` keeps at most one row, the first one. |
| Sampling.AllowedListIndexed | src/yue/infer_stage1.py:614 | The allowed list has 11389 entries and holds exactly the ids 32002 and 45334 to 56721. |
| Sampling.AllowedNotBlocked | src/yue/infer_stage1.py:393-398 | No allowed id is blocked by the HF processors. |
| Sampling.Sample | src/yue/infer_stage1.py:739-743 | Every sampled id is allowed. |
| Sampling.SegmentOutput | src/yue/infer_stage1.py:726-768 | A segment adds at least one and at most `max_new_tokens + 1` tokens. |
| Sampling.SegmentOutputShape | src/yue/infer_stage1.py:726-768 | A segment ends with eoa and has no earlier eoa. Every other token is an allowed sample. The last token is also a sample when the budget was not spent. |
| Sampling.ForcedIffNoEoaDrawn | src/yue/infer_stage1.py:726-768 | A segment is the budget plus one token long, its eoa forced, exactly when none of its draws sampled eoa. Draw `j` samples from the context followed by the segment's first `j` tokens. |
| Sampling.SegmentOutputAt | src/yue/infer_stage1.py:726-749 | Every drawn token of a segment is the sample, at its own draw number, from the context followed by the segment's earlier tokens. |
| Sampling.SampleSegment | src/yue/infer_stage1.py:726-770 | The loop succeeds exactly when the segment fits the cache. It produces the segment, with every token, including a forced eoa, forwarded into the cache. Exactly one random draw is used per sampled token. |
| Sampling.SampleLoop | src/yue/infer_stage1.py:726-763 | Either an eoa was drawn and the segment is complete within the budget, or the budget is spent and only the forced eoa is missing. The cache holds every sampled token. |
| Pipeline.PromptFor | src/yue/infer_stage1.py:621-635 | Every segment except segment 0 of a fresh run gets the continuation prompt of its own text. |
| Pipeline.SeqPrefix | src/yue/infer_stage1.py:522-545 | The prefix is undefined exactly for a continuation missing a track path. Without a continuation it is empty. |
| Pipeline.InitialSeq | src/yue/infer_stage1.py:547-560 | The starting sequence is a trailing part of the prefix. Without a continuation it is the prefix. A continuation prefix longer than a positive window keeps exactly the window's length. |
| Pipeline.InitialSeqWindowsOnce | src/yue/infer_stage1.py:530-560 | With a non-negative window, the second windowing of a continuation prefix changes nothing, because the prefix is already windowed. |
| Pipeline.StartSegment | src/yue/infer_stage1.py:563-599 | A resume starts after the resumed segment. A continuation starts at 0 for the current segment and at 1 for a new one. Anything else starts at 0. |
| Pipeline.Remaining | src/yue/infer_stage1.py:601-603 | The count is at most the requested count and the lyric count, and the run never passes the last lyric. It equals one of the three bounds. |
| Pipeline.Primed | src/yue/infer_stage1.py:659-668 | The primed sequence is the first prompt followed by the existing song. For the current segment it is nothing more. For a new segment an eoa and the segment's own prompt follow. |
| Pipeline.PlaceSegment | src/yue/infer_stage1.py:686-723 | The prompt is appended to lane 0. A cache in step with lane 0 ends up holding exactly the trailing window. Within the capacity it never overflows. |
| Pipeline.PrimeSegment | src/yue/infer_stage1.py:669-723 | The corrected priming replaces lane 0 by the primed sequence and fills the cache once with its trailing window. It fails only when that window does not fit. |
| Pipeline.PrimeSegmentAsWritten | src/yue/infer_stage1.py:669-723 | As written, the whole primed sequence is forwarded before windowing, so a primed sequence longer than the cache's room always overflows. |
| Pipeline.PrimingForwardsPromptTwice | src/yue/infer_stage1.py:669-723 | For a primed sequence within the window, the written code leaves the segment prompt in the cache after the sequence, which does not hold it. The corrected priming leaves the cache equal to the sequence. |
| Pipeline.PrimingOverflowsAsWritten | src/yue/infer_stage1.py:677-684 | A primed sequence longer than the cache overflows as written but is placed by the corrected priming. |
| Pipeline.Place | src/yue/infer_stage1.py:636-723 | Priming replaces lane 0 by the primed sequence and appending extends it. After a priming, or after appending to a cache in step, the cache is the trailing window of the new lane 0. The priming is the corrected one (Pipeline.PrimeSegment). |
| Pipeline.RunSegment | src/yue/infer_stage1.py:632-770 | One segment places its prompt, then samples from the resulting cache with the guidance scale of its index: `guidance_scale_seg0` for segment 0 and `guidance_scale` after it. Its output is the sampling loop's output and the draw counter advances by its draws. The cache stays a trailing part of lane 0, and in step when it was. The only error is an overflow, which a roomy cache never has. |
| Pipeline.TracedAt | src/yue/infer_stage1.py:620-775 | Each recorded segment has index `start + j` and starts from the previous segment's lane 0 and draw counter. It holds exactly the sampling loop's output under the scale of its index, `guidance_scale_seg0` for index 0 and `guidance_scale` otherwise. |
| Pipeline.TracedStep | src/yue/infer_stage1.py:620-775 | Appending a well-formed segment record extends the trace. Lane 0 becomes that segment's context plus output. |
| Pipeline.StoredSnoc | src/yue/infer_stage1.py:772-778 | Each segment writes its checkpoint under its own index: the segment number, the lanes and the split lyrics. |
| Pipeline.StoredSaved | src/yue/infer_stage1.py:772-778 | After a run the store holds, for every generated segment, its checkpoint. Every other entry is unchanged. |
| Pipeline.Segments | src/yue/infer_stage1.py:620-779 | The loop records a traced run of every segment and returns lane 0 after the last one. Every segment's cache is the trailing window of its context when the cache started in step. The store holds one checkpoint per segment. The only error is an overflow of a cache that is not roomy. |
| Pipeline.TracedSegment | src/yue/infer_stage1.py:632-770 | One more segment extends the trace. The cache stays a trailing part of lane 0, and in step when it was. |
| Pipeline.SaveSegment | src/yue/infer_stage1.py:772-778 | Saving a segment adds exactly its checkpoint to the store. |
| Pipeline.Prepare | src/yue/infer_stage1.py:522-599 | The set-up fails with an undefined prefix exactly for a continuation missing a track path. It fails with a missing checkpoint exactly when a resumed checkpoint is absent. A roomy cache never overflows. A fresh run always gets past the set-up, with an empty cache; the cache overflows exactly when a resumed checkpoint's trailing window is longer than the cache. A resume fills the cache with the checkpoint's trailing window. Afterwards the cache is in step with lane 0, unless the first segment primes or a continuation resumes below -1 (then the cache is empty while lane 0 is the windowed prefix). |
| Pipeline.RunReady | src/yue/infer_stage1.py:601-781 | With the corrected priming: when no segment remains, the result is lane 0 of the entry, with nothing run or saved. A checkpoint of another batch size is rejected. Otherwise every remaining segment is generated and checkpointed, and lane 0 of the final sequence is returned. |
| Pipeline.Generate | src/yue/infer_stage1.py:485-781 | `generate` with the corrected priming. The only errors are the two set-up errors, a lane mismatch and a cache overflow; the two set-up errors occur exactly when their conditions hold. A runnable request with a roomy cache, fresh or resuming a checkpoint of the current batch size, always succeeds. The lane-mismatch error occurs only for a resumed checkpoint of another width. A fresh run with no remaining segment returns lane 0 of the initial sequence, and with no remaining segment the only possible error is an overflowing resumed checkpoint. With the corrected priming a roomy cache never overflows. The run is a traced run of exactly the remaining segments from the entry sequence, every segment's cache lies within the window, and there is one checkpoint per generated segment. The result is lane 0 of the final sequence. |
| PipelineHf.Cap | src/yue/infer_stage1.py:402-405 | At most `max_new_tokens` tokens are kept from the model's continuation. |
| PipelineHf.HfOutput | src/yue/infer_stage1.py:402-426 | The output is the input followed by the model's tokens, capped at the budget. It ends with eoa, which is appended exactly when those tokens do not already end with one. |
| PipelineHf.HfPrompts | src/yue/infer_stage1.py:352-370 | There is one non-empty prompt per segment to run, `min(run_n_segments, len(lyrics))` of them. |
| PipelineHf.HfPromptsAt | src/yue/infer_stage1.py:355-370 | Prompt 0 is the first-segment prompt and prompt `j` is the continuation prompt of `prompt_texts[j + 1]`. |
| PipelineHf.SegmentStep | src/yue/infer_stage1.py:355-433 | One segment feeds the model a trailing part of the raw output plus prompt, with the segment's guidance scale. The new raw output ends with the model's output, ends with eoa, and extends the previous raw output plus prompt. |
| PipelineHf.StepFits | src/yue/infer_stage1.py:378-384 | With a positive window and a non-empty prompt, a segment always runs and its input fits the window. |
| PipelineHf.StepExtends | src/yue/infer_stage1.py:422-433 | Every segment step extends the raw output as described above. |
| PipelineHf.HfTracedEnds | src/yue/infer_stage1.py:422-434 | The final raw output ends with the last segment's model output and with eoa. |
| PipelineHf.RawGrows | src/yue/infer_stage1.py:427-433 | The raw output only grows: an earlier raw output stays at the front of every later one, although the model only ever sees the trailing window. |
| PipelineHf.HfLoop | src/yue/infer_stage1.py:355-433 | The loop runs the segments in order, each from the raw output so far, and stops at the first failing step. |
| PipelineHf.RunHfSegments | src/yue/infer_stage1.py:355-434 | Nothing is generated exactly when there are no prompts. With steps that never fail, the run succeeds, and the result is the traced raw output, ending with eoa and with the last model output. |
| PipelineHf.HfGenerate | src/yue/infer_stage1.py:336-434 | The HF `generate`: nothing is generated exactly when no segment is to run. With a positive window it always succeeds, and it returns the raw output of one traced step per segment, ending with eoa. |
| Cli.ValidateArgsAsWritten | src/yue/infer_stage1.py:786-805 | As written, an accepted dual-track or continuation request names at least one of the two track paths. |
| Cli.ValidateArgs | src/yue/infer_stage1.py:786-805 | An accepted dual-track or continuation request names both track paths, and an accepted audio prompt names its file. |
| Cli.ValidateArgsSpec | src/yue/infer_stage1.py:786-805 | The corrected checks accept exactly the arguments that name every file their options need. Each rejection names the first failing option. |
| Cli.ValidateArgsStricter | src/yue/infer_stage1.py:790-805 | The corrected checks reject everything the written ones reject. They also reject exactly the dual-track or continuation requests that give one track path but not the other. |
| Cli.ValidatedHasPrefix | src/yue/infer_stage1.py:523-542 | After the corrected checks accept, `generate` always has a continuation prefix. |
| Cli.AsWrittenLetsHalfContinuationThrough | src/yue/infer_stage1.py:798-805 | A continuation with only a vocal path passes the written checks and fails the corrected ones. `generate` then has no prefix. |

## Left out

- The neural models, the audio codec (`load_audio_mono`, `encode_audio`, `npy2ids`, `ids2npy`), the tokenizer and the ExLlamaV2 sampler internals (top-p, temperature, repetition penalty). They are parameters of the model.
- The classifier-free-guidance arithmetic (`log_softmax`, the blend) and the `-65504.0` mask value. These are floating point; the mask is modelled as booleans, the scales as reals.
- Times in seconds are exact reals, and `int(t * 50)` and `int(t * 50 * 2)` truncate them toward zero. The rounding error of binary floating point is left out: where the double product falls just below a whole number, the source truncates to a bound one lower than the model does.
- Tracks.DualPromptKeepsPairs: pairs are kept only for times on the 50 Hz frame grid. Off the grid an odd bound splits a pair and shifts the tracks by one position (Tracks.OddStartSwapsTracks); the model follows the source there and does not promise the pairing.
- Tracks.ExtendKeepsPairs: the same restriction as Tracks.DualPromptKeepsPairs, for `--extend_mp3_start_time` and `--extend_mp3_end_time`.
- Prompts.ReferenceCodecSlice: the dual-track clause holds only for times on the 50 Hz frame grid, for the same reason.
- Common.SanitizeFilename: the replacement is taken literally. `re.sub` reads it as a template, so a backslash escape such as `\\n` in it would insert a newline, and a lone backslash raises. The default `"_"` has no backslash; the contract is stated for literal replacements only.
- Pipeline.Generate: the continuation's priming segment uses the corrected priming (Pipeline.PrimeSegment), not the priming as written (Pipeline.PrimeSegmentAsWritten; see Findings). The no-overflow clause for a roomy cache, and the window clause, hold for the corrected priming only. As written, a primed sequence longer than the cache overflows it (Pipeline.PrimingOverflowsAsWritten). Pipeline.Place and Pipeline.RunReady carry the same correction.
- `torch.save`, `torch.load` and the `segments/` directory are a map from segment index to checkpoint. `np.save`, directory creation and the output paths of `save` are left out.
- The HF back end's `min_new_tokens=100` and sampling settings belong to the model's `generate`, which is a parameter. An input window that comes out empty (possible only with a negative window, when the budget is at least the cache size) is the error `EmptyInput`, standing for the model's failure on an empty input.
- After a priming segment the written code keeps the priming mask and offsets for lane 1; only lane 0's content is modelled, and the lanes always receive identical tokens.
- Pipeline.Generate: the window invariant is not stated for a continuation that resumes with `resume_after_n` below -1. That run neither primes nor fills the cache from the sequence, so the cache is not in step with lane 0.
- Pipeline.Generate: a resumed checkpoint whose batch size differs from the current one is the error `LaneMismatch`. This stands for the failure of the `torch.cat` that appends the segment prompt to `seq`; it is not a check the source makes.
- Lanes: the sequence tensor is a batch of identical rows. A loaded checkpoint is taken to have identical rows, as every checkpoint the pipeline writes does.
- `Stage1Pipeline.__init__`, `load_codec_model` and the back ends' constructors: model loading only.
- `main` after the argument checks: `seed_everything` (global random state), the device choice, reading the genre and lyrics files, and the choice between the two back ends. The parser in `common.py` defines no `--extend_mp3_start_time`, so the EXL2 call in `main` would fail on it; the model takes the start time as a plain parameter.
- `interface.py` apart from the helpers listed above: the Gradio interface, spawning and stopping subprocesses, the log threads and queues, file copying and JSON loading. `get_selected_file`'s directory and existence tests are predicates given as parameters.
- Text: `\w` and `str.lower` are their ASCII versions: letters and digits outside ASCII are not word characters in the model, and `str.lower` changes only `A`-`Z`. `str.strip` uses Python's full whitespace set (`Text.IsSpace`).
- Decode.Save: the decoded content is stated for sequences made of rendered prompt and audio pieces (Decode.SaveRoundTrip), not for arbitrary id sequences.

## Findings

| source | as written | input that shows it | evidently intended | confidence | as-written member | corrected member |
|---|---|---|---|---|---|---|
| src/yue/infer_stage1.py:669-723 | The priming segment of a continuation forwards the whole primed sequence into the cache. When that sequence fits the window, the loop then forwards `incremental_ids = prompt_ids` a second time. | `--extend_mp3` with `resume_after_n = -1` and a primed sequence shorter than `max_context`: the cache ends with the segment prompt although the sequence does not hold it (for `extend_current_segment`), or holds it twice (for a new segment). A primed sequence longer than the cache overflows it. | The cache holds exactly the trailing window of the primed sequence, as `_rebuild_cache` does. | not executed | Pipeline.PrimeSegmentAsWritten (shown by Pipeline.PrimingForwardsPromptTwice and Pipeline.PrimingOverflowsAsWritten) | Pipeline.PrimeSegment |
| src/yue/infer_stage1.py:790-805 | The dual-track and continuation checks raise only when both track paths are missing. | `--extend_mp3 --vocal_track_prompt_path v.mp3` without an instrumental path passes the checks. `generate` then never assigns `seq_prefix`. | Both track paths are required, as the error messages say. | not executed | Cli.ValidateArgsAsWritten (shown by Cli.AsWrittenLetsHalfContinuationThrough) | Cli.ValidateArgs |
| interface.py:183-185 | The list branch of `get_selected_file` calls `os.path.basename` on the whole list. | `file_paths = ["song.mp3"]` for an existing file: `basename` raises `TypeError` instead of offering the file. | The message names the selected file, `os.path.basename(file_path)`. | not executed | Interface.GetSelectedFileAsWritten (shown by Interface.SelectedFileListBranchRaises) | Interface.GetSelectedFile |

=== FILE: cli.dfy ===
/** The argument checks of the Stage-1 command line (`main`), which run
    before any model is loaded: an audio prompt needs its file, and a
    dual-track prompt or a continuation needs the vocal and the
    instrumental track. An absent path (`None` or empty) is the empty
    string. */
module Cli {
  import opened Wrappers
  import Pipeline

  /** The arguments the checks read. */
  datatype Args = Args(
    useAudio: bool, audioPath: string,
    useDual: bool, vocalPath: string, instPath: string,
    extend: bool)

  /** The three `FileNotFoundError`s of `main`, in the order it checks them. */
  datatype ArgError =
    | MissingAudioPrompt   // `--use_audio_prompt` without `--audio_prompt_path`
    | MissingDualTracks    // `--use_dual_tracks_prompt` without the track paths
    | MissingExtendTracks  // `--extend_mp3` without the track paths

  /** The checks as the source writes them: a dual-track prompt or a
      continuation is rejected only when BOTH track paths are missing. */
  function ValidateArgsAsWritten(a: Args): (r: Result<Args, ArgError>)
    ensures r.Ok? ==> r.value == a && (a.useAudio ==> a.audioPath != "")
    ensures r.Ok? && (a.useDual || a.extend) ==> a.vocalPath != "" || a.instPath != ""
  {
    if a.useAudio && a.audioPath == "" then Err(MissingAudioPrompt)
    else if a.useDual && a.vocalPath == "" && a.instPath == "" then Err(MissingDualTracks)
    else if a.extend && a.vocalPath == "" && a.instPath == "" then Err(MissingExtendTracks)
    else Ok(a)
  }

  /** The checks as their messages describe them: each of the two track
      paths is required. */
  function ValidateArgs(a: Args): (r: Result<Args, ArgError>)
    ensures r.Ok? ==> r.value == a && (a.useAudio ==> a.audioPath != "")
    ensures r.Ok? && (a.useDual || a.extend) ==> a.vocalPath != "" && a.instPath != ""
  {
    if a.useAudio && a.audioPath == "" then Err(MissingAudioPrompt)
    else if a.useDual && (a.vocalPath == "" || a.instPath == "") then Err(MissingDualTracks)
    else if a.extend && (a.vocalPath == "" || a.instPath == "") then Err(MissingExtendTracks)
    else Ok(a)
  }

  /** Accepted arguments name every file the options they enable need, and
      every such set of arguments is accepted; a rejection names the first
      option whose file is missing. */
  lemma ValidateArgsSpec(a: Args)
    ensures ValidateArgs(a).Ok? <==>
      && (a.useAudio ==> a.audioPath != "")
      && (a.useDual ==> a.vocalPath != "" && a.instPath != "")
      && (a.extend ==> a.vocalPath != "" && a.instPath != "")
    ensures ValidateArgs(a).Ok? ==> ValidateArgs(a).value == a
    ensures ValidateArgs(a) == Err(MissingAudioPrompt) <==> a.useAudio && a.audioPath == ""
    ensures ValidateArgs(a) == Err(MissingDualTracks) <==>
      !(a.useAudio && a.audioPath == "") && a.useDual && (a.vocalPath == "" || a.instPath == "")
  {
  }

  /** The corrected checks reject everything the written ones do, and
      more exactly the arguments that enable the dual-track prompt or a
      continuation and give one track path but not the other. */
  lemma ValidateArgsStricter(a: Args)
    ensures ValidateArgs(a).Ok? ==> ValidateArgsAsWritten(a).Ok?
    ensures ValidateArgsAsWritten(a).Ok? && !ValidateArgs(a).Ok? <==>
      && !(a.useAudio && a.audioPath == "")
      && (a.useDual || a.extend)
      && (a.vocalPath == "") != (a.instPath == "")
  {
  }

  /** A request carries the paths and the continuation flag of `a`. */
  predicate Carries(req: Pipeline.Request, a: Args)
  {
    && req.useAudio == a.useAudio && req.audioPath == a.audioPath
    && req.useDual == a.useDual && req.vocalPath == a.vocalPath && req.instPath == a.instPath
    && req.extend == a.extend
  }

  /** Arguments the corrected checks accept never reach `generate` without
      a prefix: a continuation always has both tracks to cut it from. */
  lemma ValidatedHasPrefix(a: Args, req: Pipeline.Request, env: Pipeline.Env, mc: int)
    requires ValidateArgs(a).Ok? && Carries(req, a)
    ensures Pipeline.SeqPrefix(req, env, mc).Some?
  {
  }

  /** The written checks let a continuation with only a vocal track
      through, and `generate` then has no prefix to start from. */
  lemma AsWrittenLetsHalfContinuationThrough(req: Pipeline.Request, env: Pipeline.Env, mc: int)
    requires Carries(req, Args(false, "", false, "v.mp3", "", true))
    ensures ValidateArgsAsWritten(Args(false, "", false, "v.mp3", "", true)).Ok?
    ensures !ValidateArgs(Args(false, "", false, "v.mp3", "", true)).Ok?
    ensures Pipeline.SeqPrefix(req, env, mc).None?
  {
  }
}

=== FILE: common.dfy ===
/** The pure helpers of `common.py`: output-file-name sanitisation, the
    cache-mode switch, and the logits processor that bans a range of ids. */
module Common {
  import opened Wrappers

  /** The characters `sanitize_filename` rewrites: `< > : " / \ | ? *`. */
  predicate IsReserved(c: char)
  {
    c == '<' || c == '>' || c == ':' || c == '"' || c == '/' || c == '\\' || c == '|' || c == '?' || c == '*'
  }

  /** `sanitize_filename(text, replacement)`: every reserved character is
      replaced by the whole `replacement` string. */
  function SanitizeFilename(text: string, replacement: string): (r: string)
    ensures forall c :: c in r ==> (c in text && !IsReserved(c)) || c in replacement
    ensures |replacement| == 1 ==> |r| == |text|
    ensures |replacement| == 1 ==>
      forall k :: 0 <= k < |text| ==> r[k] == (if IsReserved(text[k]) then replacement[0] else text[k])
  {
    if |text| == 0 then ""
    else
      var rest := SanitizeFilename(text[1..], replacement);
      assert forall c :: c in text[1..] ==> c in text;
      (if IsReserved(text[0]) then replacement else [text[0]]) + rest
  }

  /** With a replacement free of reserved characters, none survives. */
  lemma SanitizeRemovesReserved(text: string, replacement: string)
    requires forall c :: c in replacement ==> !IsReserved(c)
    ensures forall c :: c in SanitizeFilename(text, replacement) ==> !IsReserved(c)
  {
  }

  /** With the default replacement `"_"`, sanitising twice is sanitising once. */
  lemma SanitizeIdempotent(text: string)
    ensures SanitizeFilename(SanitizeFilename(text, "_"), "_") == SanitizeFilename(text, "_")
  {
    var once := SanitizeFilename(text, "_");
    var twice := SanitizeFilename(once, "_");
    assert |twice| == |once|;
    forall k | 0 <= k < |once|
      ensures twice[k] == once[k]
    {
      assert !IsReserved(once[k]);
    }
  }

  /** The ExLlamaV2 cache classes `get_cache_class` chooses between. */
  datatype CacheClass = CacheFP16 | CacheQ4 | CacheQ6 | CacheQ8

  /** `get_cache_class(mode)`: exact matches on "Q4", "Q6" and "Q8"; anything
      else, "FP16" and misspellings alike, falls back to the FP16 cache. */
  function GetCacheClass(mode: string): (k: CacheClass)
    ensures k == CacheQ4 <==> mode == "Q4"
    ensures k == CacheQ6 <==> mode == "Q6"
    ensures k == CacheQ8 <==> mode == "Q8"
    ensures k == CacheFP16 <==> mode != "Q4" && mode != "Q6" && mode != "Q8"
  {
    if mode == "Q4" then CacheQ4
    else if mode == "Q6" then CacheQ6
    else if mode == "Q8" then CacheQ8
    else CacheFP16
  }

  /** One logit: a finite score or minus infinity. */
  datatype Score = Logit(x: real) | NegInf

  /** `scores[:, ids] = -inf` with an id list outside `[-width, width)` raises. */
  datatype BlockError = IndexOutOfRange(id: int)

  /** Column `c` is named by some id of `range(start, end)`, directly or
      through a negative (from-the-end) index. */
  predicate BlocksColumn(start: int, end: int, width: nat, c: int)
  {
    (start <= c < end) || (start <= c - width < end)
  }

  /** A batch of score rows, all of the tensor's width. */
  predicate Rectangular(scores: seq<seq<Score>>, width: nat)
  {
    forall b :: 0 <= b < |scores| ==> |scores[b]| == width
  }

  /** `BlockTokenRangeProcessor(start, end)(input_ids, scores)`. */
  function BlockTokenRange(start: int, end: int, width: nat, scores: seq<seq<Score>>)
    : (r: Result<seq<seq<Score>>, BlockError>)
    requires Rectangular(scores, width)
    ensures r.Err? <==> start < end && (start < -(width as int) || end > width)
    ensures r.Ok? ==> |r.value| == |scores| && Rectangular(r.value, width)
    ensures r.Ok? ==> forall b, c :: 0 <= b < |scores| && 0 <= c < width ==>
      r.value[b][c] == (if BlocksColumn(start, end, width, c) then NegInf else scores[b][c])
  {
    if start < end && start < -(width as int) then Err(IndexOutOfRange(start))
    else if start < end && end > width then Err(IndexOutOfRange(end - 1))
    else Ok(seq(|scores|, b requires 0 <= b < |scores| =>
      seq(width, c requires 0 <= c < width =>
        if BlocksColumn(start, end, width, c) then NegInf else scores[b][c])))
  }

  /** An empty range such as `(32016, 32016)` changes nothing. */
  lemma EmptyRangeBlocksNothing(start: int, end: int, width: nat, scores: seq<seq<Score>>)
    requires Rectangular(scores, width)
    requires end <= start
    ensures BlockTokenRange(start, end, width, scores) == Ok(scores)
  {
    var r := BlockTokenRange(start, end, width, scores).value;
    assert |r| == |scores|;
    forall b | 0 <= b < |scores|
      ensures r[b] == scores[b]
    {
      assert |r[b]| == |scores[b]| == width;
      assert forall c :: 0 <= c < width ==> !BlocksColumn(start, end, width, c);
    }
    assert r == scores;
  }

  /** Applying the processor twice equals applying it once. */
  lemma BlockIdempotent(start: int, end: int, width: nat, scores: seq<seq<Score>>)
    requires Rectangular(scores, width)
    requires BlockTokenRange(start, end, width, scores).Ok?
    ensures BlockTokenRange(start, end, width, BlockTokenRange(start, end, width, scores).value)
         == BlockTokenRange(start, end, width, scores)
  {
    var once := BlockTokenRange(start, end, width, scores).value;
    var twice := BlockTokenRange(start, end, width, once).value;
    forall b | 0 <= b < |scores|
      ensures twice[b] == once[b]
    {
      assert |twice[b]| == |once[b]| == width;
      forall c | 0 <= c < width
        ensures twice[b][c] == once[b][c]
      {
      }
    }
    assert twice == once;
  }

  /** Every batch row is treated the same way: equal rows stay equal. */
  lemma BlockRowsUniform(start: int, end: int, width: nat, scores: seq<seq<Score>>, b1: int, b2: int)
    requires Rectangular(scores, width)
    requires BlockTokenRange(start, end, width, scores).Ok?
    requires 0 <= b1 < |scores| && 0 <= b2 < |scores| && scores[b1] == scores[b2]
    ensures BlockTokenRange(start, end, width, scores).value[b1]
         == BlockTokenRange(start, end, width, scores).value[b2]
  {
  }

  /** The HF stage-1 processor pair `(0, 32002)` and `(32016, 32016)` leaves
      exactly the ids from 32002 upward open. */
  lemma StageOneProcessorsAllowFrom32002(width: nat, scores: seq<seq<Score>>)
    requires Rectangular(scores, width)
    requires width >= 32002
    ensures BlockTokenRange(0, 32002, width, scores).Ok?
    ensures BlockTokenRange(32016, 32016, width, BlockTokenRange(0, 32002, width, scores).value)
         == BlockTokenRange(0, 32002, width, scores)
    ensures forall b, c :: 0 <= b < |scores| && 0 <= c < width ==>
      (BlockTokenRange(0, 32002, width, scores).value[b][c] == NegInf <==> c < 32002 || scores[b][c] == NegInf)
  {
    EmptyRangeBlocksNothing(32016, 32016, width, BlockTokenRange(0, 32002, width, scores).value);
  }
}

=== FILE: decode.dfy ===
/** `save` of the Stage-1 pipeline, up to the point where the two codec
    streams are written out: check that every start of audio has a matching
    end, cut out each audio span, drop the separator, and split the span into
    its vocal and instrumental halves. */
module Decode {
  import opened PySeq
  import opened Wrappers
  import opened Tracks

  /** The codec separator id that opens each generated audio span. */
  const Separator: int := 32016

  datatype SaveError =
    | UnpairedMarkers(soaCount: nat, eoaCount: nat)  // the `ValueError` on unequal counts
    | EmptySpan(index: nat)                          // `codec_ids[0]` of an empty span
    | NoSpans                                        // `np.concatenate` of an empty list

  /** Every index of `x` in `s`, ascending (`np.where(s == x)[0]`). */
  function Positions(s: seq<int>, x: int): (ps: seq<nat>)
  {
    if |s| == 0 then []
    else Positions(s[..|s| - 1], x) + (if s[|s| - 1] == x then [|s| - 1] else [])
  }

  /** There are as many positions as occurrences, each names an occurrence,
      and they ascend. */
  lemma {:induction false} PositionsSound(s: seq<int>, x: int)
    ensures |Positions(s, x)| == Count(s, x)
    ensures forall k :: 0 <= k < |Positions(s, x)| ==> Positions(s, x)[k] < |s| && s[Positions(s, x)[k]] == x
    ensures forall j, k :: 0 <= j < k < |Positions(s, x)| ==> Positions(s, x)[j] < Positions(s, x)[k]
  {
    if |s| > 0 {
      var init := s[..|s| - 1];
      PositionsSound(init, x);
      assert s == init + [s[|s| - 1]];
      assert multiset(s) == multiset(init) + multiset{s[|s| - 1]};
    }
  }

  /** Every index moved right by `d`. */
  function Shift(ps: seq<nat>, d: nat): (r: seq<nat>)
    ensures |r| == |ps|
    ensures forall k :: 0 <= k < |r| ==> r[k] == ps[k] + d
  {
    seq(|ps|, k requires 0 <= k < |ps| => ps[k] + d)
  }

  /** The positions in a concatenation are those of the left part followed by
      those of the right part, moved by the left part's length. */
  lemma {:induction false} PositionsAppend(a: seq<int>, b: seq<int>, x: int)
    ensures Positions(a + b, x) == Positions(a, x) + Shift(Positions(b, x), |a|)
    decreases |b|
  {
    if |b| == 0 {
      assert a + b == a;
    } else {
      var b0 := b[..|b| - 1];
      assert (a + b)[..|a + b| - 1] == a + b0;
      PositionsAppend(a, b0, x);
      var tail := if b[|b| - 1] == x then [|b| - 1] else [];
      assert Positions(b, x) == Positions(b0, x) + tail;
      assert Shift(Positions(b, x), |a|) == Shift(Positions(b0, x), |a|) + Shift(tail, |a|);
    }
  }

  /** One audio span: drop a leading separator, cut to even length, and split
      even positions (vocals) from odd positions (instrumentals). */
  function DecodeSpan(span: seq<int>): (r: (seq<int>, seq<int>))
    requires |span| > 0
    ensures |r.0| == |r.1|
    ensures |r.0| == (if span[0] == Separator then |span| - 1 else |span|) / 2
  {
    var c := if span[0] == Separator then span[1..] else span;
    var e := c[..2 * (|c| / 2)];
    (Evens(e), Odds(e))
  }

  /** The spans in order; the first empty span is an error. */
  function DecodeSpans(spans: seq<seq<int>>, index: nat): (r: Result<(seq<seq<int>>, seq<seq<int>>), SaveError>)
    ensures r.Ok? <==> forall k :: 0 <= k < |spans| ==> |spans[k]| > 0
    ensures r.Ok? ==> |r.value.0| == |spans| && |r.value.1| == |spans|
    ensures r.Ok? ==> forall k :: 0 <= k < |spans| ==> (r.value.0[k], r.value.1[k]) == DecodeSpan(spans[k])
    ensures r.Err? ==> exists k :: 0 <= k < |spans| && |spans[k]| == 0 && r.error == EmptySpan(index + k)
  {
    if |spans| == 0 then Ok(([], []))
    else if |spans[0]| == 0 then Err(EmptySpan(index))
    else
      var (v, i) := DecodeSpan(spans[0]);
      match DecodeSpans(spans[1..], index + 1)
      case Err(e) =>
        assert forall k :: 1 <= k < |spans| ==> spans[k] == spans[1..][k - 1];
        Err(e)
      case Ok((vs, ins)) =>
        assert forall k :: 1 <= k < |spans| ==> spans[k] == spans[1..][k - 1];
        Ok(([v] + vs, [i] + ins))
  }

  /** Total length of a list of lists: both outputs of `save` have the same. */
  lemma {:induction false} SumLengthsEqual(a: seq<seq<int>>, b: seq<seq<int>>)
    requires |a| == |b| && forall k :: 0 <= k < |a| ==> |a[k]| == |b[k]|
    ensures |Concat(a)| == |Concat(b)|
  {
    ConcatLength(a);
    ConcatLength(b);
    SumLengthsPairwise(a, b);
  }

  lemma {:induction false} SumLengthsPairwise(a: seq<seq<int>>, b: seq<seq<int>>)
    requires |a| == |b| && forall k :: 0 <= k < |a| ==> |a[k]| == |b[k]|
    ensures SumLengths(a) == SumLengths(b)
  {
    if |a| > 0 {
      SumLengthsPairwise(a[1..], b[1..]);
    }
  }

  /** The span between the i-th start and the i-th end of audio. */
  function Spans(ids: seq<int>, sp: seq<nat>, ep: seq<nat>, begin: nat): (r: seq<seq<int>>)
    requires |sp| == |ep|
    ensures |r| == if begin <= |sp| then |sp| - begin else 0
  {
    if begin <= |sp| then
      seq(|sp| - begin, k requires 0 <= k < |sp| - begin => PySlice(ids, sp[begin + k] + 1, ep[begin + k]))
    else []
  }

  /** `save(raw_output, ...)` on lane 0 of the output, up to the two codec
      streams: the span list starts at 1 when an audio or dual-track prompt
      was used, because the first span is the reference audio. */
  function Save(ids: seq<int>, soa: int, eoa: int, useAudio: bool, useDual: bool)
    : (r: Result<(seq<int>, seq<int>), SaveError>)
    ensures r == Err(UnpairedMarkers(Count(ids, soa), Count(ids, eoa))) <==> Count(ids, soa) != Count(ids, eoa)
    ensures r == Err(NoSpans) <==>
      Count(ids, soa) == Count(ids, eoa) && Count(ids, soa) <= (if useAudio || useDual then 1 else 0)
    ensures r.Ok? ==> |r.value.0| == |r.value.1|
  {
    var sp := Positions(ids, soa);
    var ep := Positions(ids, eoa);
    PositionsSound(ids, soa);
    PositionsSound(ids, eoa);
    if |sp| != |ep| then Err(UnpairedMarkers(|sp|, |ep|))
    else
      var begin := if useAudio || useDual then 1 else 0;
      var spans := Spans(ids, sp, ep, begin);
      match DecodeSpans(spans, begin)
      case Err(e) => Err(e)
      case Ok((vs, ins)) =>
        if |spans| == 0 then Err(NoSpans)
        else
          SumLengthsEqual(vs, ins);
          Ok((Concat(vs), Concat(ins)))
  }

  /** One generated segment as it appears in the output: some text tokens, a
      start of audio, the separator, the interleaved tracks, an end of audio. */
  datatype Piece = Piece(text: seq<int>, vocal: seq<int>, inst: seq<int>)

  function RenderPiece(p: Piece, soa: int, eoa: int): (r: seq<int>)
  {
    p.text + [soa, Separator] + Interleave(p.vocal, p.inst) + [eoa]
  }

  function RenderAll(ps: seq<Piece>, soa: int, eoa: int): (r: seq<int>)
  {
    if |ps| == 0 then [] else RenderPiece(ps[0], soa, eoa) + RenderAll(ps[1..], soa, eoa)
  }

  /** The markers are distinct from each other and from the separator, the
      text carries no marker, and the two tracks are equally long and free of
      markers. */
  predicate WellFormed(p: Piece, soa: int, eoa: int)
  {
    && soa != eoa && soa != Separator && eoa != Separator
    && soa !in p.text && eoa !in p.text
    && soa !in p.vocal && eoa !in p.vocal && soa !in p.inst && eoa !in p.inst
    && |p.vocal| == |p.inst|
  }

  lemma {:induction false} InterleaveFree(v: seq<int>, i: seq<int>, x: int)
    requires x !in v && x !in i
    ensures x !in Interleave(v, i)
  {
    if |v| > 0 && |i| > 0 {
      InterleaveFree(v[1..], i[1..], x);
    }
  }

  lemma {:induction false} PositionsAbsent(s: seq<int>, x: int)
    requires x !in s
    ensures Positions(s, x) == []
  {
    if |s| > 0 {
      PositionsAbsent(s[..|s| - 1], x);
    }
  }

  lemma PositionsSnoc(s: seq<int>, y: int, x: int)
    ensures Positions(s + [y], x) == Positions(s, x) + (if y == x then [|s|] else [])
  {
    assert (s + [y])[..|s|] == s;
  }

  /** A rendered piece split at its markers. */
  lemma RenderShape(p: Piece, soa: int, eoa: int)
    ensures RenderPiece(p, soa, eoa) == ((p.text + [soa]) + ([Separator] + Interleave(p.vocal, p.inst))) + [eoa]
  {
  }

  /** One rendered piece holds one start of audio, right after its text. */
  lemma PieceSoa(p: Piece, soa: int, eoa: int)
    requires WellFormed(p, soa, eoa)
    ensures Positions(RenderPiece(p, soa, eoa), soa) == [|p.text|]
  {
    var mid := [Separator] + Interleave(p.vocal, p.inst);
    InterleaveFree(p.vocal, p.inst, soa);
    RenderShape(p, soa, eoa);
    PositionsSnoc((p.text + [soa]) + mid, eoa, soa);
    PositionsAppend(p.text + [soa], mid, soa);
    PositionsAbsent(mid, soa);
    PositionsSnoc(p.text, soa, soa);
    PositionsAbsent(p.text, soa);
  }

  /** One rendered piece holds one end of audio, as its last token. */
  lemma PieceEoa(p: Piece, soa: int, eoa: int)
    requires WellFormed(p, soa, eoa)
    ensures Positions(RenderPiece(p, soa, eoa), eoa) == [|RenderPiece(p, soa, eoa)| - 1]
  {
    var mid := [Separator] + Interleave(p.vocal, p.inst);
    var head := p.text + [soa];
    InterleaveFree(p.vocal, p.inst, eoa);
    RenderShape(p, soa, eoa);
    assert eoa !in head;
    PositionsAppend(head, mid, eoa);
    PositionsAbsent(head, eoa);
    PositionsAbsent(mid, eoa);
    PositionsSnoc(head + mid, eoa, eoa);
  }

  /** Between its start and its end of audio, a piece holds the separator and
      the interleaved tracks. */
  lemma PieceSpan(p: Piece, soa: int, eoa: int)
    ensures |RenderPiece(p, soa, eoa)| == |p.text| + 3 + |Interleave(p.vocal, p.inst)|
    ensures RenderPiece(p, soa, eoa)[|p.text| + 1..|RenderPiece(p, soa, eoa)| - 1]
         == [Separator] + Interleave(p.vocal, p.inst)
  {
  }

  /** The spans of a rendered output, in terms of the pieces it came from. */
  ghost predicate SpansAre(ids: seq<int>, sp: seq<nat>, ep: seq<nat>, ps: seq<Piece>)
  {
    && |sp| == |ps| && |ep| == |ps|
    && forall k :: 0 <= k < |ps| ==> SpanAt(ids, sp[k], ep[k], ps[k])
  }

  /** `ids[s+1:e]` is the span of piece `p`. */
  ghost predicate SpanAt(ids: seq<int>, s: nat, e: nat, p: Piece)
  {
    s < e <= |ids| && ids[s + 1..e] == [Separator] + Interleave(p.vocal, p.inst)
  }

  lemma SpanAtShift(r0: seq<int>, rest: seq<int>, s: nat, e: nat, p: Piece)
    requires SpanAt(rest, s, e, p)
    ensures SpanAt(r0 + rest, s + |r0|, e + |r0|, p)
  {
    assert (r0 + rest)[s + |r0| + 1..e + |r0|] == rest[s + 1..e];
  }

  lemma SpanAtPrefix(r0: seq<int>, rest: seq<int>, s: nat, e: nat, p: Piece)
    requires SpanAt(r0, s, e, p)
    ensures SpanAt(r0 + rest, s, e, p)
  {
    assert (r0 + rest)[s + 1..e] == r0[s + 1..e];
  }

  /** Text in front moves every span right by its length. */
  lemma SpansShift(r0: seq<int>, rest: seq<int>, sp: seq<nat>, ep: seq<nat>, ps: seq<Piece>)
    requires SpansAre(rest, sp, ep, ps)
    ensures SpansAre(r0 + rest, Shift(sp, |r0|), Shift(ep, |r0|), ps)
  {
    forall k | 0 <= k < |ps|
      ensures SpanAt(r0 + rest, sp[k] + |r0|, ep[k] + |r0|, ps[k])
    {
      SpanAtShift(r0, rest, sp[k], ep[k], ps[k]);
    }
  }

  /** Prepending one piece's span to the spans of the rest. */
  lemma SpansCons(ids: seq<int>, s0: nat, e0: nat, sp: seq<nat>, ep: seq<nat>, p: Piece, ps: seq<Piece>)
    requires SpanAt(ids, s0, e0, p)
    requires SpansAre(ids, sp, ep, ps)
    ensures SpansAre(ids, [s0] + sp, [e0] + ep, [p] + ps)
  {
    forall k | 0 <= k < |ps| + 1
      ensures SpanAt(ids, ([s0] + sp)[k], ([e0] + ep)[k], ([p] + ps)[k])
    {
      if k > 0 {
        assert ([s0] + sp)[k] == sp[k - 1] && ([e0] + ep)[k] == ep[k - 1] && ([p] + ps)[k] == ps[k - 1];
      }
    }
  }

  /** The markers of a piece followed by more output: its own start and end
      of audio come first, around its span, and the markers of the rest
      follow, moved by the piece's length. */
  lemma HeadSpan(p: Piece, soa: int, eoa: int, rest: seq<int>)
    requires WellFormed(p, soa, eoa)
    ensures var r0 := RenderPiece(p, soa, eoa);
      && Positions(r0 + rest, soa) == [|p.text|] + Shift(Positions(rest, soa), |r0|)
      && Positions(r0 + rest, eoa) == [|r0| - 1] + Shift(Positions(rest, eoa), |r0|)
      && SpanAt(r0 + rest, |p.text|, |r0| - 1, p)
  {
    var r0 := RenderPiece(p, soa, eoa);
    PieceSoa(p, soa, eoa);
    PieceEoa(p, soa, eoa);
    PieceSpan(p, soa, eoa);
    assert SpanAt(r0, |p.text|, |r0| - 1, p);
    PositionsAppend(r0, rest, soa);
    PositionsAppend(r0, rest, eoa);
    SpanAtPrefix(r0, rest, |p.text|, |r0| - 1, p);
  }

  /** A rendered piece in front of output whose spans are those of `ps`. */
  lemma RenderedStep(p: Piece, soa: int, eoa: int, rest: seq<int>, ps: seq<Piece>)
    requires WellFormed(p, soa, eoa)
    requires SpansAre(rest, Positions(rest, soa), Positions(rest, eoa), ps)
    ensures var ids := RenderPiece(p, soa, eoa) + rest;
      SpansAre(ids, Positions(ids, soa), Positions(ids, eoa), [p] + ps)
  {
    var r0 := RenderPiece(p, soa, eoa);
    HeadSpan(p, soa, eoa, rest);
    SpansShift(r0, rest, Positions(rest, soa), Positions(rest, eoa), ps);
    SpansCons(r0 + rest, |p.text|, |r0| - 1, Shift(Positions(rest, soa), |r0|),
              Shift(Positions(rest, eoa), |r0|), p, ps);
  }

  lemma {:induction false} RenderedSpans(ps: seq<Piece>, soa: int, eoa: int)
    requires forall k :: 0 <= k < |ps| ==> WellFormed(ps[k], soa, eoa)
    ensures SpansAre(RenderAll(ps, soa, eoa), Positions(RenderAll(ps, soa, eoa), soa),
                     Positions(RenderAll(ps, soa, eoa), eoa), ps)
  {
    if |ps| > 0 {
      var r0 := RenderPiece(ps[0], soa, eoa);
      var rest := RenderAll(ps[1..], soa, eoa);
      assert RenderAll(ps, soa, eoa) == r0 + rest;
      RenderedSpans(ps[1..], soa, eoa);
      RenderedStep(ps[0], soa, eoa, rest, ps[1..]);
      assert [ps[0]] + ps[1..] == ps;
    }
  }

  /** A well-formed span decodes to its own two tracks. */
  lemma DecodeRenderedSpan(p: Piece)
    requires |p.vocal| == |p.inst|
    ensures DecodeSpan([Separator] + Interleave(p.vocal, p.inst)) == (p.vocal, p.inst)
  {
    var span := [Separator] + Interleave(p.vocal, p.inst);
    var c := span[1..];
    assert c == Interleave(p.vocal, p.inst);
    assert c[..2 * (|c| / 2)] == c;
    SplitInterleave(p.vocal, p.inst);
    assert p.vocal[..|p.vocal|] == p.vocal && p.inst[..|p.inst|] == p.inst;
  }

  function Vocals(ps: seq<Piece>): (r: seq<seq<int>>)
    ensures |r| == |ps| && forall k :: 0 <= k < |ps| ==> r[k] == ps[k].vocal
  {
    seq(|ps|, k requires 0 <= k < |ps| => ps[k].vocal)
  }

  function Insts(ps: seq<Piece>): (r: seq<seq<int>>)
    ensures |r| == |ps| && forall k :: 0 <= k < |ps| ==> r[k] == ps[k].inst
  {
    seq(|ps|, k requires 0 <= k < |ps| => ps[k].inst)
  }

  /** Decoding spans that are all well-formed yields their tracks. */
  lemma DecodeWellFormedSpans(spans: seq<seq<int>>, index: nat, tail: seq<Piece>)
    requires |spans| == |tail|
    requires forall k :: 0 <= k < |tail| ==> |tail[k].vocal| == |tail[k].inst|
    requires forall k :: 0 <= k < |tail| ==> spans[k] == [Separator] + Interleave(tail[k].vocal, tail[k].inst)
    ensures DecodeSpans(spans, index) == Ok((Vocals(tail), Insts(tail)))
  {
    forall k | 0 <= k < |spans|
      ensures |spans[k]| > 0 && DecodeSpan(spans[k]) == (tail[k].vocal, tail[k].inst)
    {
      DecodeRenderedSpan(tail[k]);
    }
    var d := DecodeSpans(spans, index);
    assert d.value.0 == Vocals(tail);
    assert d.value.1 == Insts(tail);
  }

  /** The spans cut out of an output whose spans are those of `ps`. */
  lemma SpansOfPieces(ids: seq<int>, sp: seq<nat>, ep: seq<nat>, ps: seq<Piece>, begin: nat)
    requires SpansAre(ids, sp, ep, ps) && begin <= |ps|
    ensures |Spans(ids, sp, ep, begin)| == |ps[begin..]|
    ensures forall k :: 0 <= k < |ps| - begin ==>
      Spans(ids, sp, ep, begin)[k] == [Separator] + Interleave(ps[begin..][k].vocal, ps[begin..][k].inst)
  {
    var spans := Spans(ids, sp, ep, begin);
    forall k | 0 <= k < |ps| - begin
      ensures spans[k] == [Separator] + Interleave(ps[begin..][k].vocal, ps[begin..][k].inst)
    {
      var a, b := sp[begin + k], ep[begin + k];
      assert SpanAt(ids, a, b, ps[begin + k]);
      assert spans[k] == PySlice(ids, a + 1, b);
      assert Bound(a + 1, |ids|) == a + 1 && Bound(b, |ids|) == b;
    }
  }

  /** `save` on any output whose spans are those of `ps`. */
  lemma SaveOfSpans(ids: seq<int>, soa: int, eoa: int, ps: seq<Piece>, useAudio: bool, useDual: bool)
    requires SpansAre(ids, Positions(ids, soa), Positions(ids, eoa), ps)
    requires forall k :: 0 <= k < |ps| ==> |ps[k].vocal| == |ps[k].inst|
    ensures var begin := if useAudio || useDual then 1 else 0;
      Save(ids, soa, eoa, useAudio, useDual)
      == if |ps| <= begin then Err(NoSpans)
         else Ok((Concat(Vocals(ps[begin..])), Concat(Insts(ps[begin..]))))
  {
    var begin := if useAudio || useDual then 1 else 0;
    var sp := Positions(ids, soa);
    var ep := Positions(ids, eoa);
    if |ps| > begin {
      var tail := ps[begin..];
      SpansOfPieces(ids, sp, ep, ps, begin);
      DecodeWellFormedSpans(Spans(ids, sp, ep, begin), begin, tail);
    } else {
      assert Spans(ids, sp, ep, begin) == [];
    }
  }

  /** `save` inverts the rendering of well-formed segments: it returns every
      segment's vocal tokens and instrumental tokens, concatenated in order,
      skipping the first segment when it is the reference audio. With no
      segment to decode it fails. */
  lemma SaveRoundTrip(ps: seq<Piece>, soa: int, eoa: int, useAudio: bool, useDual: bool)
    requires forall k :: 0 <= k < |ps| ==> WellFormed(ps[k], soa, eoa)
    ensures var begin := if useAudio || useDual then 1 else 0;
      Save(RenderAll(ps, soa, eoa), soa, eoa, useAudio, useDual)
      == if |ps| <= begin then Err(NoSpans)
         else Ok((Concat(Vocals(ps[begin..])), Concat(Insts(ps[begin..]))))
  {
    RenderedSpans(ps, soa, eoa);
    SaveOfSpans(RenderAll(ps, soa, eoa), soa, eoa, ps, useAudio, useDual);
  }
}

=== FILE: generate_hf.dfy ===
/** `Stage1Pipeline_HF.generate`: the back end that hands each segment to
    the model's own `generate`. Each segment's input is the whole output so
    far plus the segment prompt, cut to the trailing window; the model's
    output gets an end of audio unless it already ends with one; and the raw
    output grows by the prompt and the newly generated tokens. The model is a
    parameter. */
module PipelineHf {
  import opened Wrappers
  import opened Prompts
  import opened Window
  import opened Guidance
  import opened Pipeline

  /** The model's `generate`: from the input ids and the guidance scale of
      the segment, the tokens it generates after the input. */
  type Continuation = (seq<int>, Option<real>) -> seq<int>

  datatype HfError =
    | NothingGenerated  // `raw_output` is never assigned when no segment runs
    | EmptyInput        // a window that drops every token leaves nothing to continue

  /** At most `n` leading tokens: `generate` stops after `max_new_tokens`. */
  function Cap(s: seq<int>, n: int): (r: seq<int>)
    ensures |r| <= (if n > 0 then n else 0)
    ensures IsPrefix(r, s)
    ensures |s| <= n ==> r == s
  {
    if n <= 0 then [] else if |s| <= n then s else s[..n]
  }

  /** `output_seq` of one segment: the input, the new tokens, and an end of
      audio unless the output already ends with one. */
  function HfOutput(input: seq<int>, gen: Continuation, scale: Option<real>, maxNew: int, eoa: int)
    : (o: seq<int>)
    requires |input| > 0
    ensures IsPrefix(input, o)
    ensures IsPrefix(input + Cap(gen(input, scale), maxNew), o)
    ensures o[|o| - 1] == eoa
    ensures var m := input + Cap(gen(input, scale), maxNew);
      |o| == |m| + (if m[|m| - 1] == eoa then 0 else 1)
    ensures |o| <= |input| + (if maxNew > 0 then maxNew else 0) + 1
  {
    var o := input + Cap(gen(input, scale), maxNew);
    if o[|o| - 1] == eoa then o else o + [eoa]
  }

  /** The prompt of segment `i`: the first prompt for segment 0 (this back
      end never resumes), the segment prompt otherwise. */
  function HfPrompt(req: Request, env: Env, texts: seq<string>, i: int): (p: seq<int>)
    requires 0 <= i && i + 1 < |texts|
    ensures |p| > 0
    ensures i > 0 ==> p == SegmentPrompt(env.vocab, texts[i + 1])
  {
    if i == 0 then FirstPrompt(req, env, texts) else SegmentPrompt(env.vocab, texts[i + 1])
  }

  /** `min(run_n_segments, len(lyrics))`. */
  function HfCount(req: Request): int
  {
    var n := |Texts(req).0|;
    if req.runN < n then req.runN else n
  }

  /** The prompts of the segments the run generates, in order. */
  function HfPrompts(req: Request, env: Env): (ps: seq<seq<int>>)
    ensures |ps| == if HfCount(req) > 0 then HfCount(req) else 0
    ensures forall j :: 0 <= j < |ps| ==> |ps[j]| > 0
  {
    var texts := Texts(req).1;
    var n := if HfCount(req) > 0 then HfCount(req) else 0;
    seq(n, j requires 0 <= j < n => HfPrompt(req, env, texts, j))
  }

  /** Segment `j` is given the first prompt when `j` is 0 and the segment
      prompt of the `j`-th lyrics section otherwise. */
  lemma HfPromptsAt(req: Request, env: Env, j: nat)
    requires j < |HfPrompts(req, env)|
    ensures j + 1 < |Texts(req).1|
    ensures j == 0 ==> HfPrompts(req, env)[j] == FirstPrompt(req, env, Texts(req).1)
    ensures j > 0 ==> HfPrompts(req, env)[j] == SegmentPrompt(env.vocab, Texts(req).1[j + 1])
  {
  }

  /** What stays fixed across the segments of one run: the window, the
      decoding settings, the budget, the end-of-audio id and the model. */
  datatype HfConfig = HfConfig(mc: int, settings: SampleSettings, maxNew: int, eoa: int, gen: Continuation)

  function Config(req: Request, env: Env, gen: Continuation): (c: HfConfig)
    ensures c.mc == Mc(req, env) && c.eoa == env.vocab.eoa && c.gen == gen
    ensures c.settings == req.settings && c.maxNew == req.maxNew
  {
    HfConfig(Mc(req, env), req.settings, req.maxNew, env.vocab.eoa, gen)
  }

  /** One segment: the model's input, the guidance scale it was given, its
      output, and `raw_output` afterwards. */
  datatype HfSeg = HfSeg(input: seq<int>, scale: Option<real>, output: seq<int>, raw: seq<int>)

  /** What the model is given before windowing: the first prompt alone, or
      the raw output so far followed by the segment prompt. */
  function StepContext(raw: seq<int>, prompt: seq<int>, i: int): (full: seq<int>)
    ensures |full| >= |prompt|
    ensures i > 0 ==> full == raw + prompt
  {
    if i == 0 then prompt else raw + prompt
  }

  /** `raw_output` after a segment whose model input `input` (a trailing
      part of the context) produced `o`: the model output itself for the
      first segment, otherwise the old raw output and the prompt followed by
      what the model generated past its input. */
  function NewRaw(raw: seq<int>, prompt: seq<int>, input: seq<int>, o: seq<int>, i: int, eoa: int)
    : (r: seq<int>)
    requires IsSuffix(input, StepContext(raw, prompt, i)) && IsPrefix(input, o)
    requires |o| > 0 && o[|o| - 1] == eoa
    ensures Extended(HfSeg(input, None, o, r), raw, prompt, i, eoa)
  {
    if i == 0 then
      assert IsSuffix(o, o);
      SuffixLast(o, o);
      o
    else
      ExtendRaw(raw + prompt, input, o, eoa);
      raw + prompt + o[|input|..]
  }

  /** What a successful step promises about the raw output: it ends with
      the model output and so with an end of audio, and after the first
      segment it extends the old raw output and the prompt. */
  predicate Extended(seg: HfSeg, raw: seq<int>, prompt: seq<int>, i: int, eoa: int)
  {
    && IsSuffix(seg.output, seg.raw)
    && |seg.raw| > 0 && seg.raw[|seg.raw| - 1] == eoa
    && (i > 0 ==> IsPrefix(raw + prompt, seg.raw))
  }

  /** One pass of the segment loop of `generate` for segment `i` with prompt
      `prompt` after the raw output `raw`: the model sees the trailing window
      of the context, and the raw output is updated with its output. */
  function SegmentStep(cfg: HfConfig, prompt: seq<int>, raw: seq<int>, i: nat): (r: Result<HfSeg, HfError>)
    ensures r.Ok? ==> r.value.scale == Scale(cfg.settings, i)
    ensures r.Ok? ==> IsSuffix(r.value.input, StepContext(raw, prompt, i))
    ensures r.Ok? ==> IsPrefix(r.value.input, r.value.output)
    ensures r.Ok? ==> Extended(r.value, raw, prompt, i, cfg.eoa)
  {
    var input := Windowed(StepContext(raw, prompt, i), cfg.mc);
    if |input| == 0 then Err(EmptyInput) else Ok(Continue(cfg, prompt, raw, i, input))
  }

  /** The segment once its model input is known: the model continues the
      input, and the raw output takes the new tokens. */
  function Continue(cfg: HfConfig, prompt: seq<int>, raw: seq<int>, i: nat, input: seq<int>): (seg: HfSeg)
    requires |input| > 0 && IsSuffix(input, StepContext(raw, prompt, i))
    ensures seg.input == input && seg.scale == Scale(cfg.settings, i)
    ensures IsPrefix(input, seg.output)
    ensures Extended(seg, raw, prompt, i, cfg.eoa)
  {
    var scale := Scale(cfg.settings, i);
    var o := HfOutput(input, cfg.gen, scale, cfg.maxNew, cfg.eoa);
    HfSeg(input, scale, o, NewRaw(raw, prompt, input, o, i, cfg.eoa))
  }

  /** With a window of at least one token and a non-empty prompt the step
      always succeeds, and the model never sees more than the window. */
  lemma StepFits(cfg: HfConfig, prompt: seq<int>, raw: seq<int>, i: nat)
    requires |prompt| > 0 && cfg.mc >= 1
    ensures SegmentStep(cfg, prompt, raw, i).Ok?
    ensures |SegmentStep(cfg, prompt, raw, i).value.input| <= cfg.mc
  {
    WindowedFits(StepContext(raw, prompt, i), cfg.mc);
  }

  /** Replacing the trailing window of `full` by an extension of it leaves
      the extension at the end. */
  lemma ReplaceWindow(full: seq<int>, input: seq<int>, o: seq<int>)
    requires IsSuffix(input, full) && IsPrefix(input, o)
    ensures IsSuffix(o, full + o[|input|..])
  {
    var head := full[..|full| - |input|];
    assert full == head + input;
    assert o == input + o[|input|..];
    assert full + o[|input|..] == head + o;
  }

  /** The raw output after a later segment: the old raw output and prompt,
      then what the model generated past its input. */
  lemma ExtendRaw(full: seq<int>, input: seq<int>, o: seq<int>, eoa: int)
    requires IsSuffix(input, full) && IsPrefix(input, o) && |o| > 0 && o[|o| - 1] == eoa
    ensures IsSuffix(o, full + o[|input|..])
    ensures IsPrefix(full, full + o[|input|..])
    ensures |full + o[|input|..]| > 0 && (full + o[|input|..])[|full + o[|input|..]| - 1] == eoa
  {
    ReplaceWindow(full, input, o);
    SuffixLast(o, full + o[|input|..]);
  }

  lemma SuffixLast(t: seq<int>, s: seq<int>)
    requires IsSuffix(t, s) && |t| > 0
    ensures |s| > 0 && s[|s| - 1] == t[|t| - 1]
  {
    assert s[|s| - |t|..][|t| - 1] == s[|s| - 1];
  }

  /** A step of the loop as a function of the segment's prompt, the raw
      output before it and the segment index. */
  type HfStep = (seq<int>, seq<int>, nat) -> Result<HfSeg, HfError>

  /** The step of a run with configuration `cfg`. */
  function Step(cfg: HfConfig): HfStep
  {
    (prompt: seq<int>, raw: seq<int>, i: nat) => SegmentStep(cfg, prompt, raw, i)
  }

  /** Every successful step extends the raw output as `Extended` says. */
  ghost predicate Extends(step: HfStep, eoa: int)
  {
    forall prompt: seq<int>, raw: seq<int>, i: nat ::
      step(prompt, raw, i).Ok? ==> Extended(step(prompt, raw, i).value, raw, prompt, i, eoa)
  }

  /** Every step with a non-empty prompt succeeds. */
  ghost predicate NeverEmpty(step: HfStep)
  {
    forall prompt: seq<int>, raw: seq<int>, i: nat :: |prompt| > 0 ==> step(prompt, raw, i).Ok?
  }

  lemma StepExtends(cfg: HfConfig)
    ensures Extends(Step(cfg), cfg.eoa)
  {
    forall prompt: seq<int>, raw: seq<int>, i: nat | Step(cfg)(prompt, raw, i).Ok?
      ensures Extended(Step(cfg)(prompt, raw, i).value, raw, prompt, i, cfg.eoa)
    {
      assert Step(cfg)(prompt, raw, i) == SegmentStep(cfg, prompt, raw, i);
    }
  }

  lemma StepNeverEmpty(cfg: HfConfig)
    requires cfg.mc >= 1
    ensures NeverEmpty(Step(cfg))
  {
    forall prompt: seq<int>, raw: seq<int>, i: nat | |prompt| > 0
      ensures Step(cfg)(prompt, raw, i).Ok?
    {
      StepFits(cfg, prompt, raw, i);
    }
  }

  /** `raw_output` after the first `k` recorded segments (empty before the
      first). */
  function RawAt(segs: seq<HfSeg>, k: nat): seq<int>
    requires k <= |segs|
  {
    if k == 0 then [] else segs[k - 1].raw
  }

  /** `raw_output` after all recorded segments. */
  function Raw(segs: seq<HfSeg>): seq<int>
  {
    RawAt(segs, |segs|)
  }

  /** `segs` is what the loop records, one segment per prompt so far:
      segment `k` is the step from the raw output of the segments before
      it. */
  predicate HfTraced(step: HfStep, prompts: seq<seq<int>>, segs: seq<HfSeg>)
  {
    && |segs| <= |prompts|
    && forall k: nat :: k < |segs| ==> step(prompts[k], RawAt(segs, k), k) == Ok(segs[k])
  }

  /** Recording one more step keeps the trace. */
  lemma HfTracedSnoc(step: HfStep, prompts: seq<seq<int>>, segs: seq<HfSeg>, seg: HfSeg)
    requires HfTraced(step, prompts, segs)
    requires |segs| < |prompts| && step(prompts[|segs|], Raw(segs), |segs|) == Ok(seg)
    ensures HfTraced(step, prompts, segs + [seg])
  {
    var next := segs + [seg];
    forall k: nat | k < |next|
      ensures step(prompts[k], RawAt(next, k), k) == Ok(next[k])
    {
      if k < |segs| {
        assert RawAt(next, k) == RawAt(segs, k);
      }
    }
  }

  /** Every recorded step extends the raw output before it. */
  lemma RawStep(step: HfStep, eoa: int, prompts: seq<seq<int>>, segs: seq<HfSeg>, k: nat)
    requires HfTraced(step, prompts, segs) && Extends(step, eoa) && k < |segs|
    ensures IsPrefix(RawAt(segs, k), RawAt(segs, k + 1))
  {
    var raw := RawAt(segs, k);
    assert step(prompts[k], raw, k) == Ok(segs[k]);
    if k > 0 {
      assert IsPrefix(raw, raw + prompts[k]);
      PrefixTrans(raw, raw + prompts[k], segs[k].raw);
    }
  }

  /** After at least one step the raw output ends with the last model output
      and so with an end of audio. */
  lemma HfTracedEnds(step: HfStep, eoa: int, prompts: seq<seq<int>>, segs: seq<HfSeg>)
    requires HfTraced(step, prompts, segs) && Extends(step, eoa) && |segs| > 0
    ensures IsSuffix(segs[|segs| - 1].output, Raw(segs))
    ensures |Raw(segs)| > 0 && Raw(segs)[|Raw(segs)| - 1] == eoa
  {
    var k := |segs| - 1;
    assert step(prompts[k], RawAt(segs, k), k) == Ok(segs[k]);
  }

  /** Each recorded segment's raw output extends the one before it. */
  predicate Growing(segs: seq<HfSeg>)
  {
    forall k: nat :: k < |segs| ==> IsPrefix(RawAt(segs, k), RawAt(segs, k + 1))
  }

  lemma TracedGrowing(step: HfStep, eoa: int, prompts: seq<seq<int>>, segs: seq<HfSeg>)
    requires HfTraced(step, prompts, segs) && Extends(step, eoa)
    ensures Growing(segs)
  {
    forall k: nat | k < |segs|
      ensures IsPrefix(RawAt(segs, k), RawAt(segs, k + 1))
    {
      RawStep(step, eoa, prompts, segs, k);
    }
  }

  lemma {:induction false} GrowingChain(segs: seq<HfSeg>, m: nat, n: nat)
    requires Growing(segs) && m <= n <= |segs|
    ensures IsPrefix(RawAt(segs, m), RawAt(segs, n))
    decreases n
  {
    if m == n {
      assert RawAt(segs, m)[..|RawAt(segs, m)|] == RawAt(segs, m);
    } else {
      GrowingChain(segs, m, n - 1);
      assert IsPrefix(RawAt(segs, n - 1), RawAt(segs, n));
      PrefixTrans(RawAt(segs, m), RawAt(segs, n - 1), RawAt(segs, n));
    }
  }

  /** The raw output only grows: the raw output after the first `m`
      segments stays at the front of the raw output after any later
      segment, although the model itself only ever sees the trailing
      window. */
  lemma RawGrows(step: HfStep, eoa: int, prompts: seq<seq<int>>, segs: seq<HfSeg>, m: nat, n: nat)
    requires HfTraced(step, prompts, segs) && Extends(step, eoa)
    requires m <= n <= |segs|
    ensures IsPrefix(RawAt(segs, m), RawAt(segs, n))
  {
    TracedGrowing(step, eoa, prompts, segs);
    GrowingChain(segs, m, n);
  }

  /** The loop of `generate` over the given prompts, stopping at the first
      step that fails. */
  method HfLoop(step: HfStep, prompts: seq<seq<int>>) returns (segs: seq<HfSeg>, failed: bool)
    ensures HfTraced(step, prompts, segs)
    ensures failed ==> |segs| < |prompts| && step(prompts[|segs|], Raw(segs), |segs|).Err?
    ensures !failed ==> |segs| == |prompts|
  {
    segs := [];
    failed := false;
    while |segs| < |prompts| && !failed
      invariant |segs| <= |prompts|
      invariant HfTraced(step, prompts, segs)
      invariant failed ==> |segs| < |prompts| && step(prompts[|segs|], Raw(segs), |segs|).Err?
      decreases |prompts| - |segs|, if failed then 0 else 1
    {
      var i := |segs|;
      var next := step(prompts[i], Raw(segs), i);
      if next.Err? {
        failed := true;
      } else {
        HfTracedSnoc(step, prompts, segs, next.value);
        segs := segs + [next.value];
      }
    }
  }

  /** The run over the given prompts. It fails only when there are none or
      a step fails, which no step does when none can come back empty. */
  method RunHfSegments(step: HfStep, eoa: int, prompts: seq<seq<int>>)
    returns (r: Result<seq<int>, HfError>, segs: seq<HfSeg>)
    requires Extends(step, eoa)
    ensures r == Err(NothingGenerated) <==> |prompts| == 0
    ensures HfTraced(step, prompts, segs)
    ensures r == Err(EmptyInput) ==>
      |segs| < |prompts| && step(prompts[|segs|], Raw(segs), |segs|).Err?
    ensures NeverEmpty(step) && (forall j :: 0 <= j < |prompts| ==> |prompts[j]| > 0) && |prompts| > 0 ==> r.Ok?
    ensures r.Ok? ==> |segs| == |prompts| && r.value == Raw(segs)
    ensures r.Ok? ==> |r.value| > 0 && r.value[|r.value| - 1] == eoa
    ensures r.Ok? ==> IsSuffix(segs[|segs| - 1].output, r.value)
  {
    var failed;
    segs, failed := HfLoop(step, prompts);
    if |prompts| == 0 {
      r := Err(NothingGenerated);
    } else if failed {
      r := Err(EmptyInput);
    } else {
      HfTracedEnds(step, eoa, prompts, segs);
      r := Ok(Raw(segs));
    }
  }

  /** `Stage1Pipeline_HF.generate`, returning the raw output and the record
      of each segment. It fails only when no segment runs, or when a window
      drops every token (impossible with a window of at least one token);
      otherwise the raw output ends with the last model output and so with
      an end of audio. */
  method HfGenerate(req: Request, env: Env, gen: Continuation)
    returns (r: Result<seq<int>, HfError>, segs: seq<HfSeg>)
    ensures r == Err(NothingGenerated) <==> HfCount(req) <= 0
    ensures HfTraced(Step(Config(req, env, gen)), HfPrompts(req, env), segs)
    ensures r == Err(EmptyInput) ==>
      && |segs| < |HfPrompts(req, env)|
      && SegmentStep(Config(req, env, gen), HfPrompts(req, env)[|segs|], Raw(segs), |segs|) == Err(EmptyInput)
    ensures Mc(req, env) >= 1 && HfCount(req) > 0 ==> r.Ok?
    ensures r.Ok? ==> |segs| == HfCount(req) && r.value == Raw(segs)
    ensures r.Ok? ==> |r.value| > 0 && r.value[|r.value| - 1] == env.vocab.eoa
    ensures r.Ok? ==> IsSuffix(segs[|segs| - 1].output, r.value)
  {
    var cfg := Config(req, env, gen);
    StepExtends(cfg);
    if cfg.mc >= 1 {
      StepNeverEmpty(cfg);
    }
    r, segs := RunHfSegments(Step(cfg), cfg.eoa, HfPrompts(req, env));
  }
}

=== FILE: genres.dfy ===
/** `load_and_process_genres` of `interface.py` after the JSON file is read:
    collect the tag lists of five categories, strip every item, drop empty
    items and case-insensitive duplicates (the first spelling wins), and sort
    by the lower-cased spelling. */
module Genres {
  import opened Text
  import opened PySeq

  /** The categories read from the tag file, in the order they are read. */
  const Categories: seq<string> := ["genre", "timbre", "gender", "mood", "instrument"]

  /** The comparison key: the lower-cased spelling. */
  function Key(item: string): string
  {
    Lower(item)
  }

  /** `[item.strip() for item in items]`. */
  function StripAll(items: seq<string>): (r: seq<string>)
    ensures |r| == |items|
    ensures forall k :: 0 <= k < |r| ==> r[k] == Strip(items[k])
  {
    if |items| == 0 then [] else [Strip(items[0])] + StripAll(items[1..])
  }

  /** The stripped items of the categories, category by category
      (`data.get(category, [])` for each). */
  function CategoryItems(data: map<string, seq<string>>, cats: seq<string>): (r: seq<string>)
    ensures forall x :: x in r ==> Strip(x) == x
  {
    if |cats| == 0 then []
    else
      var items := if cats[0] in data then data[cats[0]] else [];
      var here := StripAll(items);
      forall x | x in here ensures Strip(x) == x {
        var k :| 0 <= k < |here| && here[k] == x;
        StripIdempotent(items[k]);
      }
      here + CategoryItems(data, cats[1..])
  }

  /** Every stripped item of a listed category present in the data is
      collected. */
  lemma {:induction false} CategoryItemsHas(data: map<string, seq<string>>, cats: seq<string>, c: string, y: string)
    requires c in cats && c in data && y in data[c]
    ensures Strip(y) in CategoryItems(data, cats)
    decreases |cats|
  {
    if cats[0] == c {
      var k :| 0 <= k < |data[c]| && data[c][k] == y;
      assert StripAll(data[c])[k] == Strip(y);
    } else {
      CategoryItemsHas(data, cats[1..], c, y);
    }
  }

  /** Every collected item is the stripped form of an item of a listed
      category present in the data; a missing category contributes
      nothing. */
  lemma {:induction false} CategoryItemsFrom(data: map<string, seq<string>>, cats: seq<string>, x: string)
    returns (c: string, y: string)
    requires x in CategoryItems(data, cats)
    ensures c in cats && c in data && y in data[c] && x == Strip(y)
    decreases |cats|
  {
    var items := if cats[0] in data then data[cats[0]] else [];
    var here := StripAll(items);
    assert CategoryItems(data, cats) == here + CategoryItems(data, cats[1..]);
    if x in here {
      var k :| 0 <= k < |here| && here[k] == x;
      c, y := cats[0], items[k];
    } else {
      c, y := CategoryItemsFrom(data, cats[1..], x);
    }
  }

  /** `x` occurs in `items` at `p` and no earlier item has the same key. */
  ghost predicate FirstSpellingAt(items: seq<string>, x: string, p: int)
  {
    0 <= p < |items| && items[p] == x && forall q :: 0 <= q < p ==> Key(items[q]) != Key(x)
  }

  /** The `OrderedDict` loop: keep an item when it is non-empty and its key has
      not been seen. */
  function Dedupe(items: seq<string>, seen: set<string>): (r: seq<string>)
    ensures forall x :: x in r ==> x in items && x != "" && Key(x) !in seen
    ensures forall i, j :: 0 <= i < j < |r| ==> Key(r[i]) != Key(r[j])
  {
    if |items| == 0 then []
    else
      var item := items[0];
      var key := Key(item);
      if key !in seen && item != "" then
        [item] + Dedupe(items[1..], seen + {key})
      else
        Dedupe(items[1..], seen)
  }

  /** Every non-empty item whose key was not seen before is represented. */
  lemma {:induction false} DedupeComplete(items: seq<string>, seen: set<string>, k: int)
    requires 0 <= k < |items| && items[k] != "" && Key(items[k]) !in seen
    ensures exists x :: x in Dedupe(items, seen) && Key(x) == Key(items[k])
  {
    var item := items[0];
    var key := Key(item);
    if key !in seen && item != "" {
      if Key(items[k]) == key {
        assert item in Dedupe(items, seen);
      } else {
        assert items[k] == items[1..][k - 1];
        DedupeComplete(items[1..], seen + {key}, k - 1);
      }
    } else {
      assert k > 0;
      assert items[k] == items[1..][k - 1];
      DedupeComplete(items[1..], seen, k - 1);
    }
  }

  /** Every kept item is the first spelling of its key among `items`. */
  lemma {:induction false} DedupeFirstSpelling(items: seq<string>, seen: set<string>, x: string)
    requires x in Dedupe(items, seen)
    ensures exists p :: FirstSpellingAt(items, x, p)
  {
    var item := items[0];
    var key := Key(item);
    if key !in seen && item != "" {
      if x == item {
        assert FirstSpellingAt(items, x, 0);
      } else {
        DedupeFirstSpelling(items[1..], seen + {key}, x);
        var p :| FirstSpellingAt(items[1..], x, p);
        assert Key(x) != key;
        assert FirstSpellingAt(items, x, p + 1);
      }
    } else {
      DedupeFirstSpelling(items[1..], seen, x);
      var p :| FirstSpellingAt(items[1..], x, p);
      assert |Key(x)| == |x| > 0;
      assert Key(items[0]) != Key(x);
      assert FirstSpellingAt(items, x, p + 1);
    }
  }

  /** Lexicographic order on code points (Python's `<` on `str`). */
  predicate LexLess(a: string, b: string)
  {
    if |b| == 0 then false
    else if |a| == 0 then true
    else if a[0] != b[0] then a[0] < b[0]
    else LexLess(a[1..], b[1..])
  }

  lemma {:induction false} LexIrreflexive(a: string)
    ensures !LexLess(a, a)
  {
    if |a| > 0 {
      LexIrreflexive(a[1..]);
    }
  }

  lemma {:induction false} LexTransitive(a: string, b: string, c: string)
    requires LexLess(a, b) && LexLess(b, c)
    ensures LexLess(a, c)
  {
    if |a| > 0 && a[0] == b[0] && b[0] == c[0] {
      LexTransitive(a[1..], b[1..], c[1..]);
    }
  }

  lemma {:induction false} LexTotal(a: string, b: string)
    requires a != b
    ensures LexLess(a, b) || LexLess(b, a)
  {
    if |a| > 0 && |b| > 0 && a[0] == b[0] {
      assert a == [a[0]] + a[1..] && b == [b[0]] + b[1..];
      LexTotal(a[1..], b[1..]);
    }
  }

  /** Strictly increasing by key. */
  ghost predicate SortedByKey(s: seq<string>)
  {
    forall i, j :: 0 <= i < j < |s| ==> LexLess(Key(s[i]), Key(s[j]))
  }

  ghost predicate DistinctKeys(s: seq<string>)
  {
    forall i, j :: 0 <= i < j < |s| ==> Key(s[i]) != Key(s[j])
  }

  /** Insert `x` in front of the first item whose key is above its own. */
  function Insert(x: string, s: seq<string>): (r: seq<string>)
  {
    if |s| == 0 || LexLess(Key(x), Key(s[0])) then [x] + s
    else [s[0]] + Insert(x, s[1..])
  }

  /** Inserting an item with a new key into a list sorted by key keeps it
      sorted and adds exactly that item. */
  lemma {:induction false} InsertSorted(x: string, s: seq<string>)
    requires SortedByKey(s)
    requires forall y :: y in s ==> Key(y) != Key(x)
    ensures SortedByKey(Insert(x, s))
    ensures multiset(Insert(x, s)) == multiset(s) + multiset{x}
  {
    if |s| == 0 {
    } else if LexLess(Key(x), Key(s[0])) {
      SortedInFront(x, s);
    } else {
      LexTotal(Key(x), Key(s[0]));
      assert s == [s[0]] + s[1..];
      InsertSorted(x, s[1..]);
      SortedAfterHead(s, x, Insert(x, s[1..]));
    }
  }

  /** An item whose key is below the first key of a sorted list can go in
      front of it. */
  lemma SortedInFront(x: string, s: seq<string>)
    requires SortedByKey(s) && |s| > 0 && LexLess(Key(x), Key(s[0]))
    ensures SortedByKey([x] + s)
  {
    var r := [x] + s;
    forall i, j | 0 <= i < j < |r| ensures LexLess(Key(r[i]), Key(r[j])) {
      if i == 0 && j > 1 {
        LexTransitive(Key(x), Key(s[0]), Key(s[j - 1]));
      }
    }
  }

  /** The head of a sorted list stays in front of the rest with `x` (whose
      key is above the head's) inserted. */
  lemma SortedAfterHead(s: seq<string>, x: string, rest: seq<string>)
    requires |s| > 0 && SortedByKey(s) && LexLess(Key(s[0]), Key(x))
    requires SortedByKey(rest) && multiset(rest) == multiset(s[1..]) + multiset{x}
    ensures SortedByKey([s[0]] + rest)
  {
    var r := [s[0]] + rest;
    forall i, j | 0 <= i < j < |r| ensures LexLess(Key(r[i]), Key(r[j])) {
      if i == 0 {
        assert r[j] in multiset(rest);
        if r[j] != x {
          assert r[j] in s[1..];
          var m :| 0 <= m < |s[1..]| && s[1..][m] == r[j];
          assert s[m + 1] == r[j];
        }
      }
    }
  }

  /** `sorted(values, key=lambda x: x.lower())`, as an insertion sort. */
  function SortByKey(s: seq<string>): (r: seq<string>)
  {
    if |s| == 0 then [] else Insert(s[0], SortByKey(s[1..]))
  }

  /** Sorting values with distinct keys yields them, rearranged, in strictly
      increasing key order. */
  lemma {:induction false} SortByKeySorted(s: seq<string>)
    requires DistinctKeys(s)
    ensures SortedByKey(SortByKey(s))
    ensures multiset(SortByKey(s)) == multiset(s)
  {
    if |s| > 0 {
      DistinctTail(s);
      SortByKeySorted(s[1..]);
      OtherKeys(s, SortByKey(s[1..]));
      SortStep(s[0], s[1..], SortByKey(s[1..]));
      assert [s[0]] + s[1..] == s;
    }
  }

  /** The head inserted into the sorted tail, which holds no item with the
      head's key. */
  lemma SortStep(x: string, tail: seq<string>, rest: seq<string>)
    requires SortedByKey(rest) && multiset(rest) == multiset(tail)
    requires forall y :: y in rest ==> Key(y) != Key(x)
    ensures SortedByKey(Insert(x, rest))
    ensures multiset(Insert(x, rest)) == multiset([x] + tail)
  {
    InsertSorted(x, rest);
  }

  lemma DistinctTail(s: seq<string>)
    requires |s| > 0 && DistinctKeys(s)
    ensures DistinctKeys(s[1..])
  {
    forall i, j | 0 <= i < j < |s| - 1 ensures Key(s[1..][i]) != Key(s[1..][j]) {
      assert s[1..][i] == s[i + 1] && s[1..][j] == s[j + 1];
    }
  }

  /** A rearrangement of the tail of a list with distinct keys holds no
      item with the head's key. */
  lemma OtherKeys(s: seq<string>, rest: seq<string>)
    requires |s| > 0 && DistinctKeys(s) && multiset(rest) == multiset(s[1..])
    ensures forall y :: y in rest ==> Key(y) != Key(s[0])
  {
    forall y | y in rest ensures Key(y) != Key(s[0]) {
      assert y in multiset(s[1..]);
      var m :| 0 <= m < |s[1..]| && s[1..][m] == y;
      assert s[m + 1] == y;
    }
  }

  /** A list strictly sorted by key has no two items with equal keys. */
  lemma SortedHasDistinctKeys(s: seq<string>)
    requires SortedByKey(s)
    ensures DistinctKeys(s)
  {
    forall i, j | 0 <= i < j < |s|
      ensures Key(s[i]) != Key(s[j])
    {
      if Key(s[i]) == Key(s[j]) {
        LexIrreflexive(Key(s[i]));
      }
    }
  }

  /** `load_and_process_genres` on an already parsed tag file: the result is
      sorted by lower-cased spelling, is a permutation of the de-duplicated
      items, and no two results are equal ignoring case. */
  function ProcessGenres(data: map<string, seq<string>>): (r: seq<string>)
    ensures SortedByKey(r)
    ensures DistinctKeys(r)
    ensures multiset(r) == multiset(Dedupe(CategoryItems(data, Categories), {}))
    ensures forall x :: x in r ==> x != "" && Strip(x) == x
  {
    var d := Dedupe(CategoryItems(data, Categories), {});
    var r := SortByKey(d);
    SortByKeySorted(d);
    SortedHasDistinctKeys(r);
    forall x | x in r ensures x in d {
      assert x in multiset(d);
    }
    r
  }

  /** Each genre is the first spelling of its key in the tag file. */
  lemma ProcessGenresFirstSpelling(data: map<string, seq<string>>, x: string)
    requires x in ProcessGenres(data)
    ensures exists p :: FirstSpellingAt(CategoryItems(data, Categories), x, p)
  {
    var items := CategoryItems(data, Categories);
    assert x in multiset(Dedupe(items, {}));
    DedupeFirstSpelling(items, {}, x);
  }

  /** Every non-empty tag of the file is represented, ignoring case. */
  lemma ProcessGenresComplete(data: map<string, seq<string>>, k: int)
    requires 0 <= k < |CategoryItems(data, Categories)| && CategoryItems(data, Categories)[k] != ""
    ensures exists x :: x in ProcessGenres(data) && Key(x) == Key(CategoryItems(data, Categories)[k])
  {
    var items := CategoryItems(data, Categories);
    DedupeComplete(items, {}, k);
    var x :| x in Dedupe(items, {}) && Key(x) == Key(items[k]);
    assert x in multiset(ProcessGenres(data));
  }
}

=== FILE: guidance.dfy ===
/** Classifier-free guidance in the Stage-1 pipeline: the decoding settings,
    the batch size they imply, which guidance scale a segment uses, and the
    attention mask and position offsets that let lane 1 see only the last
    prompt token and what has been sampled since. The mask value `-65504`
    is represented by `false` (may not attend). */
module Guidance {
  import opened Wrappers
  import opened PySeq

  /** `SampleSettings`: nucleus threshold, temperature, repetition penalty and
      the two guidance scales (`None` disables guidance). */
  datatype SampleSettings = SampleSettings(
    topP: real, temperature: real, repetitionPenalty: real,
    scaleSeg0: Option<real>, scale: Option<real>)

  /** `SampleSettings(use_guidance)`: the suggested decoding configuration;
      without guidance both scales are `None`. */
  function Settings(useGuidance: bool): (s: SampleSettings)
    ensures s.topP == 0.93 && s.temperature == 1.0 && s.repetitionPenalty == 1.1
    ensures s.scaleSeg0.Some? <==> useGuidance
    ensures s.scale.Some? <==> useGuidance
  {
    if useGuidance then SampleSettings(0.93, 1.0, 1.1, Some(1.5), Some(1.2))
    else SampleSettings(0.93, 1.0, 1.1, None, None)
  }

  /** `bsz`: two lanes exactly when the first-segment scale is set. */
  function BatchSize(s: SampleSettings): (b: nat)
    ensures b == 2 <==> s.scaleSeg0.Some?
    ensures b == 1 <==> s.scaleSeg0.None?
  {
    if s.scaleSeg0.Some? then 2 else 1
  }

  /** The scale used for segment `i`: the first-segment scale for segment 0
      only. */
  function Scale(s: SampleSettings, i: int): (r: Option<real>)
    ensures i == 0 ==> r == s.scaleSeg0
    ensures i != 0 ==> r == s.scale
    ensures r.None? <==> (if i == 0 then s.scaleSeg0.None? else s.scale.None?)
  {
    if i == 0 then s.scaleSeg0 else s.scale
  }

  /** With the suggested settings, segment 0 is guided at 1.5 and every later
      segment at 1.2; without guidance there is no scale and one lane. */
  lemma ScaleOfSettings(useGuidance: bool, i: int)
    ensures Scale(Settings(useGuidance), i)
         == if !useGuidance then None else if i == 0 then Some(1.5) else Some(1.2)
    ensures BatchSize(Settings(useGuidance)) == if useGuidance then 2 else 1
  {
  }

  /** One lane of `full_mask[:, :width]`, where `full_mask` has `maxSeqLen`
      columns and `full_mask[1, :maskLen]` is blocked: `true` where the lane
      may attend. */
  function MaskRow(lane: nat, maskLen: int, maxSeqLen: nat, width: int): (r: seq<bool>)
    ensures |r| == Bound(width, maxSeqLen)
    ensures lane == 0 ==> forall p :: 0 <= p < |r| ==> r[p]
    ensures lane != 0 ==> forall p :: 0 <= p < |r| ==> (r[p] <==> Bound(maskLen, maxSeqLen) <= p)
  {
    var blocked := Bound(maskLen, maxSeqLen);
    seq(Bound(width, maxSeqLen), p => lane == 0 || p >= blocked)
  }

  /** `position_offsets = [[0], [-maskLen]]`. */
  function Offset(lane: nat, maskLen: int): (o: int)
    ensures lane == 0 ==> o == 0
    ensures lane != 0 ==> maskLen + o == 0
  {
    if lane == 0 then 0 else -maskLen
  }

  /** After a context of `fullLen` tokens the mask length is `fullLen - 1`.
      While `k` tokens have been sampled since (the mask is re-sliced to the
      growing width), lane 0 attends to every position at its own position,
      and lane 1 attends exactly to the last context token and the samples,
      which it sees at positions `0, 1, ..., k`. */
  lemma LaneOneSeesOnlyTheTail(fullLen: nat, k: nat, maxSeqLen: nat)
    requires 1 <= fullLen && fullLen + k <= maxSeqLen
    ensures var width := fullLen + k;
      var maskLen := fullLen - 1;
      && |MaskRow(0, maskLen, maxSeqLen, width)| == width
      && |MaskRow(1, maskLen, maxSeqLen, width)| == width
      && (forall p :: 0 <= p < width ==> MaskRow(0, maskLen, maxSeqLen, width)[p])
      && Offset(0, maskLen) == 0
      && (forall p :: 0 <= p < width ==>
            (MaskRow(1, maskLen, maxSeqLen, width)[p] <==> fullLen - 1 <= p))
      && (fullLen - 1) + Offset(1, maskLen) == 0
      && (width - 1) + Offset(1, maskLen) == k
  {
    var width := fullLen + k;
    var maskLen := fullLen - 1;
    assert Bound(width, maxSeqLen) == width && Bound(maskLen, maxSeqLen) == maskLen;
  }
}

=== FILE: interface.dfy ===
/** The pure decisions of the Gradio front end (`interface.py`): which stage a
    model directory serves, which quantisation its name announces, how an
    uploaded file name is made shell-safe, and which selected file may be
    offered for download. Directory listings and file-system tests are
    parameters. */
module Interface {
  import opened Text

  /** One entry of `os.listdir(model_dir)`, with the result of `os.path.isdir`. */
  datatype DirEntry = DirEntry(name: string, isDir: bool)

  /** The three lists `get_models` returns. */
  datatype ModelLists = ModelLists(stage1: seq<string>, stage2: seq<string>, both: seq<string>)

  /** POSIX `os.path.join(dir, name)` for a single component. */
  function PathJoin(dir: string, name: string): (p: string)
    ensures |name| > 0 && name[0] == '/' ==> p == name
    ensures EndsWith(p, name)
  {
    if |name| > 0 && name[0] == '/' then name
    else if dir == "" || EndsWith(dir, "/") then dir + name
    else dir + "/" + name
  }

  predicate MentionsStage1(name: string)
  {
    Contains(Lower(name), "s1")
  }

  predicate MentionsStage2(name: string)
  {
    Contains(Lower(name), "s2")
  }

  /** The three roles a model directory can have. */
  datatype Stage = StageOne | StageTwo | BothStages

  /** Whether a directory named `name` is listed for `st`. */
  predicate Serves(st: Stage, name: string)
  {
    match st
    case StageOne => MentionsStage1(name)
    case StageTwo => MentionsStage2(name)
    case BothStages => !MentionsStage1(name) && !MentionsStage2(name)
  }

  function ListFor(r: ModelLists, st: Stage): seq<string>
  {
    match st
    case StageOne => r.stage1
    case StageTwo => r.stage2
    case BothStages => r.both
  }

  /** Every directory among the first `n` entries sits in each list it serves. */
  ghost predicate Placed(modelDir: string, entries: seq<DirEntry>, n: int, r: ModelLists)
    requires 0 <= n <= |entries|
  {
    forall k, st :: 0 <= k < n && entries[k].isDir && Serves(st, entries[k].name) ==>
      PathJoin(modelDir, entries[k].name) in ListFor(r, st)
  }

  /** One iteration of the classification loop: `path` is appended to every
      list its directory name serves. */
  function AddModel(r: ModelLists, name: string, path: string): (r': ModelLists)
    ensures forall st :: ListFor(r', st) == ListFor(r, st) + (if Serves(st, name) then [path] else [])
  {
    var s1 := if MentionsStage1(name) then r.stage1 + [path] else r.stage1;
    var s2 := if MentionsStage2(name) then r.stage2 + [path] else r.stage2;
    var both := if !MentionsStage1(name) && !MentionsStage2(name) then r.both + [path] else r.both;
    ModelLists(s1, s2, both)
  }

  /** The paths of the entries `keep` accepts, in listing order. */
  function Kept(modelDir: string, entries: seq<DirEntry>, keep: DirEntry -> bool): seq<string>
  {
    if |entries| == 0 then []
    else
      var e := entries[|entries| - 1];
      Kept(modelDir, entries[..|entries| - 1], keep) + (if keep(e) then [PathJoin(modelDir, e.name)] else [])
  }

  /** An accepted entry has its path in the list. */
  lemma {:induction false} KeptHas(modelDir: string, entries: seq<DirEntry>, keep: DirEntry -> bool, k: int)
    requires 0 <= k < |entries| && keep(entries[k])
    ensures PathJoin(modelDir, entries[k].name) in Kept(modelDir, entries, keep)
    decreases |entries|
  {
    var n := |entries| - 1;
    if k < n {
      assert entries[..n][k] == entries[k];
      KeptHas(modelDir, entries[..n], keep, k);
    }
  }

  /** Every path in the list comes from an accepted entry. */
  lemma {:induction false} KeptFrom(modelDir: string, entries: seq<DirEntry>, keep: DirEntry -> bool, p: string)
    returns (k: int)
    requires p in Kept(modelDir, entries, keep)
    ensures 0 <= k < |entries| && keep(entries[k]) && p == PathJoin(modelDir, entries[k].name)
    decreases |entries|
  {
    var n := |entries| - 1;
    if p in Kept(modelDir, entries[..n], keep) {
      k := KeptFrom(modelDir, entries[..n], keep, p);
    } else {
      k := n;
    }
  }

  /** Whether an entry is a directory listed for `st`. */
  function Keeps(st: Stage): DirEntry -> bool
  {
    (e: DirEntry) => e.isDir && Serves(st, e.name)
  }

  /** The list for `st` built from `entries` in listing order: the path of
      every directory entry that serves `st`, one per entry. */
  function Listed(modelDir: string, entries: seq<DirEntry>, st: Stage): seq<string>
  {
    Kept(modelDir, entries, Keeps(st))
  }

  /** A directory entry that serves `st` has its path in the list. */
  lemma ListedHas(modelDir: string, entries: seq<DirEntry>, st: Stage, k: int)
    requires 0 <= k < |entries| && entries[k].isDir && Serves(st, entries[k].name)
    ensures PathJoin(modelDir, entries[k].name) in Listed(modelDir, entries, st)
  {
    KeptHas(modelDir, entries, Keeps(st), k);
  }

  /** Every path in the list comes from a directory entry that serves `st`. */
  lemma ListedFrom(modelDir: string, entries: seq<DirEntry>, st: Stage, p: string)
    returns (k: int)
    requires p in Listed(modelDir, entries, st)
    ensures 0 <= k < |entries| && entries[k].isDir && Serves(st, entries[k].name)
    ensures p == PathJoin(modelDir, entries[k].name)
  {
    k := KeptFrom(modelDir, entries, Keeps(st), p);
  }

  /** `get_models(model_dir)`: a directory whose lower-cased name contains "s1"
      serves stage 1, one containing "s2" serves stage 2 (possibly both), and
      one with neither serves both stages. Plain files are ignored, each list
      keeps the listing order, and a missing model directory yields three
      empty lists. */
  method GetModels(modelDir: string, dirExists: bool, entries: seq<DirEntry>) returns (r: ModelLists)
    ensures !dirExists ==> r == ModelLists([], [], [])
    ensures dirExists ==> forall st :: ListFor(r, st) == Listed(modelDir, entries, st)
    ensures dirExists ==> Placed(modelDir, entries, |entries|, r)
    ensures forall st, p :: p in ListFor(r, st) ==>
      exists k :: 0 <= k < |entries| && entries[k].isDir && Serves(st, entries[k].name)
        && p == PathJoin(modelDir, entries[k].name)
  {
    r := ModelLists([], [], []);
    if !dirExists {
      return;
    }
    var i := 0;
    while i < |entries|
      invariant 0 <= i <= |entries|
      invariant forall st :: ListFor(r, st) == Listed(modelDir, entries[..i], st)
    {
      assert entries[..i + 1][..i] == entries[..i];
      if entries[i].isDir {
        var name := entries[i].name;
        r := AddModel(r, name, PathJoin(modelDir, name));
      }
      i := i + 1;
    }
    assert entries[..i] == entries;
    forall k, st | 0 <= k < |entries| && entries[k].isDir && Serves(st, entries[k].name)
      ensures PathJoin(modelDir, entries[k].name) in ListFor(r, st)
    {
      ListedHas(modelDir, entries, st, k);
    }
    forall st, p | p in ListFor(r, st)
      ensures exists k :: 0 <= k < |entries| && entries[k].isDir && Serves(st, entries[k].name)
                          && p == PathJoin(modelDir, entries[k].name)
    {
      var k := ListedFrom(modelDir, entries, st, p);
    }
  }

  /** `stage1_choices` / `stage2_choices`: the stage's own models, then the
      models that serve both stages. */
  function StageChoices(own: seq<string>, both: seq<string>): (r: seq<string>)
    ensures |r| == |own| + |both|
    ensures r[..|own|] == own && r[|own|..] == both
  {
    own + both
  }

  /** Every model directory is offered for at least one stage, and a model
      serving both stages is offered for each. */
  lemma ChoicesCoverModels(modelDir: string, entries: seq<DirEntry>, r: ModelLists, k: int)
    requires 0 <= k < |entries| && entries[k].isDir
    requires Placed(modelDir, entries, |entries|, r)
    ensures var p := PathJoin(modelDir, entries[k].name);
      p in StageChoices(r.stage1, r.both) || p in StageChoices(r.stage2, r.both)
    ensures var p := PathJoin(modelDir, entries[k].name);
      Serves(BothStages, entries[k].name) ==>
        p in StageChoices(r.stage1, r.both) && p in StageChoices(r.stage2, r.both)
  {
    var name := entries[k].name;
    var p := PathJoin(modelDir, name);
    if MentionsStage1(name) {
      assert Serves(StageOne, name);
      assert p in ListFor(r, StageOne);
    } else if MentionsStage2(name) {
      assert Serves(StageTwo, name);
      assert p in ListFor(r, StageTwo);
    } else {
      assert Serves(BothStages, name);
      assert p in ListFor(r, BothStages);
    }
  }

  /** `get_quantization_type(model_path)`: the lower-cased base name is tested
      for "-int4", then "-nf4", then "-int8"; anything else is "bf16". */
  function QuantizationType(modelPath: string): (q: string)
    ensures q == "int4" || q == "nf4" || q == "int8" || q == "bf16"
    ensures q == "int4" <==> Contains(Lower(Basename(modelPath)), "-int4")
    ensures q == "nf4" <==> !Contains(Lower(Basename(modelPath)), "-int4")
                            && Contains(Lower(Basename(modelPath)), "-nf4")
    ensures q == "int8" <==> !Contains(Lower(Basename(modelPath)), "-int4")
                             && !Contains(Lower(Basename(modelPath)), "-nf4")
                             && Contains(Lower(Basename(modelPath)), "-int8")
  {
    var base := Lower(Basename(modelPath));
    if Contains(base, "-int4") then "int4"
    else if Contains(base, "-nf4") then "nf4"
    else if Contains(base, "-int8") then "int8"
    else "bf16"
  }

  /** A character `re.sub(r"[^a-zA-Z0-9.]", "_", ...)` keeps. */
  predicate IsUploadSafe(c: char)
  {
    IsAsciiLetter(c) || IsAsciiDigit(c) || c == '.'
  }

  /** The upload-name rewrite applied to the base name of a prompt file. */
  function SafeUploadName(name: string): (r: string)
    ensures |r| == |name|
    ensures forall k :: 0 <= k < |r| ==> r[k] == if IsUploadSafe(name[k]) then name[k] else '_'
    ensures forall k :: 0 <= k < |r| ==> IsUploadSafe(r[k]) || r[k] == '_'
  {
    if |name| == 0 then ""
    else [if IsUploadSafe(name[0]) then name[0] else '_'] + SafeUploadName(name[1..])
  }

  /** Rewriting an already rewritten name changes nothing. */
  lemma SafeUploadNameIdempotent(name: string)
    ensures SafeUploadName(SafeUploadName(name)) == SafeUploadName(name)
  {
    var once := SafeUploadName(name);
    var twice := SafeUploadName(once);
    forall k | 0 <= k < |once|
      ensures twice[k] == once[k]
    {
      if !IsUploadSafe(once[k]) {
        assert once[k] == '_';
        assert twice[k] == '_';
      }
    }
  }

  /** What the download selector was handed: one path, a list of paths, or
      anything else (`None`, an empty list). */
  datatype FileSelection = Single(path: string) | Many(paths: seq<string>) | NoSelection

  /** Outcome of `get_selected_file`: a path to offer, a refusal, or the
      `TypeError` Python raises. */
  datatype Selected =
    | Offered(path: string)
    | IsFolder
    | NotFound
    | NotMp3
    | NothingSelected
    | RaisesTypeError

  predicate IsMp3Name(path: string)
  {
    EndsWith(Lower(path), ".mp3")
  }

  /** The checks applied to one candidate path, in the source's order. */
  function CheckCandidate(path: string, isDir: string -> bool, exists_: string -> bool): (s: Selected)
    ensures s.Offered? <==> !isDir(path) && exists_(path) && IsMp3Name(path)
    ensures s.Offered? ==> s.path == path
  {
    if isDir(path) then IsFolder
    else if !exists_(path) then NotFound
    else if !IsMp3Name(path) then NotMp3
    else Offered(path)
  }

  /** `get_selected_file` as written: on the list branch the success message
      formats `os.path.basename(file_paths)` with the whole list, which raises
      `TypeError`. */
  function GetSelectedFileAsWritten(sel: FileSelection, isDir: string -> bool, exists_: string -> bool)
    : (s: Selected)
    ensures s.Offered? ==> sel.Single? && s.path == sel.path && IsMp3Name(s.path)
    ensures sel.Many? && |sel.paths| > 0 && CheckCandidate(sel.paths[0], isDir, exists_).Offered?
      ==> s == RaisesTypeError
  {
    match sel
    case Single(p) => CheckCandidate(p, isDir, exists_)
    case Many(ps) =>
      if |ps| == 0 then NothingSelected
      else
        var c := CheckCandidate(ps[0], isDir, exists_);
        if c.Offered? then RaisesTypeError else c
    case NoSelection => NothingSelected
  }

  /** The list branch as evidently intended: the first selected file is offered. */
  function GetSelectedFile(sel: FileSelection, isDir: string -> bool, exists_: string -> bool)
    : (s: Selected)
    ensures s != RaisesTypeError
    ensures s.Offered? ==> IsMp3Name(s.path) && exists_(s.path) && !isDir(s.path)
    ensures s.Offered? <==>
      || (sel.Single? && CheckCandidate(sel.path, isDir, exists_).Offered?)
      || (sel.Many? && |sel.paths| > 0 && CheckCandidate(sel.paths[0], isDir, exists_).Offered?)
    ensures s.Offered? && sel.Many? ==> s.path == sel.paths[0]
  {
    match sel
    case Single(p) => CheckCandidate(p, isDir, exists_)
    case Many(ps) => if |ps| == 0 then NothingSelected else CheckCandidate(ps[0], isDir, exists_)
    case NoSelection => NothingSelected
  }

  /** The discrepancy: one existing, non-directory `.mp3` file chosen through
      the list branch raises instead of being offered. */
  lemma SelectedFileListBranchRaises()
    ensures GetSelectedFileAsWritten(Many(["song.mp3"]), _ => false, _ => true) == RaisesTypeError
    ensures GetSelectedFile(Many(["song.mp3"]), _ => false, _ => true) == Offered("song.mp3")
  {
    assert Lower("song.mp3") == "song.mp3";
  }
}

=== FILE: lanes.dfy ===
/** The token tensors of the continuation loop. With guidance on, every
    tensor has two rows (lanes): lane 0 is the conditional context and lane 1
    the unconditional one. Every tensor the loop builds is a stack of copies
    of one row (`[ids] * bsz`, `.repeat(bsz, 1)`, `torch.cat((sample,
    sample))`), so a tensor is represented by its row count and that row. */
module Lanes {

  datatype Batch = Batch(rows: nat, tokens: seq<int>)

  /** The rows the batch stands for. */
  function Rows(b: Batch): (r: seq<seq<int>>)
    ensures |r| == b.rows
    ensures forall k :: 0 <= k < |r| ==> r[k] == b.tokens
  {
    seq(b.rows, k => b.tokens)
  }

  /** `seq[:1, :]`: the first row, as a batch of at most one row. */
  function FirstRow(b: Batch): (r: Batch)
    ensures r.rows <= 1 && r.rows <= b.rows
    ensures b.rows > 0 ==> Rows(r) == [Rows(b)[0]]
  {
    Batch(if b.rows == 0 then 0 else 1, b.tokens)
  }
}

=== FILE: lyrics.dfy ===
/** `get_prompt_texts` of the Stage-1 pipeline: split the lyrics into `[tag]`
    segments with the pattern `\[(\w+)\](.*?)(?=\[|\Z)` (dot matches newline),
    format each segment, and put the generation header in front. */
module Lyrics {
  import opened Text
  import opened Wrappers

  /** One regular-expression match: the tag and the raw body. */
  datatype Segment = Segment(tag: string, body: string)

  /** Length of the run of word characters at the front of `s`. */
  function WordRun(s: string): (n: nat)
    ensures n <= |s|
    ensures forall k :: 0 <= k < n ==> IsWordChar(s[k])
    ensures n < |s| ==> !IsWordChar(s[n])
  {
    if |s| == 0 || !IsWordChar(s[0]) then 0 else 1 + WordRun(s[1..])
  }

  /** Length of the prefix of `s` before the first `[` (all of `s` if none). */
  function BodyLen(s: string): (n: nat)
    ensures n <= |s|
    ensures forall k :: 0 <= k < n ==> s[k] != '['
    ensures n < |s| ==> s[n] == '['
  {
    if |s| == 0 || s[0] == '[' then 0 else 1 + BodyLen(s[1..])
  }

  /** A well-formed tag: one or more word characters. */
  predicate IsTag(tag: string)
  {
    |tag| > 0 && forall k :: 0 <= k < |tag| ==> IsWordChar(tag[k])
  }

  /** The match attempted at the front of `s`, with the number of characters it
      consumes. `\w+` is greedy and `]` is not a word character, so the tag is
      the whole word run; the lazy body stops right before the next `[` or at
      the end of the text. */
  function MatchFront(s: string): (m: Option<(Segment, nat)>)
    ensures m.Some? ==> 0 < m.value.1 <= |s|
    ensures m.Some? ==> IsTag(m.value.0.tag) && '[' !in m.value.0.body
    ensures m.Some? ==> s[..m.value.1] == "[" + m.value.0.tag + "]" + m.value.0.body
    ensures m.Some? ==> m.value.1 == |s| || s[m.value.1] == '['
  {
    if |s| == 0 || s[0] != '[' then None
    else
      var n := WordRun(s[1..]);
      if n == 0 || 1 + n >= |s| || s[1 + n] != ']' then None
      else
        var rest := s[2 + n..];
        var b := BodyLen(rest);
        var tag := s[1..1 + n];
        var body := rest[..b];
        assert s[..2 + n + b] == "[" + tag + "]" + body;
        Some((Segment(tag, body), 2 + n + b))
  }

  /** `re.findall`: try a match at the front; on success continue after it,
      otherwise skip one character. */
  function FindSegments(s: string): (r: seq<Segment>)
    ensures forall k :: 0 <= k < |r| ==> IsTag(r[k].tag) && '[' !in r[k].body
    decreases |s|
  {
    if |s| == 0 then []
    else
      match MatchFront(s)
      case Some((seg, len)) => [seg] + FindSegments(s[len..])
      case None => FindSegments(s[1..])
  }

  /** The text a list of segments is written as. */
  function Render(segs: seq<Segment>): (s: string)
    ensures segs == [] ==> s == ""
    ensures segs != [] ==> |s| > 0 && s[0] == '['
  {
    if |segs| == 0 then "" else "[" + segs[0].tag + "]" + segs[0].body + Render(segs[1..])
  }

  /** Every segment the splitter can return renders back and is found again:
      splitting is a left inverse of writing the segments out. */
  lemma {:induction false} FindRender(segs: seq<Segment>)
    requires forall k :: 0 <= k < |segs| ==> IsTag(segs[k].tag) && '[' !in segs[k].body
    ensures FindSegments(Render(segs)) == segs
  {
    if |segs| > 0 {
      var seg := segs[0];
      var tail := Render(segs[1..]);
      var s := Render(segs);
      var len := 2 + |seg.tag| + |seg.body|;
      MatchRendered(seg, tail);
      assert s == "[" + seg.tag + "]" + seg.body + tail;
      assert s[len..] == tail;
      FindRender(segs[1..]);
    }
  }

  /** A written segment followed by more segments is matched exactly. */
  lemma MatchRendered(seg: Segment, tail: string)
    requires IsTag(seg.tag) && '[' !in seg.body
    requires tail == "" || tail[0] == '['
    ensures MatchFront("[" + seg.tag + "]" + seg.body + tail)
         == Some((seg, 2 + |seg.tag| + |seg.body|))
  {
    var s := "[" + seg.tag + "]" + seg.body + tail;
    var n := |seg.tag|;
    RenderedParts(seg, tail);
    var rest := s[2 + n..];
    assert rest[..|seg.body|] == seg.body;
    MatchFrontAt(s, n, |seg.body|);
  }

  /** The match at the front of `s` when a tag of `n` word characters is
      closed by `]` and followed by `b` characters before the next `[`. */
  lemma MatchFrontAt(s: string, n: nat, b: nat)
    requires |s| > 1 + n && s[0] == '[' && s[1 + n] == ']'
    requires n > 0 && WordRun(s[1..]) == n && BodyLen(s[2 + n..]) == b
    ensures MatchFront(s) == Some((Segment(s[1..1 + n], s[2 + n..][..b]), 2 + n + b))
  {
  }

  /** Where the parts of a written segment sit, and what the word run and
      the body length find in it. */
  lemma RenderedParts(seg: Segment, tail: string)
    requires IsTag(seg.tag) && '[' !in seg.body
    requires tail == "" || tail[0] == '['
    ensures var s := "[" + seg.tag + "]" + seg.body + tail;
      var n := |seg.tag|;
      && |s| > 1 + n && s[0] == '[' && s[1 + n] == ']'
      && s[1..1 + n] == seg.tag
      && WordRun(s[1..]) == n
      && s[2 + n..] == seg.body + tail
      && BodyLen(s[2 + n..]) == |seg.body|
  {
    var s := "[" + seg.tag + "]" + seg.body + tail;
    var n := |seg.tag|;
    assert s[1..] == seg.tag + ("]" + seg.body + tail);
    WordRunOfTag(seg.tag, "]" + seg.body + tail);
    assert s[2 + n..] == seg.body + tail;
    BodyLenOfBody(seg.body, tail);
  }

  lemma WordRunOfTag(tag: string, rest: string)
    requires forall k :: 0 <= k < |tag| ==> IsWordChar(tag[k])
    requires |rest| > 0 && rest[0] == ']'
    ensures WordRun(tag + rest) == |tag|
  {
    var s := tag + rest;
    assert s[|tag|] == ']';
    assert forall k :: 0 <= k < |tag| ==> s[k] == tag[k];
  }

  lemma BodyLenOfBody(body: string, tail: string)
    requires '[' !in body
    requires tail == "" || tail[0] == '['
    ensures BodyLen(body + tail) == |body|
  {
    var s := body + tail;
    assert |s| > |body| ==> s[|body|] == '[';
    assert forall k :: 0 <= k < |body| ==> s[k] == body[k];
  }

  /** The text of one segment: `"[tag]\n" + body.strip() + "\n\n"`. */
  function SegmentText(seg: Segment): (t: string)
    ensures |t| == |seg.tag| + |Strip(seg.body)| + 5
    ensures t[..|seg.tag| + 3] == "[" + seg.tag + "]\n"
    ensures t[|seg.tag| + 3..|t| - 2] == Strip(seg.body)
    ensures t[|t| - 2..] == "\n\n"
    ensures IsTag(seg.tag) && '[' !in seg.body ==> t[0] == '[' && '[' !in t[1..]
  {
    var t := "[" + seg.tag + "]\n" + Strip(seg.body) + "\n\n";
    assert '[' in Strip(seg.body) ==> '[' in seg.body by {
      if '[' in Strip(seg.body) {
        StripChars(seg.body, '[');
      }
    }
    assert t[1..] == seg.tag + "]\n" + Strip(seg.body) + "\n\n";
    assert t[|seg.tag| + 3..|t| - 2] == Strip(seg.body);
    t
  }

  /** `split_lyrics`. */
  function SplitLyrics(lyrics: string): (r: seq<string>)
    ensures |r| == |FindSegments(lyrics)|
    ensures forall k :: 0 <= k < |r| ==> r[k] == SegmentText(FindSegments(lyrics)[k])
  {
    var segs := FindSegments(lyrics);
    seq(|segs|, k requires 0 <= k < |segs| => SegmentText(segs[k]))
  }

  /** The fixed instruction line of the header. */
  const Instruction: string := "Generate music from the given lyrics segment by segment.\n[Genre] "

  /** The start of the header: the instruction line, then the genre tags
      on their own line. */
  function HeaderStart(genres: string): string
  {
    Instruction + genres + "\n"
  }

  /** The header prompt text: the instruction, the genre tags, then every
      segment text joined with a newline. */
  function Header(genres: string, lyrics: seq<string>): (h: string)
    ensures |HeaderStart(genres)| <= |h| && h[..|HeaderStart(genres)|] == HeaderStart(genres)
    ensures lyrics == [] ==> h == HeaderStart(genres)
    ensures forall k :: 0 <= k < |lyrics| ==> Contains(h, lyrics[k])
  {
    var pre := HeaderStart(genres);
    var full := Join(lyrics, "\n");
    forall k | 0 <= k < |lyrics| ensures Contains(pre + full, lyrics[k]) {
      JoinContainsPart(lyrics, "\n", k);
      ContainsInSuffix(pre, full, lyrics[k]);
    }
    assert (pre + full)[..|pre|] == pre;
    pre + full
  }

  /** `get_prompt_texts(genres, lyrics)`: the segment texts, and the prompt
      texts made of the header followed by those same segment texts. */
  function PromptTexts(genres: string, lyrics: string): (r: (seq<string>, seq<string>))
    ensures r.0 == SplitLyrics(lyrics)
    ensures |r.1| == |r.0| + 1
    ensures r.1[0] == Header(genres, r.0)
    ensures forall k :: 0 <= k < |r.0| ==> r.1[k + 1] == r.0[k]
  {
    var segs := SplitLyrics(lyrics);
    var h := Header(genres, segs);
    var texts := [h] + segs;
    assert forall k :: 0 <= k < |segs| ==> texts[k + 1] == segs[k];
    (segs, texts)
  }

  /** The header prompt text is the instruction and genre line followed by
      every prompt text after it, joined with newlines, so it repeats each
      of them. */
  lemma HeaderHoldsSegments(genres: string, lyrics: string)
    ensures var r := PromptTexts(genres, lyrics);
      r.1[0] == HeaderStart(genres) + Join(r.1[1..], "\n")
    ensures var r := PromptTexts(genres, lyrics);
      forall k :: 0 < k < |r.1| ==> Contains(r.1[0], r.1[k])
  {
    var r := PromptTexts(genres, lyrics);
    assert r.1[0] == Header(genres, r.0);
    assert r.1[1..] == r.0;
  }

  /** Lyrics written as segments split into exactly those segments' texts. */
  lemma SplitRendered(segs: seq<Segment>)
    requires forall k :: 0 <= k < |segs| ==> IsTag(segs[k].tag) && '[' !in segs[k].body
    ensures |SplitLyrics(Render(segs))| == |segs|
    ensures forall k :: 0 <= k < |segs| ==> SplitLyrics(Render(segs))[k] == SegmentText(segs[k])
  {
    FindRender(segs);
  }

  /** Text before the first `[` matches nothing and is dropped. */
  lemma FindSkipsLeadingText(pre: string, s: string)
    requires '[' !in pre
    ensures FindSegments(pre + s) == FindSegments(s)
    decreases |pre|
  {
    if |pre| > 0 {
      assert (pre + s)[0] == pre[0];
      assert (pre + s)[1..] == pre[1..] + s;
      FindSkipsLeadingText(pre[1..], s);
    } else {
      assert pre + s == s;
    }
  }
}

=== FILE: pipeline.dfy ===
/** `Stage1Pipeline_EXL2.generate`: the segment state machine. It picks the
    start segment from the resume and continuation flags, clamps the number
    of segments, and for each segment places the prompt in the sequence and
    the cache (keeping the trailing window), samples until an end of audio,
    and writes a checkpoint. The sequence tensor is a stack of identical
    lanes (see `Lanes`); the cache is represented by the token content of its
    rows. */
module Pipeline {
  import opened Wrappers
  import opened PySeq
  import opened Lyrics
  import opened Prompts
  import opened Window
  import opened Sampling
  import opened Lanes
  import opened Guidance
  import Tracks

  /** The arguments of `generate` that shape the token sequence. An absent
      path (`None`) is the empty string. */
  datatype Request = Request(
    useDual: bool, vocalPath: string, instPath: string,
    useAudio: bool, audioPath: string,
    genres: string, lyrics: string,
    runN: int, maxNew: int, promptStart: real, promptEnd: real,
    resume: int, extend: bool, extendStart: real, extendEnd: real, extendCurrent: bool,
    settings: SampleSettings)

  /** What the pipeline does not compute itself: the tokenizer and special
      ids, the codec (an audio file to its codec ids), the sampler seeded
      with the run's seed, and the cache size. */
  datatype Env = Env(vocab: Vocab, codes: string -> seq<int>, pick: GuidedSampler, cacheSize: int)

  /** The sampler of the guided model: the context, the guidance scale and
      the draw index to an index of the allowed list. */
  type GuidedSampler = (seq<int>, Option<real>, nat) -> nat

  /** The sampler of one segment: the guided sampler at that segment's
      scale. */
  function Guided(pick: GuidedSampler, scale: Option<real>): Sampler
  {
    (c, d) => pick(c, scale, d)
  }

  /** `segments/segment_<n>.pt`: the segment index, the sequence tensor and
      the split lyrics. */
  datatype Checkpoint = Checkpoint(segment: int, tokens: Batch, lyrics: seq<string>)

  datatype GenError =
    | UndefinedPrefix                    // `seq_prefix` never assigned: continuation without both paths
    | MissingCheckpoint(n: int)          // the `FileNotFoundError` of a resume
    | LaneMismatch(rows: nat, bsz: nat)  // `torch.cat` of a checkpoint with another batch size
    | CacheOverflow                      // a forward past the cache's `max_seq_len`

  /** One generated segment: its index, lane 0 right after its prompt was
      placed, the cache content the sampler started from, the index of its
      first random draw, and the tokens it appended. */
  datatype SegmentRun = SegmentRun(index: int, context: seq<int>, cache: seq<int>, draw: nat, output: seq<int>)

  /** The reference audio codec of the first prompt, if any. */
  function RefCodec(req: Request, env: Env): Option<seq<int>>
  {
    ReferenceCodec(req.useDual, req.useAudio, env.codes(req.vocalPath), env.codes(req.instPath),
                   env.codes(req.audioPath), req.promptStart, req.promptEnd)
  }

  /** `get_first_segment_prompt(prompt_texts[1], prompt_texts[0], ...)`. */
  function FirstPrompt(req: Request, env: Env, texts: seq<string>): seq<int>
    requires |texts| >= 2
  {
    FirstSegmentPrompt(env.vocab, texts[1], texts[0], RefCodec(req, env))
  }

  /** The prompt of segment `i`, chosen at the top of the segment loop: the first prompt only for
      segment 0 of a run that does not resume. */
  function PromptFor(req: Request, env: Env, texts: seq<string>, i: int): (p: seq<int>)
    requires 0 <= i && i + 1 < |texts|
    ensures i != 0 || req.resume != -1 ==> p == SegmentPrompt(env.vocab, texts[i + 1])
  {
    if i == 0 && req.resume == -1 then FirstPrompt(req, env, texts)
    else SegmentPrompt(env.vocab, texts[i + 1])
  }

  /** The existing-song prefix `seq_prefix`: `None` when a continuation
      lacks a path and `seq_prefix` is never assigned. */
  function SeqPrefix(req: Request, env: Env, mc: int): (r: Option<seq<int>>)
    ensures r.None? <==> req.extend && (req.vocalPath == "" || req.instPath == "")
    ensures !req.extend ==> r == Some([])
  {
    if req.extend then
      if req.vocalPath != "" && req.instPath != "" then
        Some(Windowed(Tracks.ExtendTokens(env.codes(req.vocalPath), env.codes(req.instPath),
                                          req.extendStart, req.extendEnd), mc))
      else None
    else Some([])
  }

  /** The sequence `seq` before any resume is applied; a continuation prefix
      is windowed a second time. */
  function InitialSeq(req: Request, prefix: seq<int>, mc: int): (r: seq<int>)
    ensures IsSuffix(r, prefix)
    ensures !req.extend ==> r == prefix
    ensures req.extend && 0 < mc < |prefix| ==> |r| == mc
  {
    if req.resume == -1 && !req.extend then prefix
    else if req.extend then Windowed(prefix, mc)
    else prefix
  }

  /** A continuation prefix is already windowed, so the second windowing
      changes it only when the window is negative, where each windowing
      drops more of the front. */
  lemma InitialSeqWindowsOnce(req: Request, env: Env, mc: int)
    requires SeqPrefix(req, env, mc).Some?
    ensures mc >= 0 ==> InitialSeq(req, SeqPrefix(req, env, mc).value, mc) == SeqPrefix(req, env, mc).value
  {
    if req.extend && mc >= 0 {
      var t := Tracks.ExtendTokens(env.codes(req.vocalPath), env.codes(req.instPath),
                                   req.extendStart, req.extendEnd);
      WindowedIdempotent(t, mc);
    }
  }

  /** The first segment to generate, from the resume and continuation
      branches of `generate`. */
  function StartSegment(resume: int, extend: bool, extendCurrent: bool): (s: int)
    ensures resume >= 0 ==> s == resume + 1
    ensures resume < 0 && extend ==> s == (if extendCurrent then 0 else 1)
    ensures resume < 0 && !extend ==> s == 0
    ensures s >= 0
  {
    if resume >= 0 then resume + 1
    else if extend && extendCurrent then 0
    else if extend && !extendCurrent then 1
    else 0
  }

  /** `min(min(run_n_segments, len(lyrics)), len(lyrics) - start)`. */
  function Remaining(runN: int, count: nat, start: int): (r: int)
    ensures r <= runN && r <= count && start + r <= count
    ensures r == runN || r == count || r == count - start
  {
    var n := if runN < count then runN else count;
    if n < count - start then n else count - start
  }

  /** A continuation that does not resume primes the cache in its first
      segment. */
  predicate Primes(req: Request)
  {
    req.extend && req.resume == -1
  }

  /** The lane-0 sequence of a priming segment (the `extend_mp3` branch of
      the first segment): the first
      prompt, the existing song, and for a new segment an end of audio and
      the segment's own prompt. */
  function Primed(req: Request, env: Env, texts: seq<string>, i: int, s: seq<int>): (r: seq<int>)
    requires 0 <= i && i + 1 < |texts| && |texts| >= 2
    ensures var n := |FirstPrompt(req, env, texts)| + |s|;
      |r| >= n && r[..n] == FirstPrompt(req, env, texts) + s
    ensures req.extendCurrent ==> |r| == |FirstPrompt(req, env, texts)| + |s|
    ensures !req.extendCurrent ==>
      var n := |FirstPrompt(req, env, texts)| + |s|;
      |r| > n && r[n] == env.vocab.eoa && r[n + 1..] == SegmentPrompt(env.vocab, texts[i + 1])
  {
    var init := FirstPrompt(req, env, texts);
    if req.extendCurrent then init + s
    else init + s + [env.vocab.eoa] + SegmentPrompt(env.vocab, texts[i + 1])
  }

  /** Lane 0 and the cache after a segment's prompt has been placed. */
  datatype Placed = Placed(tokens: seq<int>, cache: seq<int>)

  /** The cache matches the sequence: it is a trailing part of it, and the
      whole of it while the sequence fits the window. */
  predicate Synced(cache: seq<int>, s: seq<int>, mc: int)
  {
    IsSuffix(cache, s) && (|s| <= mc ==> cache == s)
  }

  /** A segment that does not prime: the `else` branch appends the prompt to
      `seq`; then, past the window, the cache is reset and the window
      forwarded, otherwise only the prompt is forwarded. */
  function PlaceSegment(s: seq<int>, cache: seq<int>, prompt: seq<int>, mc: int, capacity: int): (r: Option<Placed>)
    ensures r.Some? ==> r.value.tokens == s + prompt
    ensures r.Some? && IsSuffix(cache, s) ==> IsSuffix(r.value.cache, r.value.tokens)
    ensures r.Some? && Synced(cache, s, mc) ==> r.value.cache == Windowed(s + prompt, mc)
    ensures IsSuffix(cache, s) && 1 <= mc <= capacity ==> r.Some? && |r.value.cache| <= mc
  {
    var full := s + prompt;
    if |full| > mc then
      match Forward([], Windowed(full, mc), capacity)
      case None => None
      case Some(c) => Some(Placed(full, c))
    else
      match Forward(cache, prompt, capacity)
      case None => None
      case Some(c) =>
        assert IsSuffix(cache, s) ==> IsSuffix(c, full) by {
          if IsSuffix(cache, s) {
            SuffixAppend(cache, s, prompt);
          }
        }
        Some(Placed(full, c))
  }

  /** The priming segment with the cache filled once from the trailing
      window of the primed sequence: the corrected cache priming. */
  function PrimeSegment(primed: seq<int>, mc: int, capacity: int): (r: Option<Placed>)
    ensures r.Some? <==> |Windowed(primed, mc)| <= capacity
    ensures r.Some? ==> r.value.tokens == primed && r.value.cache == Windowed(primed, mc)
    ensures 1 <= mc <= capacity ==> r.Some? && |r.value.cache| <= mc
  {
    assert 1 <= mc ==> |Windowed(primed, mc)| <= mc by {
      if 1 <= mc {
        WindowedFits(primed, mc);
      }
    }
    match Forward([], Windowed(primed, mc), capacity)
    case None => None
    case Some(c) => Some(Placed(primed, c))
  }

  /** The priming segment as the cache-priming branch writes it: the whole primed
      sequence is forwarded into the cache, and then, when it fits the
      window, the segment prompt is forwarded a second time. */
  function PrimeSegmentAsWritten(cache: seq<int>, primed: seq<int>, prompt: seq<int>, mc: int, capacity: int)
    : (r: Option<Placed>)
    ensures |cache| + |primed| > capacity ==> r.None?
    ensures r.Some? ==> r.value.tokens == primed
  {
    match Forward(cache, primed, capacity)
    case None => None
    case Some(c0) =>
      if |primed| > mc then
        match Forward([], Windowed(primed, mc), capacity)
        case None => None
        case Some(c) => Some(Placed(primed, c))
      else
        match Forward(c0, prompt, capacity)
        case None => None
        case Some(c) => Some(Placed(primed, c))
  }

  /** When the primed sequence fits the window, the code as written leaves
      the segment prompt in the cache although the sequence does not hold
      it, so the sampler conditions on tokens the output never shows; the
      corrected priming leaves the cache equal to the sequence. */
  lemma PrimingForwardsPromptTwice(primed: seq<int>, prompt: seq<int>, mc: int, capacity: int)
    requires |primed| <= mc && |primed| + |prompt| <= capacity && |prompt| > 0
    ensures PrimeSegmentAsWritten([], primed, prompt, mc, capacity) == Some(Placed(primed, primed + prompt))
    ensures PrimeSegmentAsWritten([], primed, prompt, mc, capacity).value.cache != Windowed(primed, mc)
    ensures PrimeSegment(primed, mc, capacity) == Some(Placed(primed, primed))
  {
    assert [] + primed == primed;
    assert |primed + prompt| > |primed|;
  }

  /** The code as written also forwards the whole primed sequence before
      windowing it, so a long existing song overflows the cache where the
      corrected priming does not. */
  lemma PrimingOverflowsAsWritten(primed: seq<int>, prompt: seq<int>, mc: int, capacity: int)
    requires 1 <= mc <= capacity && |primed| > capacity
    ensures PrimeSegmentAsWritten([], primed, prompt, mc, capacity).None?
    ensures PrimeSegment(primed, mc, capacity).Some?
  {
  }

  /** Sampling after a placed prompt keeps the cache in step with the
      sequence. */
  lemma SyncedAfterSampling(s: seq<int>, out: seq<int>, mc: int)
    ensures Synced(Windowed(s, mc) + out, s + out, mc)
  {
    SuffixAppend(Windowed(s, mc), s, out);
  }

  /** A cache no longer than the window, plus one segment, fits the cache. */
  lemma SegmentFits(cache: seq<int>, out: seq<int>, maxNew: int, cacheSize: int)
    requires maxNew >= 0 && |cache| <= MaxContext(cacheSize, maxNew)
    requires |out| <= maxNew + 1
    ensures |cache| + |out| <= cacheSize
  {
  }

  /** `get_prompt_texts(genres, lyrics)`. */
  function Texts(req: Request): (r: (seq<string>, seq<string>))
    ensures |r.1| == |r.0| + 1
  {
    PromptTexts(req.genres, req.lyrics)
  }

  function Start(req: Request): int
  {
    StartSegment(req.resume, req.extend, req.extendCurrent)
  }

  /** The number of segments the run generates (`remaining_segments`). */
  function ToRun(req: Request): int
  {
    Remaining(req.runN, |Texts(req).0|, Start(req))
  }

  function Mc(req: Request, env: Env): int
  {
    MaxContext(env.cacheSize, req.maxNew)
  }

  /** The parameters under which the cache can never overflow: a budget of
      at least zero and room for at least one token of context. */
  predicate Roomy(maxNew: int, cacheSize: int)
  {
    maxNew >= 0 && cacheSize >= maxNew + 2
  }

  /** How a segment's prompt enters lane 0: a priming segment replaces the
      sequence by the primed one, any other segment appends its prompt. */
  datatype Placement = Prime(primed: seq<int>) | Append(prompt: seq<int>)

  /** Lane 0 once the prompt of `how` is placed after `s`. */
  function After(s: seq<int>, how: Placement): seq<int>
  {
    match how
    case Prime(p) => p
    case Append(q) => s + q
  }

  /** Place a segment's prompt in lane 0 and in the cache. A priming segment
      and a segment whose cache was in step with lane 0 both leave the cache
      holding the trailing window of the new lane 0. */
  function Place(s: seq<int>, cache: seq<int>, how: Placement, mc: int, capacity: int): (r: Option<Placed>)
    ensures r.Some? ==> r.value.tokens == After(s, how)
    ensures r.Some? && IsSuffix(cache, s) ==> IsSuffix(r.value.cache, r.value.tokens)
    ensures r.Some? && (how.Prime? || Synced(cache, s, mc)) ==> r.value.cache == Windowed(r.value.tokens, mc)
    ensures IsSuffix(cache, s) && 1 <= mc <= capacity ==> r.Some? && |r.value.cache| <= mc
  {
    match how
    case Prime(p) => PrimeSegment(p, mc, capacity)
    case Append(q) => PlaceSegment(s, cache, q, mc, capacity)
  }

  /** The outcome of one segment: its record, and the cache and draw index
      after it. */
  datatype Step = Step(run: SegmentRun, cache: seq<int>, draw: nat)

  /** One pass of the segment loop: place segment `i`'s
      prompt, then sample. The only error is a cache overflow, which a roomy
      cache never has. */
  method RunSegment(pick: GuidedSampler, settings: SampleSettings, maxNew: int, eoa: int, capacity: int, i: int,
                    s: seq<int>, cache: seq<int>, draw: nat, how: Placement)
    returns (r: Result<Step, GenError>)
    requires IsSuffix(cache, s)
    ensures r.Err? ==> r.error == CacheOverflow && !Roomy(maxNew, capacity)
    ensures r.Ok? ==>
      && r.value.run.index == i
      && r.value.run.draw == draw
      && r.value.run.context == After(s, how)
      && r.value.run.output == SegmentOutput(Guided(pick, Scale(settings, i)), r.value.run.cache, draw, maxNew, eoa)
      && r.value.cache == r.value.run.cache + r.value.run.output
      && r.value.draw == draw + Draws(r.value.run.output, maxNew)
      && IsSuffix(r.value.cache, r.value.run.context + r.value.run.output)
    ensures r.Ok? && (how.Prime? || Synced(cache, s, MaxContext(capacity, maxNew))) ==>
      && r.value.run.cache == Windowed(r.value.run.context, MaxContext(capacity, maxNew))
      && Synced(r.value.cache, r.value.run.context + r.value.run.output, MaxContext(capacity, maxNew))
  {
    var mc := MaxContext(capacity, maxNew);
    var placed := Place(s, cache, how, mc, capacity);
    if placed.None? {
      return Err(CacheOverflow);
    }
    var p := placed.value;
    var sp := Guided(pick, Scale(settings, i));
    var out := SegmentOutput(sp, p.cache, draw, maxNew, eoa);
    var sampled := SampleSegment(sp, p.cache, draw, maxNew, eoa, capacity);
    if sampled.None? {
      assert !Roomy(maxNew, capacity) by {
        if Roomy(maxNew, capacity) {
          SegmentFits(p.cache, out, maxNew, capacity);
        }
      }
      return Err(CacheOverflow);
    }
    SuffixAppend(p.cache, p.tokens, out);
    if how.Prime? || Synced(cache, s, mc) {
      SyncedAfterSampling(p.tokens, out, mc);
    }
    return Ok(Step(SegmentRun(i, p.tokens, p.cache, draw, out), sampled.value.cache, sampled.value.draw));
  }

  /** Lane 0 after the segments of `runs`, starting from `s0`. */
  function Lane(s0: seq<int>, runs: seq<SegmentRun>): seq<int>
  {
    if runs == [] then s0 else runs[|runs| - 1].context + runs[|runs| - 1].output
  }

  /** The first random draw after the segments of `runs`. */
  function NextDraw(runs: seq<SegmentRun>, maxNew: int): nat
  {
    if runs == [] then 0 else runs[|runs| - 1].draw + Draws(runs[|runs| - 1].output, maxNew)
  }

  /** `runs` is what the segment loop records when it starts from lane 0
      `s0` at segment `start` and places the prompts as `hows` says: the
      segments are numbered on from `start`, each starts drawing where the
      one before stopped, each context is lane 0 after the segments before
      with the next prompt placed, and each output is what the sampler
      yields from that segment's cache. */
  predicate Traced(pick: GuidedSampler, settings: SampleSettings, maxNew: int, eoa: int, start: int, s0: seq<int>,
                   hows: seq<Placement>, runs: seq<SegmentRun>)
    decreases |runs|
  {
    if runs == [] then true
    else
      var k := |runs| - 1;
      var before := runs[..k];
      && k < |hows|
      && Traced(pick, settings, maxNew, eoa, start, s0, hows, before)
      && runs[k].index == start + k
      && runs[k].draw == NextDraw(before, maxNew)
      && runs[k].context == After(Lane(s0, before), hows[k])
      && runs[k].output == SegmentOutput(Guided(pick, Scale(settings, start + k)), runs[k].cache, runs[k].draw, maxNew, eoa)
  }

  /** The trace segment by segment: segment `j` of a trace is numbered
      `start + j`, samples what the sampler yields from its cache, starts
      from draw 0 and the first placement after `s0` when it is the first,
      and otherwise continues the previous segment's draws and lane 0. */
  lemma {:induction false} TracedAt(pick: GuidedSampler, settings: SampleSettings, maxNew: int, eoa: int, start: int, s0: seq<int>,
                                    hows: seq<Placement>, runs: seq<SegmentRun>, j: nat)
    requires Traced(pick, settings, maxNew, eoa, start, s0, hows, runs) && j < |runs|
    ensures |runs| <= |hows|
    ensures runs[j].index == start + j
    ensures runs[j].output == SegmentOutput(Guided(pick, if runs[j].index == 0 then settings.scaleSeg0 else settings.scale),
                                            runs[j].cache, runs[j].draw, maxNew, eoa)
    ensures j == 0 ==> runs[0].draw == 0 && runs[0].context == After(s0, hows[0])
    ensures j > 0 ==>
      && runs[j].draw == runs[j - 1].draw + Draws(runs[j - 1].output, maxNew)
      && runs[j].context == After(runs[j - 1].context + runs[j - 1].output, hows[j])
    decreases |runs|
  {
    var k := |runs| - 1;
    var before := runs[..k];
    if j < k {
      TracedAt(pick, settings, maxNew, eoa, start, s0, hows, before, j);
      if j > 0 {
        assert before[j - 1] == runs[j - 1];
      }
    }
  }

  /** Every segment sampled from the trailing window of its context. */
  predicate InWindow(runs: seq<SegmentRun>, mc: int)
  {
    forall j :: 0 <= j < |runs| ==> runs[j].cache == Windowed(runs[j].context, mc)
  }

  lemma InWindowStep(runs: seq<SegmentRun>, run: SegmentRun, mc: int)
    requires InWindow(runs, mc) && run.cache == Windowed(run.context, mc)
    ensures InWindow(runs + [run], mc)
  {
  }

  /** A segment that continues the trace extends it. */
  lemma TracedStep(pick: GuidedSampler, settings: SampleSettings, maxNew: int, eoa: int, start: int, s0: seq<int>,
                   hows: seq<Placement>, runs: seq<SegmentRun>, run: SegmentRun)
    requires Traced(pick, settings, maxNew, eoa, start, s0, hows, runs) && |runs| < |hows|
    requires run.index == start + |runs| && run.draw == NextDraw(runs, maxNew)
    requires run.context == After(Lane(s0, runs), hows[|runs|])
    requires run.output == SegmentOutput(Guided(pick, Scale(settings, start + |runs|)), run.cache, run.draw, maxNew, eoa)
    ensures Traced(pick, settings, maxNew, eoa, start, s0, hows, runs + [run])
    ensures Lane(s0, runs + [run]) == run.context + run.output
    ensures NextDraw(runs + [run], maxNew) == run.draw + Draws(run.output, maxNew)
  {
    assert (runs + [run])[..|runs|] == runs;
  }

  /** The checkpoints after the segments of `runs`, numbered from `start`,
      were saved one after the other into `store`. */
  function Stored(store: map<int, Checkpoint>, start: int, bsz: nat, lyr: seq<string>,
                  runs: seq<SegmentRun>): map<int, Checkpoint>
    decreases |runs|
  {
    if runs == [] then store
    else
      var k := |runs| - 1;
      Stored(store, start, bsz, lyr, runs[..k])[start + k := Checkpoint(start + k, Batch(bsz, runs[k].context + runs[k].output), lyr)]
  }

  lemma StoredSnoc(store: map<int, Checkpoint>, start: int, bsz: nat, lyr: seq<string>,
                   runs: seq<SegmentRun>, run: SegmentRun)
    ensures Stored(store, start, bsz, lyr, runs + [run])
         == Stored(store, start, bsz, lyr, runs)[start + |runs| :=
              Checkpoint(start + |runs|, Batch(bsz, run.context + run.output), lyr)]
  {
    assert (runs + [run])[..|runs|] == runs;
  }

  /** The checkpoint store after the segments of `runs`: each generated
      segment adds or overwrites its own entry, and every other entry is
      kept. */
  ghost predicate Saved(store: map<int, Checkpoint>, saved: map<int, Checkpoint>, start: int, bsz: nat,
                        lyr: seq<string>, runs: seq<SegmentRun>)
  {
    && (forall n :: n in saved <==> n in store || start <= n < start + |runs|)
    && (forall j :: 0 <= j < |runs| ==>
          && start + j in saved
          && saved[start + j] == Checkpoint(start + j, Batch(bsz, runs[j].context + runs[j].output), lyr))
    && (forall n :: n in store && !(start <= n < start + |runs|) ==> n in saved && saved[n] == store[n])
  }

  /** Saving the segments one by one leaves exactly the store `Saved`
      describes. */
  lemma {:induction false} StoredSaved(store: map<int, Checkpoint>, start: int, bsz: nat, lyr: seq<string>,
                                       runs: seq<SegmentRun>)
    ensures Saved(store, Stored(store, start, bsz, lyr, runs), start, bsz, lyr, runs)
    decreases |runs|
  {
    if runs != [] {
      var k := |runs| - 1;
      StoredSaved(store, start, bsz, lyr, runs[..k]);
    }
  }

  /** The segment loop of `generate` from segment `start` on, one segment
      per entry of `hows`, starting from lane 0 `s0` and cache `cache0`. It
      returns lane 0 at the end, the record of each segment and the
      checkpoint store. */
  method Segments(pick: GuidedSampler, settings: SampleSettings, maxNew: int, eoa: int, capacity: int, start: int, hows: seq<Placement>,
                  s0: seq<int>, cache0: seq<int>, bsz: nat, lyr: seq<string>, store: map<int, Checkpoint>)
    returns (r: Result<seq<int>, GenError>, runs: seq<SegmentRun>, saved: map<int, Checkpoint>)
    requires IsSuffix(cache0, s0)
    ensures r.Err? ==> r.error == CacheOverflow && !Roomy(maxNew, capacity)
    ensures Traced(pick, settings, maxNew, eoa, start, s0, hows, runs)
    ensures r.Ok? ==> |runs| == |hows| && r.value == Lane(s0, runs)
    ensures (|hows| > 0 && hows[0].Prime?) || Synced(cache0, s0, MaxContext(capacity, maxNew)) ==>
      InWindow(runs, MaxContext(capacity, maxNew))
    ensures saved == Stored(store, start, bsz, lyr, runs)
  {
    runs := [];
    saved := store;
    var cache := cache0;
    var mc := MaxContext(capacity, maxNew);
    var synced := (|hows| > 0 && hows[0].Prime?) || Synced(cache0, s0, mc);
    while |runs| < |hows|
      invariant Traced(pick, settings, maxNew, eoa, start, s0, hows, runs)
      invariant |runs| == 0 ==> cache == cache0
      invariant IsSuffix(cache, Lane(s0, runs))
      invariant synced && |runs| > 0 ==> Synced(cache, Lane(s0, runs), mc)
      invariant synced ==> InWindow(runs, mc)
      invariant saved == Stored(store, start, bsz, lyr, runs)
    {
      var i := start + |runs|;
      var step := TracedSegment(pick, settings, maxNew, eoa, capacity, start, s0, hows, runs, cache, synced);
      if step.Err? {
        return Err(step.error), runs, saved;
      }
      var run := step.value.run;
      saved := SaveSegment(store, start, bsz, lyr, runs, run, saved);
      runs := runs + [run];
      cache := step.value.cache;
    }
    return Ok(Lane(s0, runs)), runs, saved;
  }

  /** The next segment of the loop, run from lane 0 and the draw index
      after the segments of `runs`: it extends the trace, and keeps the
      cache a trailing part of lane 0, synchronised when it was. */
  method TracedSegment(pick: GuidedSampler, settings: SampleSettings, maxNew: int, eoa: int, capacity: int, start: int, s0: seq<int>,
                       hows: seq<Placement>, runs: seq<SegmentRun>, cache: seq<int>, synced: bool)
    returns (r: Result<Step, GenError>)
    requires Traced(pick, settings, maxNew, eoa, start, s0, hows, runs) && |runs| < |hows|
    requires IsSuffix(cache, Lane(s0, runs))
    requires synced ==> InWindow(runs, MaxContext(capacity, maxNew))
    requires synced ==> hows[|runs|].Prime? || Synced(cache, Lane(s0, runs), MaxContext(capacity, maxNew))
    ensures r.Err? ==> r.error == CacheOverflow && !Roomy(maxNew, capacity)
    ensures r.Ok? ==> Traced(pick, settings, maxNew, eoa, start, s0, hows, runs + [r.value.run])
    ensures r.Ok? ==> IsSuffix(r.value.cache, Lane(s0, runs + [r.value.run]))
    ensures r.Ok? && synced ==>
      && InWindow(runs + [r.value.run], MaxContext(capacity, maxNew))
      && Synced(r.value.cache, Lane(s0, runs + [r.value.run]), MaxContext(capacity, maxNew))
  {
    r := RunSegment(pick, settings, maxNew, eoa, capacity, start + |runs|, Lane(s0, runs), cache,
                    NextDraw(runs, maxNew), hows[|runs|]);
    if r.Ok? {
      TracedStep(pick, settings, maxNew, eoa, start, s0, hows, runs, r.value.run);
      if synced {
        InWindowStep(runs, r.value.run, MaxContext(capacity, maxNew));
      }
    }
  }

  /** The checkpoint save after a segment (`torch.save` of lane 0 in every
      lane, keyed by the segment index): it overwrites that segment's entry
      only. */
  method SaveSegment(store: map<int, Checkpoint>, start: int, bsz: nat, lyr: seq<string>,
                     runs: seq<SegmentRun>, run: SegmentRun, saved: map<int, Checkpoint>)
    returns (next: map<int, Checkpoint>)
    requires saved == Stored(store, start, bsz, lyr, runs)
    ensures next == Stored(store, start, bsz, lyr, runs + [run])
  {
    StoredSnoc(store, start, bsz, lyr, runs, run);
    next := saved[start + |runs| := Checkpoint(start + |runs|, Batch(bsz, run.context + run.output), lyr)];
  }

  /** The run gets past its set-up: the prefix is defined and a resumed
      checkpoint exists. */
  predicate Runnable(req: Request, env: Env, store: map<int, Checkpoint>)
  {
    SeqPrefix(req, env, Mc(req, env)).Some? && (req.resume >= 0 ==> req.resume in store)
  }

  /** The tensor the segment loop starts from: the resumed checkpoint, or the
      initial sequence in `bsz` lanes. */
  function Entry(req: Request, env: Env, store: map<int, Checkpoint>): Batch
    requires Runnable(req, env, store)
  {
    if req.resume >= 0 then store[req.resume].tokens
    else Batch(BatchSize(req.settings), InitialSeq(req, SeqPrefix(req, env, Mc(req, env)).value, Mc(req, env)))
  }

  /** The placement of each segment of the run: a continuation that does not
      resume primes in its first segment; every other segment appends its
      prompt (the first prompt for segment 0 of a fresh run). */
  function Hows(req: Request, env: Env, texts: seq<string>, start: nat, count: nat, s0: seq<int>)
    : (r: seq<Placement>)
    requires start + count < |texts|
    ensures |r| == count
  {
    seq(count, j requires 0 <= j < count =>
      if j == 0 && Primes(req) then Prime(Primed(req, env, texts, start, s0))
      else Append(PromptFor(req, env, texts, start + j)))
  }

  /** Lane 0 and the cache content when the segment loop begins. */
  datatype Ready = Ready(entry: Batch, cache: seq<int>)

  /** The set-up of `generate` before its segment loop: the
      prefix must be defined and a resumed checkpoint must exist; a resume
      fills the cache with the checkpoint's trailing window. The cache then
      matches lane 0, except after a continuation that resumes below -1. */
  method Prepare(req: Request, env: Env, store: map<int, Checkpoint>) returns (r: Result<Ready, GenError>)
    ensures r == Err(UndefinedPrefix) <==> req.extend && (req.vocalPath == "" || req.instPath == "")
    ensures r == Err(MissingCheckpoint(req.resume)) <==>
      SeqPrefix(req, env, Mc(req, env)).Some? && req.resume >= 0 && req.resume !in store
    ensures r.Err? ==> r.error == UndefinedPrefix || r.error == MissingCheckpoint(req.resume) || r.error == CacheOverflow
    ensures Roomy(req.maxNew, env.cacheSize) ==> r != Err(CacheOverflow)
    ensures r == Err(CacheOverflow) <==>
      Runnable(req, env, store) && req.resume >= 0 &&
      |Windowed(store[req.resume].tokens.tokens, Mc(req, env))| > env.cacheSize
    ensures req.resume < 0 && SeqPrefix(req, env, Mc(req, env)).Some? ==> r.Ok? && r.value.cache == []
    ensures r.Ok? ==> Runnable(req, env, store) && r.value.entry == Entry(req, env, store)
    ensures r.Ok? ==> IsSuffix(r.value.cache, r.value.entry.tokens)
    ensures r.Ok? && req.resume < 0 ==> r.value.entry.rows == BatchSize(req.settings)
    ensures r.Ok? && (!req.extend || req.resume >= -1) ==>
      Primes(req) || Synced(r.value.cache, r.value.entry.tokens, Mc(req, env))
  {
    var mc := Mc(req, env);
    var prefix := SeqPrefix(req, env, mc);
    if prefix.None? {
      return Err(UndefinedPrefix);
    }
    if req.resume < 0 {
      var s := InitialSeq(req, prefix.value, mc);
      assert !req.extend ==> s == [];
      return Ok(Ready(Batch(BatchSize(req.settings), s), []));
    }
    if req.resume !in store {
      return Err(MissingCheckpoint(req.resume));
    }
    var entry := store[req.resume].tokens;
    var f := Forward([], Windowed(entry.tokens, mc), env.cacheSize);
    if f.None? {
      assert !Roomy(req.maxNew, env.cacheSize) by {
        if Roomy(req.maxNew, env.cacheSize) {
          WindowedFits(entry.tokens, mc);
        }
      }
      return Err(CacheOverflow);
    }
    assert f.value == Windowed(entry.tokens, mc);
    return Ok(Ready(entry, f.value));
  }

  /** The segment loop of `generate` once it is set up: nothing runs when
      no segment is left, a batch of the wrong width is rejected, and
      otherwise every remaining segment is generated from `entry`. */
  method RunReady(req: Request, env: Env, store: map<int, Checkpoint>, entry: Batch, cache: seq<int>)
    returns (r: Result<Batch, GenError>, runs: seq<SegmentRun>, saved: map<int, Checkpoint>)
    requires IsSuffix(cache, entry.tokens)
    ensures r.Err? ==>
      || (r.error == LaneMismatch(entry.rows, BatchSize(req.settings)) && ToRun(req) > 0 &&
          entry.rows != BatchSize(req.settings))
      || (r.error == CacheOverflow && ToRun(req) > 0 && !Roomy(req.maxNew, env.cacheSize))
    ensures ToRun(req) <= 0 ==> r == Ok(FirstRow(entry)) && runs == [] && saved == store
    ensures |runs| > 0 ==> ToRun(req) > 0
    ensures |runs| > 0 ==>
      Traced(env.pick, req.settings, req.maxNew, env.vocab.eoa, Start(req), entry.tokens,
             Hows(req, env, Texts(req).1, Start(req), ToRun(req), entry.tokens), runs)
    ensures Primes(req) || Synced(cache, entry.tokens, Mc(req, env)) ==> InWindow(runs, Mc(req, env))
    ensures saved == Stored(store, Start(req), BatchSize(req.settings), Texts(req).0, runs)
    ensures r.Ok? ==> |runs| == (if ToRun(req) > 0 then ToRun(req) else 0)
    ensures r.Ok? ==> r.value == FirstRow(Batch(entry.rows, Lane(entry.tokens, runs)))
  {
    runs := [];
    saved := store;
    var bsz := BatchSize(req.settings);
    var start := Start(req);
    var count := ToRun(req);
    if count <= 0 {
      return Ok(FirstRow(entry)), runs, saved;
    }
    if entry.rows != bsz {
      // the `torch.cat` of the first segment's prompt onto `seq` rejects the batch
      return Err(LaneMismatch(entry.rows, bsz)), runs, saved;
    }
    var hows := Hows(req, env, Texts(req).1, start, count, entry.tokens);
    var out;
    out, runs, saved := Segments(env.pick, req.settings, req.maxNew, env.vocab.eoa, env.cacheSize, start, hows,
                                 entry.tokens, cache, bsz, Texts(req).0, store);
    if out.Err? {
      return Err(out.error), runs, saved;
    }
    return Ok(Batch(1, out.value)), runs, saved;
  }

  /** `Stage1Pipeline_EXL2.generate`, returning lane 0 of the result, the
      record of each generated segment and the checkpoint store. */
  method Generate(req: Request, env: Env, store: map<int, Checkpoint>)
    returns (r: Result<Batch, GenError>, runs: seq<SegmentRun>, saved: map<int, Checkpoint>)
    ensures r == Err(UndefinedPrefix) <==> req.extend && (req.vocalPath == "" || req.instPath == "")
    ensures r == Err(MissingCheckpoint(req.resume)) <==>
      SeqPrefix(req, env, Mc(req, env)).Some? && req.resume >= 0 && req.resume !in store
    ensures r.Err? && r.error.LaneMismatch? ==>
      Runnable(req, env, store) && req.resume >= 0 && ToRun(req) > 0 &&
      r.error == LaneMismatch(store[req.resume].tokens.rows, BatchSize(req.settings))
    ensures r.Err? ==>
      r.error == UndefinedPrefix || r.error == MissingCheckpoint(req.resume) || r.error.LaneMismatch? ||
      r.error == CacheOverflow
    ensures Roomy(req.maxNew, env.cacheSize) ==> r != Err(CacheOverflow)
    ensures Runnable(req, env, store) && Roomy(req.maxNew, env.cacheSize) ==>
      (req.resume < 0 || store[req.resume].tokens.rows == BatchSize(req.settings)) ==> r.Ok?
    ensures Runnable(req, env, store) && req.resume < 0 && ToRun(req) <= 0 ==>
      r == Ok(FirstRow(Entry(req, env, store))) && runs == [] && saved == store
    ensures Runnable(req, env, store) && ToRun(req) <= 0 && r.Err? ==>
      r == Err(CacheOverflow) && req.resume >= 0
    ensures |runs| > 0 ==> Runnable(req, env, store) && ToRun(req) > 0
    ensures |runs| > 0 ==>
      Traced(env.pick, req.settings, req.maxNew, env.vocab.eoa, Start(req), Entry(req, env, store).tokens,
             Hows(req, env, Texts(req).1, Start(req), ToRun(req), Entry(req, env, store).tokens), runs)
    ensures !req.extend || req.resume >= -1 ==> InWindow(runs, Mc(req, env))
    ensures saved == Stored(store, Start(req), BatchSize(req.settings), Texts(req).0, runs)
    ensures r.Ok? ==> Runnable(req, env, store) && |runs| == (if ToRun(req) > 0 then ToRun(req) else 0)
    ensures r.Ok? ==>
      r.value == FirstRow(Batch(Entry(req, env, store).rows, Lane(Entry(req, env, store).tokens, runs)))
  {
    var ready := Prepare(req, env, store);
    if ready.Err? {
      assert Runnable(req, env, store) ==> ready == Err(CacheOverflow) && req.resume >= 0;
      return Err(ready.error), [], store;
    }
    r, runs, saved := RunReady(req, env, store, ready.value.entry, ready.value.cache);
  }
}

=== FILE: prompts.dfy ===
/** The prompt builders of the Stage-1 pipeline: the reference block that
    carries an audio prompt, the first-segment prompt and the continuation
    prompt. The tokenizer is an uninterpreted function; the start- and
    end-of-audio ids and the codec separator ids are parameters. */
module Prompts {
  import opened Text
  import opened PySeq
  import opened Wrappers
  import opened Lyrics
  import opened Tracks

  /** The tokenizer and the special ids the builders use. */
  datatype Vocab = Vocab(tok: string -> seq<int>, soa: int, eoa: int, sepIds: seq<int>)

  const StartOfSegment: string := "[start_of_segment]"
  const EndOfSegment: string := "[end_of_segment]"
  const StartOfReference: string := "[start_of_reference]"
  const EndOfReference: string := "[end_of_reference]"

  /** The usual vocabulary discipline: the audio markers are distinct and are
      never produced by the text tokenizer or used as separators. */
  ghost predicate Hygienic(v: Vocab)
  {
    && v.soa != v.eoa
    && v.soa !in v.sepIds && v.eoa !in v.sepIds
    && forall s :: v.soa !in v.tok(s) && v.eoa !in v.tok(s)
  }

  /** A codec id list free of the audio markers. */
  predicate CleanCodec(v: Vocab, codec: seq<int>)
  {
    v.soa !in codec && v.eoa !in codec
  }

  /** The segment text with the segment markers removed. */
  function SectionText(segment: string): (r: string)
    ensures forall c :: c in r ==> c in segment
  {
    ReplaceAll(ReplaceAll(segment, StartOfSegment, ""), EndOfSegment, "")
  }

  /** A bracketed word such as `[start_of_segment]` occurs in the text of a
      segment only when it is that segment's own tag. */
  lemma {:induction false} MarkerOnlyAsTag(tag: string, rest: string, w: string)
    requires IsTag(tag) && IsTag(w) && tag != w
    requires '[' !in rest
    ensures !Contains("[" + tag + "]" + rest, "[" + w + "]")
  {
    var s := "[" + tag + "]" + rest;
    var m := "[" + w + "]";
    forall i | 0 <= i <= |s|
      ensures !OccursAt(s, m, i)
    {
      if i + |m| <= |s| {
        var k;
        if i > 0 {
          k := 0;
          assert s[i] != '[';
        } else if |tag| != |w| {
          k := if |tag| < |w| then |tag| + 1 else |w| + 1;
          assert s[k] != m[k];
        } else {
          var j :| 0 <= j < |tag| && tag[j] != w[j];
          k := j + 1;
          assert s[k] != m[k];
        }
        assert s[i..i + |m|][k] != m[k];
      }
    }
  }

  /** For every segment the splitter returns, unless its tag is itself
      `start_of_segment` or `end_of_segment`, the section text is the
      segment text unchanged. */
  lemma SectionOfSegment(seg: Segment)
    requires IsTag(seg.tag) && '[' !in seg.body
    requires seg.tag != "start_of_segment" && seg.tag != "end_of_segment"
    ensures SectionText(SegmentText(seg)) == SegmentText(seg)
  {
    var t := SegmentText(seg);
    var rest := SegmentRest(seg);
    MarkerWords();
    MarkerOnlyAsTag(seg.tag, rest, "start_of_segment");
    MarkerOnlyAsTag(seg.tag, rest, "end_of_segment");
    ReplaceAbsent(t, StartOfSegment, "");
    ReplaceAbsent(t, EndOfSegment, "");
  }

  /** The segment markers are bracketed words. */
  lemma MarkerWords()
    ensures IsTag("start_of_segment") && IsTag("end_of_segment")
    ensures StartOfSegment == "[" + "start_of_segment" + "]"
    ensures EndOfSegment == "[" + "end_of_segment" + "]"
  {
  }

  /** The text of a segment is its bracketed tag followed by a rest that
      holds no opening bracket. */
  lemma SegmentRest(seg: Segment) returns (rest: string)
    requires IsTag(seg.tag) && '[' !in seg.body
    ensures SegmentText(seg) == "[" + seg.tag + "]" + rest
    ensures '[' !in rest
  {
    var t := SegmentText(seg);
    var n := |seg.tag| + 2;
    rest := t[n..];
    assert t[..n] == t[..n + 1][..n] == "[" + seg.tag + "]";
    assert t == t[..n] + rest;
    assert rest == t[1..][n - 1..];
  }

  /** The reference block around an audio prompt's codec ids. */
  function ReferenceBlock(v: Vocab, codec: seq<int>): (r: seq<int>)
    ensures |r| == |v.tok(StartOfReference)| + |v.sepIds| + |codec| + 2 + |v.tok(EndOfReference)|
    ensures r[..|v.tok(StartOfReference)|] == v.tok(StartOfReference)
    ensures r[|r| - |v.tok(EndOfReference)|..] == v.tok(EndOfReference)
  {
    var a := v.tok(StartOfReference);
    var z := v.tok(EndOfReference);
    var r := a + [v.soa] + v.sepIds + codec + [v.eoa] + z;
    assert r == a + ([v.soa] + v.sepIds + codec + [v.eoa] + z);
    r
  }

  /** A reference block holds exactly one start and one end of audio. */
  lemma ReferenceBlockCounts(v: Vocab, codec: seq<int>)
    requires Hygienic(v) && CleanCodec(v, codec)
    ensures Count(ReferenceBlock(v, codec), v.soa) == 1
    ensures Count(ReferenceBlock(v, codec), v.eoa) == 1
  {
    var r := ReferenceBlock(v, codec);
    var a := v.tok(StartOfReference);
    var z := v.tok(EndOfReference);
    assert multiset(r) == multiset(a) + multiset{v.soa} + multiset(v.sepIds) + multiset(codec) + multiset{v.eoa} + multiset(z) by {
      assert r == a + [v.soa] + v.sepIds + codec + [v.eoa] + z;
    }
  }

  /** In a reference block the codec ids sit between the separator ids, right
      after the start of audio, and the end of audio. */
  lemma ReferenceBlockLayout(v: Vocab, codec: seq<int>)
    ensures var open := |v.tok(StartOfReference)|;
      && ReferenceBlock(v, codec)[open] == v.soa
      && ReferenceBlock(v, codec)[open + 1..open + 1 + |v.sepIds| + |codec|] == v.sepIds + codec
      && ReferenceBlock(v, codec)[open + 1 + |v.sepIds| + |codec|] == v.eoa
  {
    var r := ReferenceBlock(v, codec);
    var a := v.tok(StartOfReference);
    var z := v.tok(EndOfReference);
    assert r == a + [v.soa] + (v.sepIds + codec) + [v.eoa] + z;
  }

  /** The codec ids of the reference audio, when an audio prompt is used:
      the dual-track prompt wins over the single-track one. */
  function ReferenceCodec(useDual: bool, useAudio: bool, vocal: seq<int>, inst: seq<int>,
                          single: seq<int>, start: real, end: real): (r: Option<seq<int>>)
    ensures r.Some? <==> useDual || useAudio
  {
    if useDual then Some(DualPromptCodec(vocal, inst, start, end))
    else if useAudio then Some(SinglePromptCodec(single, start, end))
    else None
  }

  /** The reference codec is a contiguous stretch of the single-track codes,
      or, for the dual-track prompt with both times on the frame grid, the
      interleaving of one and the same stretch of frames of both tracks, so
      no vocal/instrumental pair is split. */
  lemma ReferenceCodecSlice(useDual: bool, useAudio: bool, vocal: seq<int>, inst: seq<int>,
                            single: seq<int>, start: real, end: real) returns (lo: nat, hi: nat)
    requires useDual || useAudio
    ensures useDual && OnFrameGrid(start) && OnFrameGrid(end) ==>
      && lo <= hi <= Shared(vocal, inst)
      && ReferenceCodec(useDual, useAudio, vocal, inst, single, start, end).value
         == Interleave(vocal[lo..hi], inst[lo..hi])
    ensures !useDual ==>
      && lo <= hi <= |single|
      && ReferenceCodec(useDual, useAudio, vocal, inst, single, start, end).value == single[lo..hi]
  {
    if useDual {
      if OnFrameGrid(start) && OnFrameGrid(end) {
        lo, hi := DualPromptKeepsPairs(vocal, inst, start, end);
      } else {
        lo, hi := 0, 0;
      }
    } else {
      var r := SinglePromptCodec(single, start, end);
      lo, hi :| lo <= hi <= |single| && r == single[lo..hi];
    }
  }

  /** The part both prompts end with: open a segment, its lyrics, start of
      audio and the separator ids. */
  function SegmentTail(v: Vocab, segment: string): (r: seq<int>)
    ensures |r| >= 1 + |v.sepIds|
    ensures r[|r| - 1 - |v.sepIds|..] == [v.soa] + v.sepIds
  {
    v.tok(StartOfSegment) + v.tok(SectionText(segment)) + [v.soa] + v.sepIds
  }

  /** The optional reference block of the first prompt. */
  function ReferencePart(v: Vocab, ref: Option<seq<int>>): (r: seq<int>)
    ensures ref.None? ==> r == []
  {
    if ref.Some? then ReferenceBlock(v, ref.value) else []
  }

  /** `get_first_segment_prompt`: the tokenized header, the reference block
      when an audio prompt is used, then the first segment's tail. */
  function FirstSegmentPrompt(v: Vocab, segment: string, header: string, ref: Option<seq<int>>): (r: seq<int>)
    ensures |r| >= |v.tok(header)| + 1 + |v.sepIds|
    ensures r[..|v.tok(header)|] == v.tok(header)
    ensures r[|r| - 1 - |v.sepIds|..] == [v.soa] + v.sepIds
  {
    v.tok(header) + ReferencePart(v, ref) + SegmentTail(v, segment)
  }

  /** `get_segment_prompt`: close the previous segment, then the tail. */
  function SegmentPrompt(v: Vocab, segment: string): (r: seq<int>)
    ensures |r| >= |v.tok(EndOfSegment)| + 1 + |v.sepIds|
    ensures r[..|v.tok(EndOfSegment)|] == v.tok(EndOfSegment)
    ensures r[|r| - 1 - |v.sepIds|..] == [v.soa] + v.sepIds
  {
    v.tok(EndOfSegment) + SegmentTail(v, segment)
  }

  /** Both prompts end with the same tail for the same segment text, so each
      ends by opening an audio span: start of audio then the separator ids. */
  lemma PromptsShareTail(v: Vocab, segment: string, header: string, ref: Option<seq<int>>)
    ensures var t := SegmentTail(v, segment);
      var f := FirstSegmentPrompt(v, segment, header, ref);
      var c := SegmentPrompt(v, segment);
      f[|f| - |t|..] == t && c[|c| - |t|..] == t &&
      c[..|c| - |t|] == v.tok(EndOfSegment) &&
      f[..|f| - |t|] == v.tok(header) + ReferencePart(v, ref) &&
      f[|f| - 1 - |v.sepIds|..] == [v.soa] + v.sepIds &&
      c[|c| - 1 - |v.sepIds|..] == [v.soa] + v.sepIds
  {
    SplitAt(v.tok(header) + ReferencePart(v, ref), SegmentTail(v, segment));
    SplitAt(v.tok(EndOfSegment), SegmentTail(v, segment));
  }

  /** The two parts of a concatenation can be read back from it. */
  lemma SplitAt(a: seq<int>, b: seq<int>)
    ensures (a + b)[|a + b| - |b|..] == b && (a + b)[..|a + b| - |b|] == a
  {
  }

  /** A continuation prompt opens one audio span and closes none. */
  lemma SegmentPromptCounts(v: Vocab, segment: string)
    requires Hygienic(v)
    ensures Count(SegmentPrompt(v, segment), v.soa) == 1
    ensures Count(SegmentPrompt(v, segment), v.eoa) == 0
  {
    var e := v.tok(EndOfSegment);
    var t := SegmentTail(v, segment);
    TailCounts(v, segment);
    assert SegmentPrompt(v, segment) == e + t;
    CountAppend(e, t, v.soa);
    CountAppend(e, t, v.eoa);
    CountAbsent(e, v.soa);
    CountAbsent(e, v.eoa);
  }

  /** The first prompt opens one audio span more than it closes: its own,
      plus a complete span for the reference audio when there is one. */
  lemma FirstPromptCounts(v: Vocab, segment: string, header: string, ref: Option<seq<int>>)
    requires Hygienic(v)
    requires ref.Some? ==> CleanCodec(v, ref.value)
    ensures Count(FirstSegmentPrompt(v, segment, header, ref), v.soa) == if ref.Some? then 2 else 1
    ensures Count(FirstSegmentPrompt(v, segment, header, ref), v.eoa) == if ref.Some? then 1 else 0
  {
    var h := v.tok(header);
    var m := ReferencePart(v, ref);
    var t := SegmentTail(v, segment);
    TailCounts(v, segment);
    if ref.Some? {
      ReferenceBlockCounts(v, ref.value);
    }
    assert multiset(FirstSegmentPrompt(v, segment, header, ref)) == multiset(h) + multiset(m) + multiset(t) by {
      assert FirstSegmentPrompt(v, segment, header, ref) == h + m + t;
    }
  }

  /** The tail of a prompt opens one audio span and closes none. */
  lemma TailCounts(v: Vocab, segment: string)
    requires Hygienic(v)
    ensures Count(SegmentTail(v, segment), v.soa) == 1
    ensures Count(SegmentTail(v, segment), v.eoa) == 0
  {
    var a := v.tok(StartOfSegment);
    var b := v.tok(SectionText(segment));
    assert multiset(SegmentTail(v, segment)) == multiset(a) + multiset(b) + multiset{v.soa} + multiset(v.sepIds) by {
      assert SegmentTail(v, segment) == a + b + [v.soa] + v.sepIds;
    }
  }

}

=== FILE: pyseq.dfy ===
/** Python list/tensor slicing and a few sequence helpers the source relies on.

    Python's `s[i:j]` accepts any integers: a negative bound counts from the
    end, and bounds past either end are clamped. The pipeline relies on this
    behaviour in several places (`seq[:, -max_context:]`, the time-based
    trims), so it is modelled exactly rather than with Dafny's checked slices. */
module PySeq {

  /** Python's normalisation of one slice bound `i` against length `n`. */
  function Bound(i: int, n: nat): (b: nat)
    ensures b <= n
    ensures 0 <= i <= n ==> b == i
    ensures -(n as int) <= i < 0 ==> b == n + i
    ensures i < -(n as int) ==> b == 0
    ensures i > n ==> b == n
  {
    if i < 0 then (if i + n < 0 then 0 else i + n)
    else if i > n then n
    else i
  }

  /** `s[i:j]` with Python's semantics (step 1). */
  function PySlice<T>(s: seq<T>, i: int, j: int): (r: seq<T>)
    ensures |r| <= |s|
    ensures Bound(i, |s|) < Bound(j, |s|) ==> r == s[Bound(i, |s|)..Bound(j, |s|)]
    ensures Bound(i, |s|) >= Bound(j, |s|) ==> r == []
  {
    var a := Bound(i, |s|);
    var b := Bound(j, |s|);
    if a < b then s[a..b] else []
  }

  /** `s[i:]` with Python's semantics. */
  function PyTail<T>(s: seq<T>, i: int): (r: seq<T>)
    ensures r == s[Bound(i, |s|)..]
  {
    PySlice(s, i, |s|)
  }

  /** `s[-k:]` for 1 <= k keeps exactly the last `min(k, |s|)` elements. */
  lemma PyTailNegative<T>(s: seq<T>, k: int)
    requires k >= 1
    ensures k <= |s| ==> PyTail(s, -k) == s[|s| - k..] && |PyTail(s, -k)| == k
    ensures k > |s| ==> PyTail(s, -k) == s
  {
  }

  /** `s[-0:]` is `s[0:]`: Python reads minus zero as the start. */
  lemma PyTailMinusZero<T>(s: seq<T>)
    ensures PyTail(s, -0) == s
  {
  }

  /** Slicing commutes with dropping a prefix when the bounds are in range. */
  lemma PySliceShift<T>(a: seq<T>, b: seq<T>, i: int, j: int)
    requires 0 <= i <= j <= |b|
    ensures PySlice(a + b, |a| + i, |a| + j) == PySlice(b, i, j)
  {
    assert (a + b)[|a| + i..|a| + j] == b[i..j];
  }

  /** Concatenation of a sequence of sequences (`np.concatenate`, `sum(lists, [])`). */
  function Concat<T>(ss: seq<seq<T>>): (r: seq<T>)
    ensures ss == [] ==> r == []
  {
    if |ss| == 0 then [] else ss[0] + Concat(ss[1..])
  }

  lemma {:induction false} ConcatAppend<T>(a: seq<seq<T>>, b: seq<seq<T>>)
    ensures Concat(a + b) == Concat(a) + Concat(b)
  {
    if |a| == 0 {
      assert a + b == b;
    } else {
      assert (a + b)[1..] == a[1..] + b;
      ConcatAppend(a[1..], b);
    }
  }

  /** Concatenating a sequence of parts adds up their lengths. */
  function SumLengths<T>(ss: seq<seq<T>>): nat
  {
    if |ss| == 0 then 0 else |ss[0]| + SumLengths(ss[1..])
  }

  lemma {:induction false} ConcatLength<T>(ss: seq<seq<T>>)
    ensures |Concat(ss)| == SumLengths(ss)
  {
    if |ss| > 0 {
      ConcatLength(ss[1..]);
    }
  }

  /** Number of occurrences of `x` in `s` (numpy's `len(np.where(s == x)[0])`). */
  function Count<T(==)>(s: seq<T>, x: T): nat
  {
    multiset(s)[x]
  }

  lemma CountAppend<T>(a: seq<T>, b: seq<T>, x: T)
    ensures Count(a + b, x) == Count(a, x) + Count(b, x)
  {
    assert multiset(a + b) == multiset(a) + multiset(b);
  }

  lemma CountAbsent<T>(s: seq<T>, x: T)
    requires x !in s
    ensures Count(s, x) == 0
  {
  }

  lemma CountSingle<T>(x: T, y: T)
    ensures Count([x], y) == if x == y then 1 else 0
  {
  }
}

=== FILE: sampling.dfy ===
/** The sampling loop of one segment. The sampler (nucleus sampling over the
    model's logits) is a parameter: from the context held in the cache and
    the index of the random draw it picks an index into the allowed-token
    list `[32002] + list(range(45334, 56722))`. */
module Sampling {
  import opened Wrappers
  import opened Window
  import Common

  /** The number of allowed ids: the end of audio and the 11388 codec ids. */
  const AllowedCount: nat := 11389

  /** The k-th id of the allowed list. */
  function AllowedId(k: nat): int
    requires k < AllowedCount
  {
    if k == 0 then 32002 else 45334 + k - 1
  }

  /** `list(range(lo, hi))`. */
  function Range(lo: int, hi: int): (r: seq<int>)
    ensures |r| == if lo < hi then hi - lo else 0
    ensures forall k :: 0 <= k < |r| ==> r[k] == lo + k
    decreases hi - lo
  {
    if lo >= hi then [] else [lo] + Range(lo + 1, hi)
  }

  /** The list handed to `allow_tokens`. */
  function AllowedList(): seq<int>
  {
    [32002] + Range(45334, 56722)
  }

  /** Membership in the allowed set. */
  predicate IsAllowed(t: int)
  {
    t == 32002 || 45334 <= t < 56722
  }

  /** The allowed list has `AllowedCount` entries, indexed by `AllowedId`, and
      holds exactly the allowed ids. */
  lemma AllowedListIndexed()
    ensures |AllowedList()| == AllowedCount
    ensures forall k :: 0 <= k < AllowedCount ==> AllowedList()[k] == AllowedId(k)
    ensures forall t :: t in AllowedList() <==> IsAllowed(t)
  {
    var l := AllowedList();
    forall t | IsAllowed(t)
      ensures t in l
    {
      if t != 32002 {
        assert l[t - 45334 + 1] == t;
      }
    }
  }

  /** No allowed id is blocked by the HF pipeline's logits processors, which
      close `[0, 32002)`: both back ends sample from ids at or above 32002. */
  lemma AllowedNotBlocked(t: int, width: nat)
    requires IsAllowed(t) && width >= 56722
    ensures !Common.BlocksColumn(0, 32002, width, t)
    ensures !Common.BlocksColumn(32016, 32016, width, t)
  {
  }

  /** The sampler: context and draw index to an index of the allowed list. */
  type Sampler = (seq<int>, nat) -> nat

  /** One sampled token: always an allowed id. */
  function Sample(pick: Sampler, context: seq<int>, draw: nat): (t: int)
    ensures IsAllowed(t)
  {
    AllowedId(pick(context, draw) % AllowedCount)
  }

  /** What one segment appends to the sequence: sample (each sample joining
      the context) until an end of audio is drawn or `budget` samples are
      spent, and in the latter case append one forced end of audio. */
  function SegmentOutput(pick: Sampler, context: seq<int>, draw: nat, budget: int, eoa: int): (out: seq<int>)
    ensures 1 <= |out| <= (if budget > 0 then budget else 0) + 1
    decreases budget
  {
    if budget <= 0 then [eoa]
    else
      var t := Sample(pick, context, draw);
      if t == eoa then [t]
      else [t] + SegmentOutput(pick, context + [t], draw + 1, budget - 1, eoa)
  }

  /** Every segment ends with the end of audio and holds no earlier one; all
      its other tokens are allowed ids, and so is the last one when it was
      drawn rather than forced. */
  lemma {:induction false} SegmentOutputShape(pick: Sampler, context: seq<int>, draw: nat, budget: int, eoa: int)
    ensures var out := SegmentOutput(pick, context, draw, budget, eoa);
      && out[|out| - 1] == eoa
      && eoa !in out[..|out| - 1]
      && (forall k :: 0 <= k < |out| - 1 ==> IsAllowed(out[k]))
      && (|out| <= budget ==> IsAllowed(out[|out| - 1]))
    decreases budget
  {
    if budget <= 0 {
      ShapeOne(eoa, eoa, budget);
    } else {
      var t := Sample(pick, context, draw);
      if t == eoa {
        ShapeOne(t, eoa, budget);
      } else {
        var rest := SegmentOutput(pick, context + [t], draw + 1, budget - 1, eoa);
        SegmentOutputShape(pick, context + [t], draw + 1, budget - 1, eoa);
        assert SegmentOutput(pick, context, draw, budget, eoa) == [t] + rest;
        ShapeCons(t, rest, eoa, budget);
      }
    }
  }

  /** A segment of one end of audio has the shape, drawn or forced. */
  lemma ShapeOne(t: int, eoa: int, budget: int)
    requires t == eoa && (budget >= 1 ==> IsAllowed(t))
    ensures var out := [t];
      && |out| - 1 == 0
      && out[0] == eoa
      && eoa !in out[..0]
      && (|out| <= budget ==> IsAllowed(out[0]))
  {
  }

  /** A drawn token that is not the end of audio, put in front of a
      well-shaped rest of the segment, keeps the shape. */
  lemma ShapeCons(t: int, rest: seq<int>, eoa: int, budget: int)
    requires |rest| >= 1 && t != eoa && IsAllowed(t)
    requires rest[|rest| - 1] == eoa && eoa !in rest[..|rest| - 1]
    requires forall k :: 0 <= k < |rest| - 1 ==> IsAllowed(rest[k])
    requires |rest| <= budget - 1 ==> IsAllowed(rest[|rest| - 1])
    ensures var out := [t] + rest;
      && out[|out| - 1] == eoa
      && eoa !in out[..|out| - 1]
      && (forall k :: 0 <= k < |out| - 1 ==> IsAllowed(out[k]))
      && (|out| <= budget ==> IsAllowed(out[|out| - 1]))
  {
    assert ([t] + rest)[..|rest|] == [t] + rest[..|rest| - 1];
  }

  /** How many random draws a segment output used: all of its tokens, except
      a forced final end of audio. */
  function Draws(out: seq<int>, budget: int): nat
  {
    if |out| <= budget then |out| else if |out| > 0 then |out| - 1 else 0
  }

  /** Every drawn token of a segment is the sample from the context
      followed by the segment's tokens before it. */
  lemma {:induction false} SegmentOutputAt(pick: Sampler, context: seq<int>, draw: nat, budget: int, eoa: int, j: nat)
    requires j < budget && j < |SegmentOutput(pick, context, draw, budget, eoa)|
    ensures var out := SegmentOutput(pick, context, draw, budget, eoa);
      out[j] == Sample(pick, context + out[..j], draw + j)
    decreases budget
  {
    var out := SegmentOutput(pick, context, draw, budget, eoa);
    var t := Sample(pick, context, draw);
    SampleLoopStep(pick, context, draw, budget, eoa);
    if j == 0 {
      assert context + out[..0] == context;
    } else {
      SegmentOutputAt(pick, context + [t], draw + 1, budget - 1, eoa, j - 1);
      PrefixShift(context, out, j);
    }
  }

  /** Moving the first token of `out` from the prefix onto the context. */
  lemma PrefixShift(context: seq<int>, out: seq<int>, j: nat)
    requires 0 < j <= |out|
    ensures context + out[..j] == (context + [out[0]]) + out[1..][..j - 1]
  {
    assert out[..j] == [out[0]] + out[1..][..j - 1];
  }

  /** The segment is one token longer than the budget (its end of audio
      forced) exactly when none of the draws it made sampled an end of
      audio: draw `j` samples from the context followed by the first `j`
      tokens of the segment. */
  lemma ForcedIffNoEoaDrawn(pick: Sampler, context: seq<int>, draw: nat, budget: int, eoa: int)
    ensures var out := SegmentOutput(pick, context, draw, budget, eoa);
      |out| == (if budget > 0 then budget else 0) + 1 <==>
      forall j :: 0 <= j < budget && j < |out| ==> Sample(pick, context + out[..j], draw + j) != eoa
  {
    var out := SegmentOutput(pick, context, draw, budget, eoa);
    SegmentOutputShape(pick, context, draw, budget, eoa);
    if |out| == (if budget > 0 then budget else 0) + 1 {
      forall j | 0 <= j < budget && j < |out|
        ensures Sample(pick, context + out[..j], draw + j) != eoa
      {
        SegmentOutputAt(pick, context, draw, budget, eoa, j);
        assert out[j] in out[..|out| - 1];
      }
    } else {
      var j := |out| - 1;
      SegmentOutputAt(pick, context, draw, budget, eoa, j);
    }
  }

  /** One step of the loop of `SampleSegment`: the rest of the segment
      starts with the next sample, which either ends it or leaves the rest
      of the segment with one sample less. */
  lemma SampleLoopStep(pick: Sampler, context: seq<int>, draw: nat, budget: int, eoa: int)
    requires budget > 0
    ensures var rest := SegmentOutput(pick, context, draw, budget, eoa);
      var t := Sample(pick, context, draw);
      && rest[0] == t
      && (t == eoa ==> rest == [t])
      && (t != eoa ==> rest[1..] == SegmentOutput(pick, context + [t], draw + 1, budget - 1, eoa))
  {
  }

  /** Moving the first token of the rest of a segment into the tokens so
      far. */
  lemma ShiftOne(out: seq<int>, rest: seq<int>)
    requires |rest| > 0
    ensures out + rest == (out + [rest[0]]) + rest[1..]
  {
    assert rest == [rest[0]] + rest[1..];
  }

  lemma AppendOne(a: seq<int>, b: seq<int>, x: int)
    ensures (a + b) + [x] == a + (b + [x])
  {
  }

  /** The state after a segment: its tokens, the cache content, the number of
      the next random draw. */
  datatype Sampled = Sampled(out: seq<int>, cache: seq<int>, draw: nat)

  /** The `for ... else` sampling loop: each sampled token is appended and
      forwarded into the cache; a sampled end of audio ends the segment;
      after `maxNew` samples an end of audio is forced and forwarded too.
      `None` is a forward that overflows the cache. */
  method SampleSegment(pick: Sampler, cache: seq<int>, draw: nat, maxNew: int, eoa: int, capacity: int)
    returns (r: Option<Sampled>)
    ensures r.Some? <==> |cache| + |SegmentOutput(pick, cache, draw, maxNew, eoa)| <= capacity
    ensures r.Some? ==> r.value.out == SegmentOutput(pick, cache, draw, maxNew, eoa)
    ensures r.Some? ==> r.value.cache == cache + r.value.out
    ensures r.Some? ==> r.value.draw == draw + Draws(r.value.out, maxNew)
  {
    if |cache| > capacity {
      return None;
    }
    var s, stopped := SampleLoop(pick, cache, draw, maxNew, eoa, capacity);
    if s.None? || stopped {
      return s;
    }
    var f := Forward(s.value.cache, [eoa], capacity);
    if f.None? {
      return None;
    }
    AppendOne(cache, s.value.out, eoa);
    return Some(Sampled(s.value.out + [eoa], f.value, s.value.draw));
  }

  /** The loop of `SampleSegment` up to its `else` branch: either an end of
      audio was drawn (`stopped`) and the segment is complete, or the budget
      is spent and only the forced end of audio is missing. */
  method SampleLoop(pick: Sampler, cache: seq<int>, draw: nat, maxNew: int, eoa: int, capacity: int)
    returns (r: Option<Sampled>, stopped: bool)
    requires |cache| <= capacity
    ensures r.None? ==> |cache| + |SegmentOutput(pick, cache, draw, maxNew, eoa)| > capacity
    ensures r.Some? ==> r.value.cache == cache + r.value.out && |r.value.cache| <= capacity
    ensures r.Some? ==> r.value.draw == draw + |r.value.out|
    ensures r.Some? && stopped ==>
      r.value.out == SegmentOutput(pick, cache, draw, maxNew, eoa) && |r.value.out| <= maxNew
    ensures r.Some? && !stopped ==>
      SegmentOutput(pick, cache, draw, maxNew, eoa) == r.value.out + [eoa] &&
      |r.value.out| == if maxNew > 0 then maxNew else 0
  {
    if maxNew <= 0 {
      return Some(Sampled([], cache, draw)), false;
    }
    ghost var full := SegmentOutput(pick, cache, draw, maxNew, eoa);
    ghost var rest := full;
    var out: seq<int> := [];
    var c := cache;
    var d := draw;
    while |out| < maxNew
      invariant |out| <= maxNew
      invariant c == cache + out
      invariant d == draw + |out|
      invariant |c| <= capacity
      invariant full == out + rest
      invariant rest == SegmentOutput(pick, c, d, maxNew - |out|, eoa)
      decreases maxNew - |out|
    {
      var t := Sample(pick, c, d);
      SampleLoopStep(pick, c, d, maxNew - |out|, eoa);
      var f := Forward(c, [t], capacity);
      if f.None? {
        return None, false;
      }
      assert f.value == c + [t];
      AppendOne(cache, out, t);
      if t == eoa {
        return Some(Sampled(out + [t], f.value, d + 1)), true;
      }
      assert rest[1..] == SegmentOutput(pick, f.value, d + 1, maxNew - |out| - 1, eoa);
      ShiftOne(out, rest);
      out := out + [t];
      rest := rest[1..];
      c := f.value;
      d := d + 1;
    }
    return Some(Sampled(out, c, d)), false;
  }
}

=== FILE: text.dfy ===
/** String helpers with the semantics of the Python built-ins the source calls:
    `str.strip`, `str.lower`, `in`, `str.endswith`, `str.replace`, `str.join`
    and POSIX `os.path.basename`. Strings are sequences of code points. */
module Text {

  /** `c.isspace()` for the code points Python treats as whitespace. */
  predicate IsSpace(c: char)
  {
    || c == ' ' || c == '\t' || c == '\n' || c == '\r' || c == '\U{B}' || c == '\U{C}'
    || ('\U{1C}' <= c <= '\U{1F}') || c == '\U{85}' || c == '\U{A0}' || c == '\U{1680}'
    || ('\U{2000}' <= c <= '\U{200A}') || c == '\U{2028}' || c == '\U{2029}' || c == '\U{202F}'
    || c == '\U{205F}' || c == '\U{3000}'
  }

  predicate IsAsciiLetter(c: char)
  {
    ('a' <= c <= 'z') || ('A' <= c <= 'Z')
  }

  predicate IsAsciiDigit(c: char)
  {
    '0' <= c <= '9'
  }

  /** A regular-expression word character (`\w`), restricted to ASCII. */
  predicate IsWordChar(c: char)
  {
    IsAsciiLetter(c) || IsAsciiDigit(c) || c == '_'
  }

  /** Number of leading whitespace characters. */
  function LeadLen(s: string): (n: nat)
    ensures n <= |s|
    ensures forall k :: 0 <= k < n ==> IsSpace(s[k])
    ensures n < |s| ==> !IsSpace(s[n])
  {
    if |s| == 0 || !IsSpace(s[0]) then 0 else 1 + LeadLen(s[1..])
  }

  /** Number of trailing whitespace characters. */
  function TrailLen(s: string): (n: nat)
    ensures n <= |s|
    ensures forall k :: |s| - n <= k < |s| ==> IsSpace(s[k])
    ensures n < |s| ==> !IsSpace(s[|s| - n - 1])
  {
    if |s| == 0 || !IsSpace(s[|s| - 1]) then 0 else 1 + TrailLen(s[..|s| - 1])
  }

  /** `s.strip()`: drop leading and trailing whitespace. */
  function Strip(s: string): (r: string)
    ensures LeadLen(s) + |r| <= |s|
    ensures r == s[LeadLen(s)..LeadLen(s) + |r|]
    ensures forall k :: LeadLen(s) + |r| <= k < |s| ==> IsSpace(s[k])
    ensures r == [] || (!IsSpace(r[0]) && !IsSpace(r[|r| - 1]))
  {
    var l := LeadLen(s);
    if l == |s| then "" else
      var t := TrailLen(s);
      assert !IsSpace(s[l]);
      assert |s| - t > l;
      s[l..|s| - t]
  }

  /** A stripped string has nothing left to strip. */
  lemma StripIdempotent(s: string)
    ensures Strip(Strip(s)) == Strip(s)
  {
    var r := Strip(s);
    if |r| > 0 {
      assert LeadLen(r) == 0;
      assert TrailLen(r) == 0;
    }
  }

  /** Every character of `Strip(s)` comes from `s`. */
  lemma StripChars(s: string, c: char)
    requires c in Strip(s)
    ensures c in s
  {
    var r := Strip(s);
    var k :| 0 <= k < |r| && r[k] == c;
    assert s[LeadLen(s) + k] == c;
  }

  /** ASCII `c.lower()`. */
  function LowerChar(c: char): (d: char)
    ensures 'A' <= c <= 'Z' ==> d as int == c as int + 32
    ensures !('A' <= c <= 'Z') ==> d == c
  {
    if 'A' <= c <= 'Z' then (c as int + 32) as char else c
  }

  /** `s.lower()` on the ASCII range. */
  function Lower(s: string): (r: string)
    ensures |r| == |s|
    ensures forall k :: 0 <= k < |s| ==> r[k] == LowerChar(s[k])
  {
    if |s| == 0 then "" else [LowerChar(s[0])] + Lower(s[1..])
  }

  lemma LowerIdempotent(s: string)
    ensures Lower(Lower(s)) == Lower(s)
  {
  }

  /** `sub` occurs in `s` starting at index `i`. */
  predicate OccursAt(s: string, sub: string, i: int)
  {
    0 <= i && i + |sub| <= |s| && s[i..i + |sub|] == sub
  }

  /** `sub in s`. */
  predicate Contains(s: string, sub: string)
  {
    exists i | 0 <= i <= |s| :: OccursAt(s, sub, i)
  }

  /** `s.endswith(suffix)`. */
  predicate EndsWith(s: string, suffix: string)
  {
    |suffix| <= |s| && s[|s| - |suffix|..] == suffix
  }

  /** `s.replace(pat, rep)`: replace every non-overlapping occurrence of `pat`,
      scanning left to right. */
  function ReplaceAll(s: string, pat: string, rep: string): (r: string)
    requires |pat| > 0
    ensures forall c :: c in r ==> c in s || c in rep
    decreases |s|
  {
    if |s| < |pat| then s
    else if s[..|pat|] == pat then rep + ReplaceAll(s[|pat|..], pat, rep)
    else [s[0]] + ReplaceAll(s[1..], pat, rep)
  }

  /** Replacing a pattern that does not occur leaves the string unchanged. */
  lemma {:induction false} ReplaceAbsent(s: string, pat: string, rep: string)
    requires |pat| > 0
    requires !Contains(s, pat)
    ensures ReplaceAll(s, pat, rep) == s
    decreases |s|
  {
    if |s| >= |pat| {
      assert !OccursAt(s, pat, 0);
      assert s[0..|pat|] == s[..|pat|];
      forall i | 0 <= i <= |s[1..]|
        ensures !OccursAt(s[1..], pat, i)
      {
        assert !OccursAt(s, pat, i + 1);
        if i + |pat| <= |s[1..]| {
          assert s[1..][i..i + |pat|] == s[i + 1..i + 1 + |pat|];
        }
      }
      ReplaceAbsent(s[1..], pat, rep);
    }
  }

  /** `sep.join(parts)`. */
  function Join(parts: seq<string>, sep: string): (r: string)
    ensures |parts| == 1 ==> r == parts[0]
  {
    if |parts| == 0 then ""
    else if |parts| == 1 then parts[0]
    else parts[0] + sep + Join(parts[1..], sep)
  }

  /** Every part occurs inside the joined string. */
  lemma {:induction false} JoinContainsPart(parts: seq<string>, sep: string, k: int)
    requires 0 <= k < |parts|
    ensures Contains(Join(parts, sep), parts[k])
  {
    var j := Join(parts, sep);
    if |parts| == 1 {
      assert OccursAt(j, parts[0], 0);
    } else if k == 0 {
      assert j[0..|parts[0]|] == parts[0];
      assert OccursAt(j, parts[0], 0);
    } else {
      JoinContainsPart(parts[1..], sep, k - 1);
      var rest := Join(parts[1..], sep);
      var i :| 0 <= i <= |rest| && OccursAt(rest, parts[1..][k - 1], i);
      var off := |parts[0]| + |sep|;
      assert j == parts[0] + sep + rest;
      assert j[off + i..off + i + |parts[k]|] == rest[i..i + |parts[k]|];
      assert OccursAt(j, parts[k], off + i);
    }
  }

  /** Where part `k` starts in `sep.join(parts)`: after every earlier part,
      each followed by one separator. */
  function JoinOffset(parts: seq<string>, sep: string, k: nat): nat
    requires k <= |parts|
  {
    if k == 0 then 0 else JoinOffset(parts, sep, k - 1) + |parts[k - 1]| + |sep|
  }

  lemma {:induction false} JoinOffsetTail(parts: seq<string>, sep: string, k: nat)
    requires 1 <= k <= |parts|
    ensures JoinOffset(parts, sep, k) == |parts[0]| + |sep| + JoinOffset(parts[1..], sep, k - 1)
  {
    if k > 1 {
      JoinOffsetTail(parts, sep, k - 1);
      assert parts[1..][k - 2] == parts[k - 1];
    }
  }

  /** The layout of `sep.join(parts)`: part `k` sits at its offset, followed
      by one separator unless it is the last part, which ends the string. */
  lemma {:induction false} JoinAt(parts: seq<string>, sep: string, k: nat)
    requires k < |parts|
    ensures var o := JoinOffset(parts, sep, k);
      && OccursAt(Join(parts, sep), parts[k], o)
      && (k + 1 < |parts| ==> OccursAt(Join(parts, sep), sep, o + |parts[k]|))
      && (k + 1 == |parts| ==> o + |parts[k]| == |Join(parts, sep)|)
    decreases |parts|
  {
    var j := Join(parts, sep);
    if |parts| == 1 {
      assert j[0..|parts[0]|] == parts[0];
    } else {
      var rest := Join(parts[1..], sep);
      assert j == parts[0] + sep + rest;
      if k == 0 {
        assert j[0..|parts[0]|] == parts[0];
        assert j[|parts[0]|..|parts[0]| + |sep|] == sep;
      } else {
        JoinAt(parts[1..], sep, k - 1);
        JoinOffsetTail(parts, sep, k);
        var o := JoinOffset(parts[1..], sep, k - 1);
        var p := parts[0] + sep;
        assert parts[1..][k - 1] == parts[k];
        assert j == p + rest && JoinOffset(parts, sep, k) == |p| + o;
        OccursInSuffix(p, rest, parts[k], o);
        if k + 1 < |parts| {
          OccursInSuffix(p, rest, sep, o + |parts[k]|);
          assert |p| + (o + |parts[k]|) == JoinOffset(parts, sep, k) + |parts[k]|;
        }
      }
    }
  }

  /** An occurrence in a suffix is an occurrence in the whole string,
      shifted by the prefix. */
  lemma OccursInSuffix(prefix: string, s: string, sub: string, i: int)
    requires OccursAt(s, sub, i)
    ensures OccursAt(prefix + s, sub, |prefix| + i)
  {
    assert (prefix + s)[|prefix| + i..|prefix| + i + |sub|] == s[i..i + |sub|];
  }

  /** A substring of a suffix is a substring of the whole string. */
  lemma ContainsInSuffix(prefix: string, s: string, sub: string)
    requires Contains(s, sub)
    ensures Contains(prefix + s, sub)
  {
    var i :| 0 <= i <= |s| && OccursAt(s, sub, i);
    assert (prefix + s)[|prefix| + i..|prefix| + i + |sub|] == sub;
    assert OccursAt(prefix + s, sub, |prefix| + i);
  }

  /** Index of the last '/' in `s`, or -1 (`s.rfind('/')`). */
  function LastSlash(s: string): (i: int)
    ensures -1 <= i < |s|
    ensures i >= 0 ==> s[i] == '/'
    ensures forall k :: i < k < |s| ==> s[k] != '/'
  {
    if |s| == 0 then -1
    else if s[|s| - 1] == '/' then |s| - 1
    else LastSlash(s[..|s| - 1])
  }

  /** POSIX `os.path.basename`: the part after the last '/'. */
  function Basename(path: string): (r: string)
    ensures '/' !in r
    ensures EndsWith(path, r)
  {
    path[LastSlash(path) + 1..]
  }
}

=== FILE: tracks.dfy ===
/** The two-track token layout. The vocal and the instrumental codec streams
    are merged by alternating their tokens (vocal first), after cutting both
    to the shorter length; `save` splits them apart again by position parity.
    Times are seconds, as Python floats; the codec produces 50 tokens per
    second and per track, so one second of interleaved audio is 100 tokens. */
module Tracks {
  import opened PySeq

  /** The number of positions both tracks have: `min(len(v), len(i))`. */
  function Shared(v: seq<int>, i: seq<int>): (m: nat)
    ensures m <= |v| && m <= |i|
    ensures m == |v| || m == |i|
  {
    if |v| <= |i| then |v| else |i|
  }

  /** `rearrange([v[:m], i[:m]], "b n -> (n b)")`, equivalently the zip-and-
      flatten comprehension of the continuation encoder. */
  function Interleave(v: seq<int>, i: seq<int>): (r: seq<int>)
    ensures |r| == 2 * Shared(v, i)
  {
    if |v| == 0 || |i| == 0 then [] else [v[0], i[0]] + Interleave(v[1..], i[1..])
  }

  /** Position `2k` holds the k-th vocal token and `2k+1` the k-th
      instrumental token. */
  lemma {:induction false} InterleaveAt(v: seq<int>, i: seq<int>, k: nat)
    requires k < Shared(v, i)
    ensures Interleave(v, i)[2 * k] == v[k]
    ensures Interleave(v, i)[2 * k + 1] == i[k]
  {
    if k > 0 {
      InterleaveAt(v[1..], i[1..], k - 1);
      assert Interleave(v, i)[2..] == Interleave(v[1..], i[1..]);
    }
  }

  /** Even positions of an even-length list: `rearrange(ids, "(n b) -> b n", b=2)[0]`. */
  function Evens(s: seq<int>): (r: seq<int>)
    requires |s| % 2 == 0
    ensures |r| == |s| / 2
  {
    if |s| == 0 then [] else [s[0]] + Evens(s[2..])
  }

  /** Odd positions of an even-length list: `rearrange(ids, "(n b) -> b n", b=2)[1]`. */
  function Odds(s: seq<int>): (r: seq<int>)
    requires |s| % 2 == 0
    ensures |r| == |s| / 2
  {
    if |s| == 0 then [] else [s[1]] + Odds(s[2..])
  }

  /** Splitting an interleaved list gives back both tracks, cut to the
      shorter length: unequal tracks are truncated, never rejected. */
  lemma {:induction false} SplitInterleave(v: seq<int>, i: seq<int>)
    ensures Evens(Interleave(v, i)) == v[..Shared(v, i)]
    ensures Odds(Interleave(v, i)) == i[..Shared(v, i)]
  {
    if |v| > 0 && |i| > 0 {
      SplitInterleave(v[1..], i[1..]);
      var r := Interleave(v, i);
      assert r[2..] == Interleave(v[1..], i[1..]);
      assert v[..Shared(v, i)] == [v[0]] + v[1..][..Shared(v[1..], i[1..])];
      assert i[..Shared(v, i)] == [i[0]] + i[1..][..Shared(v[1..], i[1..])];
    }
  }

  /** Interleaving the two halves of an even-length list rebuilds it. */
  lemma {:induction false} InterleaveSplit(s: seq<int>)
    requires |s| % 2 == 0
    ensures Interleave(Evens(s), Odds(s)) == s
  {
    if |s| > 0 {
      InterleaveSplit(s[2..]);
      assert Evens(s)[1..] == Evens(s[2..]);
      assert Odds(s)[1..] == Odds(s[2..]);
      assert s == [s[0], s[1]] + s[2..];
    }
  }

  /** Dropping `lo` pairs from the front of an interleaving drops `lo` tokens
      from each track. */
  lemma {:induction false} InterleaveDrop(v: seq<int>, i: seq<int>, lo: nat)
    requires lo <= Shared(v, i)
    ensures Interleave(v, i)[2 * lo..] == Interleave(v[lo..], i[lo..])
  {
    if lo > 0 {
      InterleaveDrop(v[1..], i[1..], lo - 1);
      assert Interleave(v, i)[2..] == Interleave(v[1..], i[1..]);
      assert v[1..][lo - 1..] == v[lo..] && i[1..][lo - 1..] == i[lo..];
      assert Interleave(v, i)[2 * lo..] == Interleave(v, i)[2..][2 * (lo - 1)..];
    }
  }

  /** Keeping `hi` pairs keeps `hi` tokens of each track. */
  lemma {:induction false} InterleaveTake(v: seq<int>, i: seq<int>, hi: nat)
    requires hi <= Shared(v, i)
    ensures Interleave(v, i)[..2 * hi] == Interleave(v[..hi], i[..hi])
  {
    if hi > 0 {
      InterleaveTake(v[1..], i[1..], hi - 1);
      var r := Interleave(v, i);
      assert r == [v[0], i[0]] + Interleave(v[1..], i[1..]);
      assert v[..hi][1..] == v[1..][..hi - 1] && i[..hi][1..] == i[1..][..hi - 1];
      assert r[..2 * hi] == [v[0], i[0]] + Interleave(v[1..], i[1..])[..2 * (hi - 1)];
    }
  }

  /** A cut of an interleaved list at even offsets is the interleaving of the
      same cut of both tracks. */
  lemma InterleaveCut(v: seq<int>, i: seq<int>, lo: nat, hi: nat)
    requires lo <= hi <= Shared(v, i)
    ensures Interleave(v, i)[2 * lo..2 * hi] == Interleave(v[lo..hi], i[lo..hi])
  {
    InterleaveTake(v, i, hi);
    InterleaveDrop(v[..hi], i[..hi], lo);
    assert Interleave(v, i)[2 * lo..2 * hi] == Interleave(v, i)[..2 * hi][2 * lo..];
    assert v[..hi][lo..] == v[lo..hi] && i[..hi][lo..] == i[lo..hi];
  }

  /** Python's normalisation of a bound in tokens against an interleaving is
      the normalisation of the same bound in pairs, doubled. */
  lemma BoundDouble(i: int, m: nat)
    ensures Bound(2 * i, 2 * m) == 2 * Bound(i, m)
  {
  }

  /** A Python slice of an interleaved list at even bounds keeps every vocal
      token next to the instrumental token of the same position: it is the
      interleaving of one common cut `[lo, hi)` of both tracks. */
  lemma SliceKeepsPairs(v: seq<int>, i: seq<int>, a: int, b: int, x: int, y: int) returns (lo: nat, hi: nat)
    requires a == 2 * x && b == 2 * y
    ensures lo <= hi <= Shared(v, i)
    ensures PySlice(Interleave(v, i), a, b) == Interleave(v[lo..hi], i[lo..hi])
  {
    var m := Shared(v, i);
    BoundDouble(x, m);
    BoundDouble(y, m);
    lo := Bound(x, m);
    if Bound(x, m) < Bound(y, m) {
      hi := Bound(y, m);
      InterleaveCut(v, i, lo, hi);
    } else {
      hi := lo;
    }
  }

  /** Python's `int(x)`: truncation toward zero. */
  function TruncInt(x: real): (n: int)
    ensures x >= 0.0 ==> n as real <= x < n as real + 1.0
    ensures x < 0.0 ==> n as real - 1.0 < x <= n as real
  {
    if x >= 0.0 then x.Floor else -((-x).Floor)
  }

  /** A time (in seconds) on the codec's frame grid: a whole number of
      50 Hz frames. */
  predicate OnFrameGrid(t: real)
  {
    (t * 50.0).Floor as real == t * 50.0
  }

  /** A time on the frame grid gives an even interleaved bound: twice its
      frame count. */
  lemma FrameGridEven(t: real)
    requires OnFrameGrid(t)
    ensures TruncInt(t * 100.0) == 2 * TruncInt(t * 50.0)
  {
    var n := (t * 50.0).Floor;
    assert t * 100.0 == (2 * n) as real;
    assert (t * 100.0).Floor == 2 * n;
    if t * 50.0 < 0.0 {
      assert (-(t * 100.0)).Floor == -2 * n;
      assert (-(t * 50.0)).Floor == -n;
    }
  }

  /** The dual-track reference codec:
      `interleaved[int(start*50*2) : int(end*50*2)]` (50 tokens per second on
      each of the two tracks). */
  function DualPromptCodec(v: seq<int>, i: seq<int>, start: real, end: real): (r: seq<int>)
    ensures |r| <= 2 * Shared(v, i)
  {
    PySlice(Interleave(v, i), TruncInt(start * 100.0), TruncInt(end * 100.0))
  }

  /** Token `k` of the dual-track reference codec comes from the vocal track
      when its position in the interleaving is even and from the
      instrumental track when it is odd, whatever the bounds. */
  lemma DualPromptAt(v: seq<int>, i: seq<int>, start: real, end: real, k: nat)
    requires k < |DualPromptCodec(v, i, start, end)|
    ensures var p := Bound(TruncInt(start * 100.0), 2 * Shared(v, i)) + k;
      && p < 2 * Shared(v, i)
      && DualPromptCodec(v, i, start, end)[k] == if p % 2 == 0 then v[p / 2] else i[p / 2]
  {
    var xs := Interleave(v, i);
    var a := Bound(TruncInt(start * 100.0), |xs|);
    var p := a + k;
    InterleaveAt(v, i, p / 2);
    assert p == 2 * (p / 2) + p % 2;
  }

  /** With both times on the frame grid the dual-track reference codec keeps
      every vocal token next to its instrumental partner: it is the
      interleaving of one common cut of both tracks. */
  lemma DualPromptKeepsPairs(v: seq<int>, i: seq<int>, start: real, end: real) returns (lo: nat, hi: nat)
    requires OnFrameGrid(start) && OnFrameGrid(end)
    ensures lo <= hi <= Shared(v, i)
    ensures DualPromptCodec(v, i, start, end) == Interleave(v[lo..hi], i[lo..hi])
  {
    FrameGridEven(start);
    FrameGridEven(end);
    lo, hi := SliceKeepsPairs(v, i, TruncInt(start * 100.0), TruncInt(end * 100.0),
                              TruncInt(start * 50.0), TruncInt(end * 50.0));
  }

  /** Off the frame grid a pair can be split: `--prompt_start_time 1.25`
      starts the slice at the odd position 125, so the reference begins with
      an instrumental token and every later vocal token sits where an
      instrumental one belongs. */
  lemma OddStartSwapsTracks(v: seq<int>, i: seq<int>)
    requires Shared(v, i) > 63
    ensures TruncInt(1.25 * 100.0) == 125 && !OnFrameGrid(1.25)
    ensures DualPromptCodec(v, i, 1.25, 30.0)[0] == i[62]
    ensures DualPromptCodec(v, i, 1.25, 30.0)[1] == v[63]
  {
    assert TruncInt(1.25 * 100.0) == 125;
    assert TruncInt(30.0 * 100.0) == 3000;
    DualPromptAt(v, i, 1.25, 30.0, 0);
    DualPromptAt(v, i, 1.25, 30.0, 1);
  }

  /** The single-track reference codec: `code_ids[int(start*50) : int(end*50)]`. */
  function SinglePromptCodec(codes: seq<int>, start: real, end: real): (r: seq<int>)
    ensures exists lo, hi :: 0 <= lo <= hi <= |codes| && r == codes[lo..hi]
  {
    var lo := Bound(TruncInt(start * 50.0), |codes|);
    var hi := Bound(TruncInt(end * 50.0), |codes|);
    var r := PySlice(codes, TruncInt(start * 50.0), TruncInt(end * 50.0));
    assert lo >= hi ==> r == codes[lo..lo];
    r
  }

  /** The end time used by the continuation trim: 0 means "to the end", read
      as 999 seconds. */
  function ExtendEnd(end: real): (e: real)
    ensures end == 0.0 ==> e == 999.0
    ensures end != 0.0 ==> e == end
  {
    if end == 0.0 then 999.0 else end
  }

  /** `encode_existing_song_for_continuation` after encoding: interleave the
      two tracks, then, when either time is positive, trim them the way the
      dual-track reference is cut, with 999 seconds standing in for an end
      of 0. */
  function ExtendTokens(v: seq<int>, i: seq<int>, start: real, end: real): (r: seq<int>)
    ensures start <= 0.0 && end <= 0.0 ==> r == Interleave(v, i)
    ensures start > 0.0 || end > 0.0 ==> r == DualPromptCodec(v, i, start, ExtendEnd(end))
  {
    var xs := Interleave(v, i);
    if start > 0.0 || end > 0.0 then
      PySlice(xs, TruncInt(start * 100.0), TruncInt(ExtendEnd(end) * 100.0))
    else xs
  }

  /** The continuation tokens are a proper interleaving, with no
      vocal/instrumental pair split, when they are not trimmed or both
      times are on the frame grid. */
  lemma ExtendKeepsPairs(v: seq<int>, i: seq<int>, start: real, end: real) returns (lo: nat, hi: nat)
    requires (start <= 0.0 && end <= 0.0) || (OnFrameGrid(start) && OnFrameGrid(end))
    ensures lo <= hi <= Shared(v, i)
    ensures ExtendTokens(v, i, start, end) == Interleave(v[lo..hi], i[lo..hi])
  {
    if start > 0.0 || end > 0.0 {
      assert OnFrameGrid(ExtendEnd(end)) by {
        if end == 0.0 {
          assert 999.0 * 50.0 == 49950 as real;
        }
      }
      lo, hi := DualPromptKeepsPairs(v, i, start, ExtendEnd(end));
    } else {
      lo, hi := 0, Shared(v, i);
      InterleaveTake(v, i, hi);
      assert v[0..hi] == v[..hi] && i[0..hi] == i[..hi];
    }
  }
}

=== FILE: window.dfy ===
/** The context-window policy of the Stage-1 pipeline. The key/value cache
    holds `cache_size` tokens per row; a segment may add `max_new_tokens`
    sampled tokens plus one forced end of audio, so the context fed to the
    model before sampling is kept to `cache_size - max_new_tokens - 1` tokens
    by keeping only the trailing window of the sequence. */
module Window {
  import opened PySeq
  import opened Wrappers

  /** `max_context = cache_size - max_new_tokens - 1`. */
  function MaxContext(cacheSize: int, maxNew: int): (mc: int)
    ensures mc + maxNew + 1 == cacheSize
    ensures maxNew >= 0 && cacheSize >= maxNew + 2 ==> 1 <= mc < cacheSize
  {
    cacheSize - maxNew - 1
  }

  /** `t` is a trailing part of `s`. */
  predicate IsSuffix(t: seq<int>, s: seq<int>)
  {
    |t| <= |s| && s[|s| - |t|..] == t
  }

  /** `t` is a leading part of `s`. */
  predicate IsPrefix(t: seq<int>, s: seq<int>)
  {
    |t| <= |s| && s[..|t|] == t
  }

  lemma PrefixTrans(a: seq<int>, b: seq<int>, c: seq<int>)
    requires IsPrefix(a, b) && IsPrefix(b, c)
    ensures IsPrefix(a, c)
  {
    assert c[..|a|] == c[..|b|][..|a|];
  }

  lemma SuffixAppend(t: seq<int>, s: seq<int>, u: seq<int>)
    requires IsSuffix(t, s)
    ensures IsSuffix(t + u, s + u)
  {
    assert (s + u)[|s + u| - |t + u|..] == s[|s| - |t|..] + u;
  }

  /** `s[:, -mc:]` when `s` is longer than `mc`, otherwise `s` itself. Python
      reads `-0` as the start, so a zero window keeps everything, and a
      negative window drops tokens from the front instead. */
  function Windowed(s: seq<int>, mc: int): (r: seq<int>)
    ensures IsSuffix(r, s)
    ensures |s| <= mc ==> r == s
    ensures 0 < mc < |s| ==> |r| == mc
    ensures mc == 0 ==> r == s
    ensures mc < 0 ==> r == s[if -mc <= |s| then -mc else |s|..]
  {
    if |s| > mc then PyTail(s, -mc) else s
  }

  /** With a window of at least one token the result is never longer than the
      window. */
  lemma WindowedFits(s: seq<int>, mc: int)
    requires mc >= 1
    ensures |Windowed(s, mc)| <= mc
    ensures |Windowed(s, mc)| == if |s| <= mc then |s| else mc
  {
  }

  /** Windowing twice is windowing once, for every window the source can use
      without dropping tokens from the front. */
  lemma WindowedIdempotent(s: seq<int>, mc: int)
    requires mc >= 0
    ensures Windowed(Windowed(s, mc), mc) == Windowed(s, mc)
  {
  }

  /** A negative window is not idempotent: each application drops more of the
      front. */
  lemma NegativeWindowDropsAgain(s: seq<int>, mc: int)
    requires mc < 0 && |s| > -2 * mc
    ensures |Windowed(Windowed(s, mc), mc)| == |s| + 2 * mc
  {
  }

  /** `model.forward(ids, cache=cache)`: the ids join the cache, which has
      room for `capacity` tokens per row; `None` stands for the overflow. */
  function Forward(cache: seq<int>, ids: seq<int>, capacity: int): (r: Option<seq<int>>)
    ensures r.Some? <==> |cache| + |ids| <= capacity
    ensures r.Some? ==> r.value == cache + ids
  {
    if |cache| + |ids| <= capacity then Some(cache + ids) else None
  }

  /** `_rebuild_cache`: reset the cache and forward the trailing window of
      `s`. */
  function RebuildCache(s: seq<int>, maxNew: int, cacheSize: int): (r: Option<seq<int>>)
    ensures r.Some? ==> IsSuffix(r.value, s)
    ensures r.Some? && |s| <= MaxContext(cacheSize, maxNew) ==> r.value == s
  {
    Forward([], Windowed(s, MaxContext(cacheSize, maxNew)), cacheSize)
  }

  /** When the cache can hold at least the budget plus two tokens, rebuilding
      never overflows, and the rebuilt cache leaves room for a whole segment:
      `max_new_tokens` samples and the forced end of audio. */
  lemma RebuildCacheLeavesRoom(s: seq<int>, maxNew: int, cacheSize: int)
    requires maxNew >= 0 && cacheSize >= maxNew + 2
    ensures RebuildCache(s, maxNew, cacheSize).Some?
    ensures |RebuildCache(s, maxNew, cacheSize).value| + maxNew + 1 <= cacheSize
    ensures |s| > MaxContext(cacheSize, maxNew) ==>
      RebuildCache(s, maxNew, cacheSize).value == s[|s| - MaxContext(cacheSize, maxNew)..]
  {
    WindowedFits(s, MaxContext(cacheSize, maxNew));
  }
}

=== FILE: wrappers.dfy ===
/** Failure-carrying result types shared by the whole model. */
module Wrappers {

  /** An optional value; `None` stands for Python's `None`. */
  datatype Option<+T> = None | Some(value: T) {
    function GetOr(default: T): T {
      match this
      case Some(v) => v
      case None => default
    }
  }

  /** Either a value or the error the Python code would raise. */
  datatype Result<+R, +E> = Ok(value: R) | Err(error: E) {
    predicate IsFailure() {
      Err?
    }

    function PropagateFailure<U>(): Result<U, E>
      requires Err?
    {
      Err(error)
    }

    function Extract(): R
      requires Ok?
    {
      value
    }
  }
}
